=== FILE: README.md ===
# Page extraction pipeline, modelled in Dafny

This project models the core of a PDF note-extraction backend. Each page image is cut into a 4 × 4 grid of layout regions. Each region is offered first to a table extractor and then to a text extractor. The surviving regions are gathered into a document with a summary of counters. The document is then rendered as a readable report, as retrieval-oriented plain text, or as a JSON-ready value tree.

The modules follow the program's components:

| module | file | models |
|---|---|---|
| `Basics` | basics.dfy | optional values, what an engine call yields (unavailable, raised, ran), real min/max |
| `Strings` | strings.dfy | Python's `strip`, `sep.join`, `split(c)`, `split()`, `c * n`, `str(n)` |
| `Sorting` | sorting.dfy | Python's stable `sorted` / `list.sort` over a total preorder |
| `Geometry` | geometry.dfy | word boxes, box centres, the three word orders |
| `LineGrouping` | line_grouping.dfy | the anchored grouping of sorted words into lines (text, 20 px) or rows (tables, 30 px) |
| `Results` | results.dfy | region, page and document records with the `dict.get` defaults the code reads them with |
| `TextExtractor` | text_extractor.py's extractor | confidence filtering, averaging, reading-order reconstruction, line estimate, engine fallback |
| `TableExtractor` | table_extractor.py's extractor | HTML row expansion and padding, table scoring, best-table choice, word-grid fallback |
| `Layout` | main.py's `_analyze_layout` | the 4 × 4 content-density grid |
| `Pipeline` | main.py's `DocumentProcessor` | region dispatch, pages, the summary counters, the fast path and the error document |
| `Serialize` | main.py's `_make_serializable` | the recursive JSON-ready conversion |
| `TextFormatter` | text_formatter.py | the readable report, the retrieval text, tables in sentences |
| `BaseExtractor` | src/extractors/base.py | the region crop, candidate text regions from contour rectangles, the default confidence |

The engines' answers are parameters of the model:
- PaddleOCR's line list;
- EasyOCR's word list;
- separately, both engines' answers on the table extractor's enhanced crop, which the table fallback's own text extractor reads (backend/parsing/src/extractors/table_extractor.py:76-79, 235-238);
- PP-Structure's items with their parsed HTML;
- the morphological line-pixel counts;
- the contours' bounding rectangles.

Where the code loops and appends, the model has a method with loop invariants. Each such method is proved equal to a specification function, and the properties are proved about that function.

## Model

| member | source | states |
|---|---|---|
| Strings.Strip | backend/src/processors/text_formatter.py:73 | `strip()` gives the empty string exactly for a whitespace-only string; otherwise the result begins and ends with non-whitespace |
| Strings.StripIsInfix | backend/src/processors/text_formatter.py:73 | stripping removes only whitespace, and only at the two ends: the input is blank prefix + result + blank suffix |
| Strings.Split | backend/src/processors/text_formatter.py:170 | `split('\n')` always yields at least one field |
| Strings.JoinSplit | backend/src/processors/text_formatter.py:170 | joining the fields of `s.split(c)` with `c` gives `s` back |
| Strings.SplitJoin | backend/parsing/src/extractors/text_extractor.py:225 | splitting a join recovers the parts when no part holds the separator |
| Strings.SplitCount | backend/parsing/main.py:105 | `len(s.split('\n'))` is the number of newlines plus one |
| Strings.Words | backend/parsing/main.py:104 | the words of `split()` are non-empty and start with non-whitespace, and a string that starts with non-whitespace has at least one |
| Strings.WordsReference | backend/parsing/main.py:104 | `split()` equals the non-empty pieces of a split at every single whitespace character: its words are the maximal runs of non-whitespace, in order |
| Strings.WordsNoSpace | backend/parsing/main.py:104 | no word holds a whitespace character |
| Strings.SplitFieldsWithout | backend/src/processors/text_formatter.py:29 | no field of `s.split(c)` holds `c` |
| Strings.WordsEmptyIffBlank | backend/parsing/main.py:104 | `split()` is empty exactly when the string is blank |
| Strings.NatToString | backend/src/processors/text_formatter.py:132 | a row number renders as a non-empty run of decimal digits |
| Strings.NatToStringRoundTrip | backend/src/processors/text_formatter.py:132 | reading the rendered number back gives the number |
| Sorting.SortBy | backend/parsing/src/extractors/text_extractor.py:196-199 | `sorted` returns a permutation of its input, of the same length |
| Sorting.SortBySorted | backend/parsing/src/extractors/text_extractor.py:196-199 | for a total preorder, every earlier element is at most every later one |
| Sorting.SortByStable | backend/parsing/src/extractors/table_extractor.py:291 | `sorted` is stable: the elements tied with any key keep their input order |
| Geometry.CenterX | backend/parsing/src/extractors/text_extractor.py:227-234 | the centre x, as mean of a quadrilateral's corners or midpoint of a flat box, lies within the box |
| Geometry.CenterY | backend/parsing/src/extractors/text_extractor.py:236-243 | likewise for the centre y |
| LineGrouping.LinesFromShape | backend/parsing/src/extractors/text_extractor.py:206-223 | the scan from an open line yields at least one line and at most one per word, with every word once and in order, each line anchored and consecutive anchors more than the tolerance apart |
| LineGrouping.LinesShape | backend/parsing/src/extractors/text_extractor.py:201-225 | the grouping keeps every word exactly once and in order, has no more lines than words and none for no words, keeps each line within the tolerance of its first word, and opens a line only more than the tolerance from the previous anchor |
| TextExtractor.ConfidentExactly | backend/parsing/src/extractors/text_extractor.py:113-124 | the kept words are exactly the reported words reaching the threshold, never more of them than reported |
| TextExtractor.ConfidentAppend | backend/parsing/src/extractors/text_extractor.py:113-124 | the filter keeps input order and multiplicity: filtering a concatenation is filtering each part, in order |
| TextExtractor.ConfidentSingle | backend/parsing/src/extractors/text_extractor.py:117 | a single word is kept exactly when its confidence reaches the threshold |
| TextExtractor.ConfidentRange | backend/parsing/src/extractors/text_extractor.py:117 | every kept word's confidence lies between the threshold and 1 |
| TextExtractor.MeanBounds | backend/parsing/src/extractors/text_extractor.py:127 | a mean of confidences between `low` and 1 lies there too |
| TextExtractor.MeanOfConfident | backend/parsing/src/extractors/text_extractor.py:126-127 | the average is 0.0 when nothing is kept, and otherwise lies between the threshold and 1 |
| TextExtractor.GroupLines | backend/parsing/src/extractors/text_extractor.py:201-223 | the scan with `current_line` / `current_y` yields the line strings of the anchored 20-pixel grouping |
| TextExtractor.ReconstructTextLayout | backend/parsing/src/extractors/text_extractor.py:182-225 | the reconstruction is the reading-order lines joined by newlines, `""` for no words |
| TextExtractor.LineStringRoundTrip | backend/parsing/src/extractors/text_extractor.py:217 | a line's string splits back at spaces into its words and holds no newline |
| TextExtractor.ReadingOrderRoundTrip | backend/parsing/src/extractors/text_extractor.py:182-225 | for a non-empty word list whose texts hold no space or newline, splitting the text at newlines gives one field per line, and each field splits at spaces into that line's words |
| TextExtractor.ReadingLinesOrder | backend/parsing/src/extractors/text_extractor.py:195-225 | the lines, read in turn, are every word exactly once, sorted by `(centre-y, centre-x)` |
| TextExtractor.GapsBound | backend/parsing/src/extractors/text_extractor.py:256-258 | there are fewer gaps than values |
| TextExtractor.LineEstimateBounds | backend/parsing/src/extractors/text_extractor.py:245-260 | the estimate is 0 exactly for no words, and otherwise between 1 and the number of words |
| TextExtractor.EstimateLineCount | backend/parsing/src/extractors/text_extractor.py:245-260 | the counting loop gives one more than the gaps over 20 pixels between sorted centre ys |
| TextExtractor.ExtractWithPaddle | backend/parsing/src/extractors/text_extractor.py:97-139 | the accumulation loop gives the kept words, their mean, the layout text and the counts, or the empty result for no lines |
| TextExtractor.ExtractWithEasy | backend/parsing/src/extractors/text_extractor.py:141-180 | likewise for EasyOCR, with the estimated line count |
| TextExtractor.ExtractText | backend/parsing/src/extractors/text_extractor.py:51-95 | the engine-by-engine extraction equals the fallback policy `Extract` |
| TextExtractor.ExtractPolicy | backend/parsing/src/extractors/text_extractor.py:68-95 | PaddleOCR is chosen exactly when it ran and reached the threshold; EasyOCR exactly when PaddleOCR was not chosen and EasyOCR ran, with no threshold; otherwise the result is empty with confidence 0.0, no words and an error |
| TextExtractor.ExtractKeepsConfidentWords | backend/parsing/src/extractors/text_extractor.py:113-165 | every kept word reached the threshold and was reported by the engine whose result was chosen |
| TextExtractor.ExtractConfidenceRange | backend/parsing/src/extractors/text_extractor.py:126-168 | the result's confidence is 0.0 or between the threshold and 1 |
| TextExtractor.CalculateConfidenceAgrees | backend/parsing/src/extractors/text_extractor.py:262-267 | `calculate_confidence` is 0.0 without word boxes, and on the extractor's own results it equals the reported confidence |
| TableExtractor.CanHandleMonotone | backend/parsing/src/extractors/table_extractor.py:40-55 | without the engine, or without both line counts over 100, no region is a table, and more line pixels never undo a detection |
| TableExtractor.ExpandCell | backend/parsing/src/extractors/table_extractor.py:157-165 | a cell with numeric `colspan` n >= 1 gives n entries, its text first and `''` after; a cell whose span is absent, 1 or less gives exactly `[text]` |
| TableExtractor.ExpandRowShape | backend/parsing/src/extractors/table_extractor.py:154-165 | a row is as long as its cells' widths together, at least its cell count, and empty exactly without cells |
| TableExtractor.ExpandRowPlacement | backend/parsing/src/extractors/table_extractor.py:155-165 | each cell's text sits where the widths of the earlier cells end, followed by empty strings for its extra span |
| TableExtractor.NonEmptyRowsShape | backend/parsing/src/extractors/table_extractor.py:167-168 | rows with no entries are dropped, so none is empty and there are none exactly when every `tr` is empty |
| TableExtractor.NonEmptyRowsAppend | backend/parsing/src/extractors/table_extractor.py:153-168 | the kept rows of two blocks of `tr`s are the kept rows of each, in document order |
| TableExtractor.NonEmptyRowsOrigin | backend/parsing/src/extractors/table_extractor.py:153-168 | every kept row is the expansion of some `tr`, and every `tr` with a cell is kept |
| TableExtractor.MaxLen | backend/parsing/src/extractors/table_extractor.py:172 | the maximum row length bounds every row and is attained, 0 for no rows |
| TableExtractor.ParseRow | backend/parsing/src/extractors/table_extractor.py:154-165 | the cell loop gives the expanded row, or aborts when a span is not a number |
| TableExtractor.NormalizeRows | backend/parsing/src/extractors/table_extractor.py:171-175 | the `while` loop pads each row in place to the longest row's length |
| TableExtractor.ParseHtmlTable | backend/parsing/src/extractors/table_extractor.py:135-181 | the parse row by row, then padding, equals `ParseTable` |
| TableExtractor.ParseTableShape | backend/parsing/src/extractors/table_extractor.py:145-181 | the parsed table is rectangular, each row the longest expanded row's length, at least 1; row `i` is the `i`-th non-empty expanded row followed by `''`; it is empty exactly without a `table` tag, with a non-numeric span, or when every row is empty |
| TableExtractor.ParseTableErrors | backend/parsing/src/extractors/table_extractor.py:145-181 | a missing table tag or a non-numeric span gives `[]` |
| TableExtractor.NonBlankInRow | backend/parsing/src/extractors/table_extractor.py:387 | a row has no more non-blank cells than cells |
| TableExtractor.StructureScoreRange | backend/parsing/src/extractors/table_extractor.py:379-383 | the structure score lies in [0, 1] |
| TableExtractor.ContentScoreRange | backend/parsing/src/extractors/table_extractor.py:386-388 | the content score lies in [0, 1] |
| TableExtractor.SizeScoreRange | backend/parsing/src/extractors/table_extractor.py:391 | the size score lies in [0, 1] |
| TableExtractor.TableConfidenceRange | backend/parsing/src/extractors/table_extractor.py:356-396 | the table confidence lies in [0, 1] and is 0.0 for no rows |
| TableExtractor.RectangularStructure | backend/parsing/src/extractors/table_extractor.py:379-383 | rows of equal length have no variance, so the structure score is 1 |
| TableExtractor.FullContent | backend/parsing/src/extractors/table_extractor.py:386-388 | all cells non-blank gives content score 1 |
| TableExtractor.FullSize | backend/parsing/src/extractors/table_extractor.py:391 | a rectangular table of at least 20 cells has size score 1 |
| TableExtractor.FullTableConfidence | backend/parsing/src/extractors/table_extractor.py:356-396 | a rectangular, fully filled table of at least 20 cells has confidence 1 |
| TableExtractor.ParsedStructureScore | backend/parsing/src/extractors/table_extractor.py:171-175 | every non-empty parsed table scores 1 for structure |
| TableExtractor.ProcessTableRegion | backend/parsing/src/extractors/table_extractor.py:108-133 | an item without HTML gives none; otherwise the parsed table with its confidence and row and column counts |
| TableExtractor.CandidatesAreTables | backend/parsing/src/extractors/table_extractor.py:85-90 | every candidate is a PP-Structure table with a confidence in [0, 1] and its row and column counts |
| TableExtractor.BestIndex | backend/parsing/src/extractors/table_extractor.py:94 | `max` picks a table of highest confidence, the first one on ties |
| TableExtractor.ExtractTable | backend/parsing/src/extractors/table_extractor.py:57-106 | the extraction loop equals `TableResult` |
| TableExtractor.TableResultProperties | backend/parsing/src/extractors/table_extractor.py:57-106 | every result is a table or failure with confidence in [0, 1]; an unavailable engine gives the failure `Table extraction engine not available` and a raising one a failure with its message, both with confidence 0.0; with candidates it is one of highest confidence among them; without any, it is the fallback |
| TableExtractor.FallbackTableExtraction | backend/parsing/src/extractors/table_extractor.py:223-274 | the fallback steps equal `FallbackResult` |
| TableExtractor.FallbackProperties | backend/parsing/src/extractors/table_extractor.py:223-274 | every outcome is a table or a failure; a table has at least two rows, confidence 0.6, `rows = len(data)` and `columns = len(data[0])`; without a text extractor the result is the construction failure |
| TableExtractor.FallbackOutcomes | backend/parsing/src/extractors/table_extractor.py:235-268 | with a text extractor: no word boxes give `No text found for table extraction`; two or more grouped rows give the table of exactly those rows at confidence 0.6; fewer give `Could not detect table structure` |
| TableExtractor.ProcessTableRow | backend/parsing/src/extractors/table_extractor.py:326-340 | one cell per word of the row |
| TableExtractor.GroupSortedWords | backend/parsing/src/extractors/table_extractor.py:294-324 | the scan with `current_row` / `current_y` gives the rows of the anchored 30-pixel grouping |
| TableExtractor.GroupWordsIntoTable | backend/parsing/src/extractors/table_extractor.py:276-324 | the grouping equals `TableRowsOf`: `[]` for no words, else sorted by centre y and grouped |
| TableExtractor.TableRowsShape | backend/parsing/src/extractors/table_extractor.py:276-340 | every word lands in exactly one cell; no row is empty; each row is an anchored group of the y-sorted words, its cells ordered by centre x |
| Layout.RowInk | backend/parsing/main.py:308 | a row span has no more dark pixels than pixels |
| Layout.InkBound | backend/parsing/main.py:308 | a block has no more dark pixels than pixels |
| Layout.CellRect | backend/parsing/main.py:295-298 | each cell's box satisfies `0 <= x1 <= x2 <= width` and `0 <= y1 <= y2 <= height` |
| Layout.AnalyzeCell | backend/parsing/main.py:295-316 | a cell yields a region exactly as `CellRegion` says |
| Layout.AnalyzeLayout | backend/parsing/main.py:275-327 | the nested grid loop with its fallback equals `LayoutOf` |
| Layout.CellRegionBounds | backend/parsing/main.py:300-316 | a cell's region has the cell's box and a density in (0.05, 1] |
| Layout.GridRegionsBounds | backend/parsing/main.py:293-316 | at most one region per cell, each inside the image with a density in (0.05, 1] |
| Layout.LayoutShape | backend/parsing/main.py:275-327 | the layout has between 1 and 16 regions, all inside the image; when no cell qualifies it is exactly the whole image at confidence 1.0 |
| Layout.CellNeedsRoom | backend/parsing/main.py:290-302 | a cell yields a region only when the image is at least 4 pixels each way |
| Layout.EmptyCells | backend/parsing/main.py:290-302 | an image under 4 pixels wide or high has no grid regions |
| Layout.SmallImageLayout | backend/parsing/main.py:318-324 | such an image's layout is the whole image |
| Layout.CellsInOrder | backend/parsing/main.py:293-298 | cell `j`'s corner precedes cell `k`'s in row-major order when `j < k` |
| Layout.GridRegionsFrom | backend/parsing/main.py:293-316 | each grid region has the box of one of the scanned cells |
| Layout.GridRegionsOrdered | backend/parsing/main.py:293-316 | the grid regions come in strictly increasing row-major order |
| Layout.LayoutRowMajor | backend/parsing/main.py:275-327 | the layout is in row-major order |
| Pipeline.ProcessPage | backend/parsing/main.py:229-273 | the layout, then the region loop, equals `PageOf` |
| Pipeline.ProcessRegions | backend/parsing/main.py:246-267 | the region loop appends each layout region's output in turn, giving `PageRegions` |
| Pipeline.ProcessRegion | backend/parsing/main.py:248-267 | one layout region's dispatch, table gate first and text extractor second, equals `RegionOutput` |
| Pipeline.RegionOutputPolicy | backend/parsing/main.py:248-267 | a region yields a table exactly when detected, extracted without raising and confidence > 0.5, and then no text; it yields text exactly when there is no kept table, the text extractor did not raise and the content is not blank |
| Pipeline.NoStructureEngineMeansText | backend/parsing/main.py:251-267 | without the structure engine, only text results are kept |
| Pipeline.PageRegionsAppend | backend/parsing/main.py:248-267 | the page's regions are what each layout region yields, concatenated in layout order |
| Pipeline.PageRegionsShape | backend/parsing/main.py:246-267 | at most one output per layout region; each output is a table of confidence in (0.5, 1] or non-blank text |
| Pipeline.PageOfShape | backend/parsing/main.py:269-273 | a page records its number and `region_count = len(regions)`, at most 16 |
| Pipeline.CountRegions | backend/parsing/main.py:175-178 | the counting loop as written, bumping a counter whose key is the region's type, equals `TallyAsWritten` |
| Pipeline.TallyAsWrittenIgnores | backend/parsing/main.py:175-178 | as written, text and table regions never bump a counter |
| Pipeline.TextRegionUncounted | backend/parsing/main.py:175-178 | as written, a page with one text region reports 0 text regions |
| Pipeline.TallyCounts | backend/parsing/main.py:157-178 | corrected: the page count and, for each kind, the number of regions of that kind |
| Pipeline.TallyAsWrittenAppend | backend/parsing/main.py:169-178 | as written, counting page by page equals counting all regions at once |
| Pipeline.TallyAppend | backend/parsing/main.py:169-178 | corrected, counting page by page equals counting all regions at once |
| Pipeline.ProcessPdfWithOcr | backend/parsing/main.py:145-181 | the page loop, counting as written, equals `OcrDocument` |
| Pipeline.ProcessImage | backend/parsing/main.py:169-173 | image `i` is processed as page `i + 1` |
| Pipeline.PagesUpToShape | backend/parsing/main.py:169-173 | one page per image, in image order, page `i + 1` built from image `i` |
| Pipeline.AllRegionsTextOrTable | backend/parsing/main.py:169-178 | when every page holds only text and table regions, so do all of them together |
| Pipeline.PageOfTextOrTable | backend/parsing/main.py:246-273 | a page holds only text and table regions |
| Pipeline.OcrPagesShape | backend/parsing/main.py:169-173 | one page per image, numbered from 1, each with its region count and only text and table regions |
| Pipeline.OcrDocumentShape | backend/parsing/main.py:145-181 | as many pages as images, numbered from 1, each with its region count and only text and table regions; the summary is exactly the initial one: `total_pages` is the image count and every other counter is 0 |
| Pipeline.IntendedOcrDocumentCounts | backend/parsing/main.py:157-178 | corrected, the same pages, with `total_pages` the image count, `text_regions` and `tables` the numbers of text and table regions, and `equations` and `diagrams` 0 |
| Pipeline.TextOrTableCounts | backend/parsing/main.py:157-178 | text and table regions count no equation or diagram |
| Pipeline.CountKindPositive | backend/parsing/main.py:175-178 | a non-empty list of text and table regions counts at least one of them |
| Pipeline.InitialIsCountIff | backend/parsing/main.py:157-178 | for text and table regions, the initial counters are their counts exactly when there is no region |
| Pipeline.FastPathShape | backend/parsing/main.py:93-117 | one page holding one text region at confidence 1.0, its word count that of `split()` (0 exactly for blank text), its line count the newlines plus one |
| Pipeline.OneTextPage | backend/parsing/main.py:110-116 | the fast path's fixed counters are what counting its one page gives |
| Pipeline.ProcessPdfSummary | backend/parsing/main.py:79-143 | the fast path and the error path report the corrected counts of their one page; the OCR path reports the initial counters, which are the counts of its pages exactly when it found no region |
| Serialize.MakeSerializableShape | backend/parsing/main.py:350-359 | the result is serializable; dicts keep their keys in order, lists their length; other objects become their string; scalars are kept |
| Serialize.MakeSerializableFixes | backend/parsing/main.py:350-359 | a value is left unchanged exactly when it is already serializable |
| Serialize.MakeSerializableIdempotent | backend/parsing/main.py:350-359 | converting twice is converting once |
| TextFormatter.LastIndex | backend/src/processors/text_formatter.py:29 | the position of the last occurrence of a character, or -1 |
| TextFormatter.StemOfNameSpec | backend/src/processors/text_formatter.py:29 | the stem is a prefix of the name; `base.ext` loses exactly `.ext`; a name without a dot is kept whole |
| TextFormatter.LastComponentFrom | backend/src/processors/text_formatter.py:29 | the name is empty or one of the path's components, and then not `.` |
| TextFormatter.NameShape | backend/src/processors/text_formatter.py:29 | the name has no `/` and is not `.`; a path without `/` other than `.` is its own name |
| TextFormatter.FormatTable | backend/src/processors/text_formatter.py:116-138 | the row loop equals `TableText`, `""` for no data |
| TextFormatter.RowLinesShape | backend/src/processors/text_formatter.py:125-132 | row 0 becomes `Headers: ` with cells joined by ` | ` and a 40-dash rule; row `i >= 1` becomes `Row i: ` with its cells |
| TextFormatter.DiagramLinesShape | backend/src/processors/text_formatter.py:179-190 | a diagram's lines are `Diagram/Chart n:`, then `Description: ...` exactly when it has a description, then the confidence line |
| TextFormatter.EquationLinesSpec | backend/src/processors/text_formatter.py:140-157 | the `Text:` line appears exactly when the content is non-empty and differs from the LaTeX, the `LaTeX:` line exactly when there is LaTeX |
| TextFormatter.FormatCode | backend/src/processors/text_formatter.py:159-177 | the indentation loop equals `CodeText` |
| TextFormatter.CodeIndentRoundTrip | backend/src/processors/text_formatter.py:166-172 | every code line starts with four spaces, and removing them and joining with newlines restores the content |
| TextFormatter.FormatEntry | backend/src/processors/text_formatter.py:70-112 | one region's entry as its kind requires |
| TextFormatter.FormatEntries | backend/src/processors/text_formatter.py:81-85 | the numbered loop gives the non-empty entries, each followed by an empty line |
| TextFormatter.FormatSection | backend/src/processors/text_formatter.py:79-85 | a kind's heading and entries, nothing without regions of the kind |
| TextFormatter.FormatPage | backend/src/processors/text_formatter.py:53-114 | the page formatter equals `PageText` |
| TextFormatter.OfKindSpec | backend/src/processors/text_formatter.py:64-68 | the filter keeps exactly the page's regions of the kind, in order |
| TextFormatter.SectionPresence | backend/src/processors/text_formatter.py:79-112 | a kind's heading appears exactly when the page has a region of that kind, even if every entry is empty |
| TextFormatter.EntriesNumbered | backend/src/processors/text_formatter.py:81-85 | the `i`-th region of a kind is numbered `i + 1`, and its entry appears when non-empty |
| TextFormatter.TextEntriesNotBlank | backend/src/processors/text_formatter.py:71-76 | no text entry is blank |
| TextFormatter.SectionSnocOther | backend/src/processors/text_formatter.py:63-68 | a region of another kind leaves a section unchanged |
| TextFormatter.OtherKindsIgnored | backend/src/processors/text_formatter.py:63-112 | a region of an unformatted type leaves the page text unchanged |
| TextFormatter.SameSection | backend/src/processors/text_formatter.py:78-85 | a section depends only on the regions of its kind |
| TextFormatter.PageByKind | backend/src/processors/text_formatter.py:53-114 | a page's text depends only on its regions of each kind, not on how the kinds interleave |
| TextFormatter.PageTextNotBlank | backend/src/processors/text_formatter.py:57-58 | a page's text starts with `PAGE n`, so it is never blank |
| TextFormatter.EmitPage | backend/src/processors/text_formatter.py:46-49 | a page contributes its text and the separator, or nothing when blank |
| TextFormatter.FormatPages | backend/src/processors/text_formatter.py:44-49 | the page loop gives every page's block in order |
| TextFormatter.FormatResults | backend/src/processors/text_formatter.py:16-51 | the report is the header, the five counters and the pages' blocks, joined by newlines |
| TextFormatter.BlocksOfNonBlank | backend/src/processors/text_formatter.py:44-49 | non-blank texts give their text and a separator each, in order |
| TextFormatter.EveryPageEmitted | backend/src/processors/text_formatter.py:44-49 | every page is emitted: page `i`'s text and the separator are lines `2i` and `2i + 1` of the pages' part |
| TextFormatter.DescribeRow | backend/src/processors/text_formatter.py:272-275 | the cell loop equals `Pairs` |
| TextFormatter.PairsSpec | backend/src/processors/text_formatter.py:273-275 | there is no pair exactly when every cell that has a header is blank |
| TextFormatter.DescribeSample | backend/src/processors/text_formatter.py:271-278 | the sample loop equals `SampleLines` |
| TextFormatter.SampleLinesShape | backend/src/processors/text_formatter.py:271-278 | at most one line per row, each starting `Row ` |
| TextFormatter.TableToNaturalLanguage | backend/src/processors/text_formatter.py:256-283 | the method equals `NaturalLanguage` of the table's data |
| TextFormatter.NaturalLinesShape | backend/src/processors/text_formatter.py:256-283 | nothing for fewer than two rows; otherwise the columns line, at most three row lines, and `... and k more rows` exactly when there are more than three data rows |
| TextFormatter.RagBlock | backend/src/processors/text_formatter.py:215-252 | one region's block, per its type |
| TextFormatter.RagPage | backend/src/processors/text_formatter.py:211-252 | the region loop gives every region's block in order |
| TextFormatter.FormatForRag | backend/src/processors/text_formatter.py:192-254 | the retrieval text is the document line, then every region of every page in order |
| TextFormatter.RagEntryShape | backend/src/processors/text_formatter.py:215-252 | every block ends with an empty line; unknown types give nothing; text gives a block exactly when not blank, a table exactly when it has at least two rows |
| BaseExtractor.SliceBound | backend/src/extractors/base.py:56-58 | a slice bound lands within `0 .. len` |
| BaseExtractor.SliceSpec | backend/src/extractors/base.py:56-58 | a slice holds the elements from the clamped start to the clamped stop; bounds within the sequence are taken as given, and negative ones count from the end |
| BaseExtractor.CropWindow | backend/src/extractors/base.py:56-58 | a crop of a rectangular image is a rectangular window of the clamped spans, pixel `(r, c)` being the image's `(top + r, left + c)` |
| BaseExtractor.CropInside | backend/src/extractors/base.py:56-58 | a box inside the image crops out exactly the `(y2 - y1)` by `(x2 - x1)` window at `(x1, y1)` |
| BaseExtractor.CropWholeImage | backend/src/extractors/base.py:56-58 | the whole-image box leaves the image unchanged |
| BaseExtractor.CalculateConfidence | backend/src/extractors/base.py:140-151 | the default score is a value in [0, 1] |
| BaseExtractor.GetTextRegions | backend/src/extractors/base.py:101-138 | the append loop followed by the in-place sort gives `TextRegions`: the kept rectangles' regions, largest area first |
| BaseExtractor.RegionOfInjective | backend/src/extractors/base.py:129-133 | a region determines the rectangle it came from |
| BaseExtractor.CandidatesAppend | backend/src/extractors/base.py:125-134 | the filter keeps contour order |
| BaseExtractor.CandidatesCount | backend/src/extractors/base.py:125-134 | each rectangle with both sides over 10 yields exactly one region, and every other yields none |
| BaseExtractor.CandidatesFrom | backend/src/extractors/base.py:123-134 | no more regions than contours; each has bbox `(x, y, x+w, y+h)`, area `w*h` and ratio `w/h` of a kept rectangle |
| BaseExtractor.TextRegionsSpec | backend/src/extractors/base.py:123-138 | the result is ordered by non-increasing area, is a permutation of the kept regions, has no more entries than contours, and each entry comes from a kept rectangle |
| BaseExtractor.TextRegionsStable | backend/src/extractors/base.py:136 | regions of equal area keep contour order |

## Left out

- The OCR and structure engines are not modelled. PaddleOCR, EasyOCR and PP-Structure are foreign machine-learning calls, so their outputs are inputs of the model. So are whether an engine initialised and whether a call raised.
- OpenCV and NumPy numerics are not modelled: colour conversion, CLAHE, blur, denoising, Otsu thresholding, morphology and `findContours`.
  - This covers `preprocess_image`'s colour handling and all of `enhance_image_quality`.
  - The model starts from their results: line-pixel counts, contour rectangles, and grey levels as channel means.
- BeautifulSoup is not modelled. Its output is a table of rows of (stripped text, colspan) cells. A colspan that `int()` rejects stands for the caught exception, which makes the parse return `[]`.
- PDF reading and file output are not modelled.
  - `extract_text_from_pdf` becomes an optional direct text.
  - `_pdf_to_images` becomes a list of images.
  - `save_results`, `main` and `convert_json_to_text` are not modelled.
- Exceptions inside a region's table or text extraction are flags of the region's inputs (`tableRaises`, `textRaises`). The OCR path's failure is an optional message that selects the error document.
- The `:.2f` confidence rendering is a parameter `showConf`. Confidences are exact reals, so floating-point rounding is not modelled.
- Region dictionaries become a datatype per region type. Fields the pipeline never reads back are dropped: `html`, `bbox`, and the layout's `type` and `content_density`.
- Tuples, NumPy scalars that subclass none of `str`, `int`, `float` and `bool` (`np.float32`, `np.int64`, `np.bool_`) and other objects in the result tree are modelled as `Other(text)`, where `text` is what `str()` gives for them. `np.float64` and `np.str_` subclass `float` and `str`, so they are modelled as `Float` and `Str` values and kept unchanged.
- File names: the stem is taken after splitting the path at `/` and skipping empty and `.` components. Other path normalisation, such as Windows separators, is not modelled.
- `TextExtractor` construction fails when neither engine initialises. This is modelled as the `Constructible` predicate. `BaseExtractor`'s constructor only stores the threshold (0.8) and is not modelled further.
- The table extractor inherits from `backend/parsing/src/extractors/base.py`, whose base class has no `preprocess_image`, `enhance_image_quality` or `logger`. The model assumes the helpers of `backend/src/extractors/base.py`, which are the ones modelled here.
- TableExtractor.GroupWordsIntoTable: the fallback's rows are not padded to equal length. Unlike the HTML path, which pads every row to the longest (backend/parsing/src/extractors/table_extractor.py:171-175), the fallback does not pad; the model follows the code.
- BaseExtractor.GetTextRegions: `list.sort` sorts in place, but the model sorts a sequence value and reassigns it. Aliasing of the list is not captured.
- BaseExtractor.CalculateConfidence: its contract states only the [0, 1] range the documentation promises. The constant 0.5 is the body; the extracted data are not inspected.
- BaseExtractor.Crop: the image is a sequence of rows of pixels. A 4-tuple box is always truthy in Python, so every box crops, including `(0, 0, 0, 0)`.

## Findings

| source | as written | input that shows it | evidently intended | confidence | as-written member | corrected member |
|---|---|---|---|---|---|---|
| backend/parsing/main.py:175-178 | a counter is bumped only when a summary key equals the region's `type`. The types are `text`/`table` and the keys are `text_regions`/`tables`, so these counters stay 0 | a PDF with no text layer and one page whose only region is a text region: `text_regions` is reported as 0 | each region bumps its kind's counter, as the fast path's `text_regions: 1` shows | not executed | Pipeline.OcrDocumentShape, Pipeline.TextRegionUncounted | Pipeline.IntendedOcrDocumentCounts, Pipeline.TallyCounts |

=== FILE: base_extractor.dfy ===
/** The helpers every extractor inherits: cropping an image to a region
    before extraction, finding candidate text regions from the bounding
    rectangles of an image's contours, and the default confidence score. */
module BaseExtractor {
  import opened Basics
  import opened Sorting
  import opened Geometry

  /** The confidence threshold an extractor is built with unless told otherwise. */
  const DefaultConfidenceThreshold: real := 0.8

  /** The default score of an extraction, whatever was extracted. */
  const DefaultConfidence: real := 0.5

  /** A region is kept only when both its sides exceed this many pixels. */
  const MinSide: int := 10

  // ---------------------------------------------------------------------
  // Cropping to a region
  // ---------------------------------------------------------------------

  /** Where a Python slice bound `i` lands in a sequence of length `n`: a
      negative bound counts from the end, and the result is clamped to
      `0 .. n`. */
  function SliceBound(i: int, n: nat): (b: nat)
    ensures b <= n
  {
    if i < 0 then (if i + n < 0 then 0 else i + n)
    else if i > n then n
    else i
  }

  /** The Python slice `s[i:j]`: empty when the clamped stop does not pass
      the clamped start. */
  function Slice<T>(s: seq<T>, i: int, j: int): seq<T>
  {
    var lo, hi := SliceBound(i, |s|), SliceBound(j, |s|);
    if lo < hi then s[lo..hi] else []
  }

  /** What a slice holds: the elements from the clamped start up to the
      clamped stop, in order; bounds inside the sequence are taken as they
      are, and negative ones count back from the end. */
  lemma SliceSpec<T>(s: seq<T>, i: int, j: int)
    ensures var lo, hi := SliceBound(i, |s|), SliceBound(j, |s|);
      && |Slice(s, i, j)| == (if lo < hi then hi - lo else 0)
      && (forall k :: 0 <= k < |Slice(s, i, j)| ==> Slice(s, i, j)[k] == s[lo + k])
    ensures 0 <= i <= j <= |s| ==> Slice(s, i, j) == s[i..j]
    ensures -|s| <= i < 0 ==> SliceBound(i, |s|) == |s| + i
  {
  }

  /** A rectangular image: every row as wide as `width`. */
  predicate Rectangular<P>(image: seq<seq<P>>, width: nat)
  {
    forall r :: 0 <= r < |image| ==> |image[r]| == width
  }

  /** The image a region box selects, as `image[y1:y2, x1:x2]` does; with
      no box the image is returned whole. A box is a 4-tuple, which Python
      always treats as true, so every box crops, even an all-zero one. */
  function Crop<P>(image: seq<seq<P>>, regionBox: Option<(int, int, int, int)>): seq<seq<P>>
  {
    match regionBox
    case None => image
    case Some(box) =>
      var rows := Slice(image, box.1, box.3);
      seq(|rows|, r requires 0 <= r < |rows| => Slice(rows[r], box.0, box.2))
  }

  /** A crop of a rectangular image is a rectangular window of it: its
      height and width are the clamped spans of the box, and the pixel at
      `(r, c)` of the crop is the one at `(top + r, left + c)` of the image. */
  lemma CropWindow<P>(image: seq<seq<P>>, width: nat, x1: int, y1: int, x2: int, y2: int)
    requires Rectangular(image, width)
    ensures var c := Crop(image, Some((x1, y1, x2, y2)));
      var top, bottom := SliceBound(y1, |image|), SliceBound(y2, |image|);
      var left, right := SliceBound(x1, width), SliceBound(x2, width);
      && |c| == (if top < bottom then bottom - top else 0)
      && Rectangular(c, if left < right then right - left else 0)
      && (forall r, col :: 0 <= r < |c| && 0 <= col < |c[r]| ==> c[r][col] == image[top + r][left + col])
  {
    var c := Crop(image, Some((x1, y1, x2, y2)));
    var rows := Slice(image, y1, y2);
    SliceSpec(image, y1, y2);
    forall r | 0 <= r < |c|
      ensures |c[r]| == (if SliceBound(x1, width) < SliceBound(x2, width) then SliceBound(x2, width) - SliceBound(x1, width) else 0)
      ensures forall col :: 0 <= col < |c[r]| ==> c[r][col] == image[SliceBound(y1, |image|) + r][SliceBound(x1, width) + col]
    {
      assert rows[r] == image[SliceBound(y1, |image|) + r];
      SliceSpec(rows[r], x1, x2);
    }
  }

  /** A box lying inside a rectangular image crops out exactly the
      `(y2 - y1)` by `(x2 - x1)` window at `(x1, y1)`. */
  lemma CropInside<P>(image: seq<seq<P>>, width: nat, x1: int, y1: int, x2: int, y2: int)
    requires Rectangular(image, width)
    requires 0 <= x1 <= x2 <= width && 0 <= y1 <= y2 <= |image|
    ensures var c := Crop(image, Some((x1, y1, x2, y2)));
      && |c| == y2 - y1
      && Rectangular(c, x2 - x1)
      && (forall r, col :: 0 <= r < |c| && 0 <= col < |c[r]| ==> c[r][col] == image[y1 + r][x1 + col])
  {
    CropWindow(image, width, x1, y1, x2, y2);
  }

  /** The whole-image box `(0, 0, width, height)` leaves the image as it is. */
  lemma CropWholeImage<P>(image: seq<seq<P>>, width: nat)
    requires Rectangular(image, width)
    ensures Crop(image, Some((0, 0, width, |image|))) == image
  {
    var c := Crop(image, Some((0, 0, width, |image|)));
    CropInside(image, width, 0, 0, width, |image|);
    forall r | 0 <= r < |c|
      ensures c[r] == image[r]
    {
      assert |c[r]| == |image[r]|;
    }
  }

  // ---------------------------------------------------------------------
  // Default confidence
  // ---------------------------------------------------------------------

  /** The score an extractor that does not override it gives any
      extraction: a probability, and the same one for every input. */
  function CalculateConfidence<T>(extractedData: T): (c: real)
    ensures 0.0 <= c <= 1.0
  {
    DefaultConfidence
  }

  // ---------------------------------------------------------------------
  // Text regions from contours
  // ---------------------------------------------------------------------

  /** The bounding rectangle of one contour: its corner and its size. */
  datatype BoundingRect = BoundingRect(x: int, y: int, w: int, h: int)

  /** A candidate text region: its box `(x1, y1, x2, y2)`, its area and its
      width-to-height ratio. */
  datatype TextRegion = TextRegion(bbox: Rect, area: int, aspectRatio: real)

  /** Both sides exceed the minimum. */
  predicate IsTextSized(b: BoundingRect)
  {
    b.w > MinSide && b.h > MinSide
  }

  function RegionOf(b: BoundingRect): TextRegion
    requires b.h != 0
  {
    TextRegion(Rect(b.x, b.y, b.x + b.w, b.y + b.h), b.w * b.h, b.w as real / b.h as real)
  }

  /** A region as one is built from a kept rectangle: sides over the
      minimum, the area their product, the ratio their quotient. */
  predicate WellFormed(t: TextRegion)
  {
    var w, h := t.bbox.x2 - t.bbox.x1, t.bbox.y2 - t.bbox.y1;
    w > MinSide && h > MinSide && t.area == w * h && t.aspectRatio == w as real / h as real
  }

  /** The regions of the kept rectangles, in contour order. */
  function Candidates(rects: seq<BoundingRect>): seq<TextRegion>
  {
    if rects == [] then []
    else
      var last := rects[|rects| - 1];
      Candidates(rects[..|rects| - 1]) + (if IsTextSized(last) then [RegionOf(last)] else [])
  }

  /** Larger area first; Python's `sort(key=area, reverse=True)` keeps equal
      areas in their previous order. */
  predicate LargerFirst(a: TextRegion, b: TextRegion)
  {
    a.area >= b.area
  }

  lemma LargerFirstIsTotal()
    ensures TotalPreorder(LargerFirst)
  {
  }

  /** The text regions of an image whose contours have these bounding
      rectangles: the kept ones, largest area first. */
  function TextRegions(rects: seq<BoundingRect>): seq<TextRegion>
  {
    SortBy(Candidates(rects), LargerFirst)
  }

  method GetTextRegions(rects: seq<BoundingRect>) returns (regions: seq<TextRegion>)
    ensures regions == TextRegions(rects)
  {
    regions := [];
    for i := 0 to |rects|
      invariant regions == Candidates(rects[..i])
    {
      assert rects[..i + 1][..i] == rects[..i];
      var b := rects[i];
      if b.w > MinSide && b.h > MinSide {
        regions := regions + [TextRegion(Rect(b.x, b.y, b.x + b.w, b.y + b.h), b.w * b.h, b.w as real / b.h as real)];
      }
    }
    assert rects[..|rects|] == rects;
    regions := SortBy(regions, LargerFirst);
  }

  /** A region determines the rectangle it was built from. */
  lemma RegionOfInjective(a: BoundingRect, b: BoundingRect)
    requires a.h != 0 && b.h != 0
    ensures RegionOf(a) == RegionOf(b) <==> a == b
  {
  }

  /** Filtering keeps contour order: the regions of two runs of contours
      are those of the first followed by those of the second. */
  lemma {:induction false} CandidatesAppend(a: seq<BoundingRect>, b: seq<BoundingRect>)
    ensures Candidates(a + b) == Candidates(a) + Candidates(b)
    decreases |b|
  {
    if b == [] {
      assert a + b == a;
    } else {
      var init, last := b[..|b| - 1], b[|b| - 1];
      assert (a + b)[..|a + b| - 1] == a + init;
      CandidatesAppend(a, init);
    }
  }

  /** Each kept rectangle yields exactly one region and every other yields
      none: a region occurs as often as the rectangle it comes from occurs
      among the kept ones, so there are never more regions than contours. */
  lemma {:induction false} CandidatesCount(rects: seq<BoundingRect>, b: BoundingRect)
    requires b.h != 0
    ensures multiset(Candidates(rects))[RegionOf(b)] == if IsTextSized(b) then multiset(rects)[b] else 0
  {
    if rects != [] {
      var init, last := rects[..|rects| - 1], rects[|rects| - 1];
      assert rects == init + [last];
      CandidatesCount(init, b);
      if IsTextSized(last) {
        RegionOfInjective(last, b);
      }
    }
  }

  /** Every region comes from a kept rectangle among the contours' and is
      well formed, and there are at most as many regions as contours. */
  lemma {:induction false} CandidatesFrom(rects: seq<BoundingRect>)
    ensures |Candidates(rects)| <= |rects|
    ensures forall t :: t in Candidates(rects) ==>
      WellFormed(t) && exists b :: b in rects && IsTextSized(b) && t == RegionOf(b)
  {
    if rects != [] {
      var init, last := rects[..|rects| - 1], rects[|rects| - 1];
      assert rects == init + [last];
      CandidatesFrom(init);
      forall t | t in Candidates(rects)
        ensures WellFormed(t) && exists b :: b in rects && IsTextSized(b) && t == RegionOf(b)
      {
        if t in Candidates(init) {
          var b :| b in init && IsTextSized(b) && t == RegionOf(b);
          assert b in rects;
        } else {
          assert t == RegionOf(last);
        }
      }
    }
  }

  /** What `get_text_regions` returns: largest area first, exactly the
      regions of the kept rectangles (each as often as its rectangle), no
      more of them than contours, each well formed. */
  lemma TextRegionsSpec(rects: seq<BoundingRect>)
    ensures var out := TextRegions(rects);
      && (forall i, j :: 0 <= i < j < |out| ==> out[i].area >= out[j].area)
      && multiset(out) == multiset(Candidates(rects))
      && |out| <= |rects|
      && (forall t :: t in out ==> WellFormed(t) && exists b :: b in rects && IsTextSized(b) && t == RegionOf(b))
  {
    LargerFirstIsTotal();
    SortBySorted(Candidates(rects), LargerFirst);
    CandidatesFrom(rects);
    var out := TextRegions(rects);
    forall t | t in out
      ensures t in Candidates(rects)
    {
      assert t in multiset(out);
    }
  }

  /** Regions of equal area keep the order their contours came in. */
  lemma TextRegionsStable(rects: seq<BoundingRect>, y: TextRegion)
    ensures TiedWith(TextRegions(rects), y, LargerFirst) == TiedWith(Candidates(rects), y, LargerFirst)
  {
    LargerFirstIsTotal();
    SortByStable(Candidates(rects), y, LargerFirst);
  }
}

=== FILE: basics.dfy ===
/** Small shared vocabulary: an optional value, an engine call that may be
    missing or may raise, and real-number helpers used by the scores. */
module Basics {

  datatype Option<T> = None | Some(value: T)

  /** What calling an external engine (an OCR reader, the table structure
      recogniser) yields: it was never initialised, it raised with a message,
      or it returned an output. */
  datatype EngineRun<T> = Unavailable | Raised(message: string) | Ran(output: T)

  function Abs(x: real): real
  {
    if x < 0.0 then -x else x
  }

  function MinReal(a: real, b: real): real
  {
    if a <= b then a else b
  }

  function MaxReal(a: real, b: real): real
  {
    if a >= b then a else b
  }

  function MinInt(a: int, b: int): int
  {
    if a <= b then a else b
  }
}

=== FILE: geometry.dfy ===
/** Recognised words and their boxes, the centre of a box, and the three
    orders the extractors sort words in. */
module Geometry {
  import opened Basics
  import opened Sorting

  datatype Point = Point(x: real, y: real)

  /** A word's box as an OCR engine reports it: four corner points, or the
      flat form `[x1, y1, x2, y2]`. */
  datatype BBox =
    | Quad(p1: Point, p2: Point, p3: Point, p4: Point)
    | Flat(x1: real, y1: real, x2: real, y2: real)

  /** An integer pixel rectangle `(x1, y1, x2, y2)`, as layout regions use. */
  datatype Rect = Rect(x1: int, y1: int, x2: int, y2: int)

  /** One recognised token: its text, its box and the engine's confidence. */
  datatype WordBox = WordBox(text: string, box: BBox, confidence: real)

  function MinX(b: BBox): real
  {
    match b
    case Quad(p1, p2, p3, p4) => MinReal(MinReal(p1.x, p2.x), MinReal(p3.x, p4.x))
    case Flat(x1, _, x2, _) => MinReal(x1, x2)
  }

  function MaxX(b: BBox): real
  {
    match b
    case Quad(p1, p2, p3, p4) => MaxReal(MaxReal(p1.x, p2.x), MaxReal(p3.x, p4.x))
    case Flat(x1, _, x2, _) => MaxReal(x1, x2)
  }

  function MinY(b: BBox): real
  {
    match b
    case Quad(p1, p2, p3, p4) => MinReal(MinReal(p1.y, p2.y), MinReal(p3.y, p4.y))
    case Flat(_, y1, _, y2) => MinReal(y1, y2)
  }

  function MaxY(b: BBox): real
  {
    match b
    case Quad(p1, p2, p3, p4) => MaxReal(MaxReal(p1.y, p2.y), MaxReal(p3.y, p4.y))
    case Flat(_, y1, _, y2) => MaxReal(y1, y2)
  }

  /** The horizontal centre: the mean of the four corners' x, or the
      midpoint of the flat form's two x; it lies within the box. */
  function CenterX(b: BBox): (cx: real)
    ensures MinX(b) <= cx <= MaxX(b)
  {
    match b
    case Quad(p1, p2, p3, p4) => (p1.x + p2.x + p3.x + p4.x) / 4.0
    case Flat(x1, _, x2, _) => (x1 + x2) / 2.0
  }

  /** The vertical centre, likewise; it lies within the box. */
  function CenterY(b: BBox): (cy: real)
    ensures MinY(b) <= cy <= MaxY(b)
  {
    match b
    case Quad(p1, p2, p3, p4) => (p1.y + p2.y + p3.y + p4.y) / 4.0
    case Flat(_, y1, _, y2) => (y1 + y2) / 2.0
  }

  function Cy(w: WordBox): real
  {
    CenterY(w.box)
  }

  function Cx(w: WordBox): real
  {
    CenterX(w.box)
  }

  /** The reading-order key `(centre-y, centre-x)` compared as a Python tuple. */
  predicate ReadingLe(a: WordBox, b: WordBox)
  {
    Cy(a) < Cy(b) || (Cy(a) == Cy(b) && Cx(a) <= Cx(b))
  }

  /** The key `centre-y` alone. */
  predicate RowLe(a: WordBox, b: WordBox)
  {
    Cy(a) <= Cy(b)
  }

  /** The key `centre-x` alone. */
  predicate ColumnLe(a: WordBox, b: WordBox)
  {
    Cx(a) <= Cx(b)
  }

  lemma ReadingOrderIsTotal()
    ensures TotalPreorder(ReadingLe)
  {
  }

  lemma RowOrderIsTotal()
    ensures TotalPreorder(RowLe)
  {
  }

  lemma ColumnOrderIsTotal()
    ensures TotalPreorder(ColumnLe)
  {
  }

  function Texts(ws: seq<WordBox>): (r: seq<string>)
    ensures |r| == |ws| && forall k :: 0 <= k < |ws| ==> r[k] == ws[k].text
  {
    seq(|ws|, k requires 0 <= k < |ws| => ws[k].text)
  }
}

=== FILE: layout.dfy ===
/** Layout analysis of a page image: the page is cut into a 4 x 4 grid and
    every cell with enough dark pixels becomes a text region whose
    confidence is its content density; a page with no such cell becomes one
    region covering the whole image. */
module Layout {
  import opened Basics
  import opened Geometry

  /** A grey level below which a pixel counts as content. */
  const InkLevel: real := 240.0

  /** The cells of the 4 x 4 grid. */
  const CellCount: nat := 16

  /** The content density a cell must exceed. */
  const MinDensity: real := 0.05

  /** A page image: for every pixel, the mean of its colour channels. */
  datatype Image = Image(height: nat, width: nat, gray: seq<seq<real>>)

  /** The pixel rows are `height` rows of `width` pixels each. */
  predicate WellFormed(img: Image)
  {
    |img.gray| == img.height && forall y :: 0 <= y < img.height ==> |img.gray[y]| == img.width
  }

  /** A layout region: its box and its content density, which is also its confidence. */
  datatype LayoutRegion = LayoutRegion(box: Rect, confidence: real)

  /** The whole-image region returned when no cell holds content. */
  function WholeImage(img: Image): LayoutRegion
  {
    LayoutRegion(Rect(0, 0, img.width, img.height), 1.0)
  }

  /** Dark pixels of one row between columns `x1` and `x2`. */
  function RowInk(row: seq<real>, x1: nat, x2: nat): (n: nat)
    requires x1 <= x2 <= |row|
    ensures n <= x2 - x1
    decreases x2 - x1
  {
    if x1 == x2 then 0 else RowInk(row, x1, x2 - 1) + (if row[x2 - 1] < InkLevel then 1 else 0)
  }

  /** Dark pixels of the block `[y1, y2) x [x1, x2)`. */
  function Ink(img: Image, y1: nat, y2: nat, x1: nat, x2: nat): nat
    requires WellFormed(img) && y1 <= y2 <= img.height && x1 <= x2 <= img.width
    decreases y2 - y1
  {
    if y1 == y2 then 0 else Ink(img, y1, y2 - 1, x1, x2) + RowInk(img.gray[y2 - 1], x1, x2)
  }

  /** A block has no more dark pixels than pixels. */
  lemma {:induction false} InkBound(img: Image, y1: nat, y2: nat, x1: nat, x2: nat)
    requires WellFormed(img) && y1 <= y2 <= img.height && x1 <= x2 <= img.width
    ensures Ink(img, y1, y2, x1, x2) <= (y2 - y1) * (x2 - x1)
    decreases y2 - y1
  {
    if y1 < y2 {
      InkBound(img, y1, y2 - 1, x1, x2);
      assert (y2 - y1) * (x2 - x1) == (y2 - 1 - y1) * (x2 - x1) + (x2 - x1);
    }
  }

  /** The box of grid cell `(row, col)`. */
  function CellRect(img: Image, row: nat, col: nat): (r: Rect)
    requires row < 4 && col < 4
    ensures 0 <= r.x1 <= r.x2 <= img.width && 0 <= r.y1 <= r.y2 <= img.height
  {
    var ch, cw := img.height / 4, img.width / 4;
    CellBound(row, ch, img.height);
    CellBound(col, cw, img.width);
    Rect(col * cw, row * ch, MinInt((col + 1) * cw, img.width), MinInt((row + 1) * ch, img.height))
  }

  lemma CellBound(i: nat, c: nat, total: nat)
    requires i < 4 && c == total / 4
    ensures i * c <= (i + 1) * c <= total
  {
  }

  /** The region grid cell `(row, col)` yields: none when the cell is empty
      or its content density is at most the minimum. */
  function CellRegion(img: Image, row: nat, col: nat): Option<LayoutRegion>
    requires WellFormed(img) && row < 4 && col < 4
  {
    var r := CellRect(img, row, col);
    var size := (r.y2 - r.y1) * (r.x2 - r.x1);
    if size > 0 then
      var density := (Ink(img, r.y1, r.y2, r.x1, r.x2) as real) / (size as real);
      if density > MinDensity then Some(LayoutRegion(r, density)) else None
    else None
  }

  /** The regions of the first `k` cells, in row-major order. */
  function GridRegions(img: Image, k: nat): seq<LayoutRegion>
    requires WellFormed(img) && k <= CellCount
  {
    if k == 0 then []
    else
      var c := CellRegion(img, (k - 1) / 4, (k - 1) % 4);
      GridRegions(img, k - 1) + (if c.Some? then [c.value] else [])
  }

  /** The layout: the qualifying cells, or the whole image when none qualifies. */
  function LayoutOf(img: Image): seq<LayoutRegion>
    requires WellFormed(img)
  {
    var grid := GridRegions(img, CellCount);
    if grid == [] then [WholeImage(img)] else grid
  }

  method AnalyzeLayout(img: Image) returns (regions: seq<LayoutRegion>)
    requires WellFormed(img)
    ensures regions == LayoutOf(img)
  {
    regions := [];
    for row := 0 to 4
      invariant regions == GridRegions(img, row * 4)
    {
      for col := 0 to 4
        invariant regions == GridRegions(img, row * 4 + col)
      {
        GridRegionsStep(img, row, col);
        var cell := AnalyzeCell(img, row, col);
        if cell.Some? {
          regions := regions + [cell.value];
        }
      }
    }
    if regions == [] {
      regions := [WholeImage(img)];
    }
  }

  /** The cell at `(row, col)`: its bounds, its size and its density. */
  method AnalyzeCell(img: Image, row: nat, col: nat) returns (cell: Option<LayoutRegion>)
    requires WellFormed(img) && row < 4 && col < 4
    ensures cell == CellRegion(img, row, col)
  {
    var cellHeight := img.height / 4;
    var cellWidth := img.width / 4;
    CellBound(row, cellHeight, img.height);
    CellBound(col, cellWidth, img.width);
    var y1 := row * cellHeight;
    var y2 := MinInt((row + 1) * cellHeight, img.height);
    var x1 := col * cellWidth;
    var x2 := MinInt((col + 1) * cellWidth, img.width);
    assert Rect(x1, y1, x2, y2) == CellRect(img, row, col);
    cell := None;
    var size := (y2 - y1) * (x2 - x1);
    if size > 0 {
      var contentRatio := (Ink(img, y1, y2, x1, x2) as real) / (size as real);
      if contentRatio > MinDensity {
        cell := Some(LayoutRegion(Rect(x1, y1, x2, y2), contentRatio));
      }
    }
  }

  /** Cell `row * 4 + col` is the cell at `(row, col)`. */
  lemma GridRegionsStep(img: Image, row: nat, col: nat)
    requires WellFormed(img) && row < 4 && col < 4
    ensures var c := CellRegion(img, row, col);
      GridRegions(img, row * 4 + col + 1) == GridRegions(img, row * 4 + col) + (if c.Some? then [c.value] else [])
  {
    assert (row * 4 + col) / 4 == row && (row * 4 + col) % 4 == col;
  }

  // ---------------------------------------------------------------------
  // Properties

  lemma DensityRange(ink: nat, size: nat)
    requires ink <= size && size > 0
    ensures (ink as real) / (size as real) <= 1.0
  {
  }

  /** Every region a cell yields lies in the image and has a density in (0.05, 1]. */
  lemma CellRegionBounds(img: Image, row: nat, col: nat)
    requires WellFormed(img) && row < 4 && col < 4
    ensures var c := CellRegion(img, row, col);
      c.Some? ==>
        && c.value.box == CellRect(img, row, col)
        && MinDensity < c.value.confidence <= 1.0
  {
    var r := CellRect(img, row, col);
    var size := (r.y2 - r.y1) * (r.x2 - r.x1);
    if size > 0 {
      InkBound(img, r.y1, r.y2, r.x1, r.x2);
      DensityRange(Ink(img, r.y1, r.y2, r.x1, r.x2), size);
    }
  }

  /** The region's box lies within the image. */
  predicate InImage(img: Image, g: LayoutRegion)
  {
    && 0 <= g.box.x1 <= g.box.x2 <= img.width
    && 0 <= g.box.y1 <= g.box.y2 <= img.height
  }

  lemma {:induction false} GridRegionsBounds(img: Image, k: nat)
    requires WellFormed(img) && k <= CellCount
    ensures var g := GridRegions(img, k);
      && |g| <= k
      && forall i :: 0 <= i < |g| ==> InImage(img, g[i]) && MinDensity < g[i].confidence <= 1.0
  {
    if k > 0 {
      GridRegionsBounds(img, k - 1);
      CellRegionBounds(img, (k - 1) / 4, (k - 1) % 4);
    }
  }

  /** The layout is never empty and has at most 16 regions, all inside the
      image; each grid region's confidence is its density, in (0.05, 1];
      when no cell qualifies the layout is exactly the whole image at
      confidence 1. */
  lemma LayoutShape(img: Image)
    requires WellFormed(img)
    ensures var l := LayoutOf(img);
      && 1 <= |l| <= CellCount
      && (forall i :: 0 <= i < |l| ==> InImage(img, l[i]) && MinDensity < l[i].confidence <= 1.0)
      && (GridRegions(img, CellCount) == [] ==> l == [WholeImage(img)])
      && (GridRegions(img, CellCount) != [] ==> l == GridRegions(img, CellCount))
  {
    GridRegionsBounds(img, CellCount);
  }

  /** A cell yields a region only when the image is at least four pixels
      each way, and then its box is the cell's box. */
  lemma CellNeedsRoom(img: Image, row: nat, col: nat)
    requires WellFormed(img) && row < 4 && col < 4
    ensures var c := CellRegion(img, row, col);
      c.Some? ==> img.width >= 4 && img.height >= 4 && c.value.box == CellRect(img, row, col)
  {
    var r := CellRect(img, row, col);
    if img.width < 4 {
      assert r.x1 == 0 && r.x2 == 0;
    } else if img.height < 4 {
      assert r.y1 == 0 && r.y2 == 0;
    }
  }

  lemma {:induction false} EmptyCells(img: Image, k: nat)
    requires WellFormed(img) && k <= CellCount
    requires img.width < 4 || img.height < 4
    ensures GridRegions(img, k) == []
  {
    if k > 0 {
      EmptyCells(img, k - 1);
      CellNeedsRoom(img, (k - 1) / 4, (k - 1) % 4);
    }
  }

  /** An image narrower or lower than four pixels has only empty cells, so
      its layout is the whole image. */
  lemma SmallImageLayout(img: Image)
    requires WellFormed(img) && (img.width < 4 || img.height < 4)
    ensures LayoutOf(img) == [WholeImage(img)]
  {
    EmptyCells(img, CellCount);
  }

  /** `a`'s top-left corner comes strictly before `b`'s in row-major order. */
  predicate Before(a: Rect, b: Rect)
  {
    a.y1 < b.y1 || (a.y1 == b.y1 && a.x1 < b.x1)
  }

  /** The regions' top-left corners come in strictly increasing row-major order. */
  predicate RowMajor(g: seq<LayoutRegion>)
  {
    forall i, j :: 0 <= i < j < |g| ==> Before(g[i].box, g[j].box)
  }

  lemma CellsInOrder(img: Image, j: nat, k: nat)
    requires j < k < CellCount && img.width >= 4 && img.height >= 4
    ensures Before(CellRect(img, j / 4, j % 4), CellRect(img, k / 4, k % 4))
  {
    var ch, cw := img.height / 4, img.width / 4;
    assert ch >= 1 && cw >= 1;
    if j / 4 < k / 4 {
      MultiplyStrict(j / 4, k / 4, ch);
    } else {
      assert j % 4 < k % 4;
      MultiplyStrict(j % 4, k % 4, cw);
    }
  }

  lemma MultiplyStrict(a: nat, b: nat, c: nat)
    requires a < b && c >= 1
    ensures a * c < b * c
  {
  }

  lemma {:induction false} GridRegionsFrom(img: Image, k: nat)
    requires WellFormed(img) && k <= CellCount
    ensures forall g :: g in GridRegions(img, k) ==>
      exists j :: 0 <= j < k && g.box == CellRect(img, j / 4, j % 4)
  {
    if k > 0 {
      GridRegionsFrom(img, k - 1);
      CellRegionBounds(img, (k - 1) / 4, (k - 1) % 4);
    }
  }

  /** Every region of the first `k` cells lies before cell `k`. */
  lemma PrefixBefore(img: Image, k: nat)
    requires WellFormed(img) && k < CellCount && img.width >= 4 && img.height >= 4
    ensures forall g :: g in GridRegions(img, k) ==> Before(g.box, CellRect(img, k / 4, k % 4))
  {
    GridRegionsFrom(img, k);
    forall g | g in GridRegions(img, k)
      ensures Before(g.box, CellRect(img, k / 4, k % 4))
    {
      var j :| 0 <= j < k && g.box == CellRect(img, j / 4, j % 4);
      CellsInOrder(img, j, k);
    }
  }

  lemma {:induction false} GridRegionsOrdered(img: Image, k: nat)
    requires WellFormed(img) && k <= CellCount
    ensures RowMajor(GridRegions(img, k))
  {
    if k > 0 {
      GridRegionsOrdered(img, k - 1);
      var prev := GridRegions(img, k - 1);
      var c := CellRegion(img, (k - 1) / 4, (k - 1) % 4);
      if c.Some? {
        CellNeedsRoom(img, (k - 1) / 4, (k - 1) % 4);
        PrefixBefore(img, k - 1);
        var g := prev + [c.value];
        assert GridRegions(img, k) == g;
        assert RowMajor(prev);
        forall i, j | 0 <= i < j < |g|
          ensures Before(g[i].box, g[j].box)
        {
          if j < |prev| {
            assert g[i] == prev[i] && g[j] == prev[j];
          } else {
            assert g[i] == prev[i] && prev[i] in prev;
          }
        }
      }
    }
  }

  /** The grid regions come in row-major order of their top-left corners. */
  lemma LayoutRowMajor(img: Image)
    requires WellFormed(img)
    ensures RowMajor(LayoutOf(img))
  {
    var grid := GridRegions(img, CellCount);
    if grid != [] {
      GridRegionsOrdered(img, CellCount);
    }
  }
}

=== FILE: line_grouping.dfy ===
/** Anchored grouping of words into lines (or table rows). The words are
    scanned in their sorted order; a word joins the open line when its
    centre-y is within `tol` of the line's anchor, the centre-y of the line's
    first word, and otherwise opens a new line whose anchor is its own
    centre-y. The anchor is never moved by later members of the line. */
module LineGrouping {
  import opened Basics
  import opened Geometry

  /** The lines the scan produces from the open line `line`, anchored at
      `anchor`, when `rest` is still to be scanned. */
  function LinesFrom(line: seq<WordBox>, anchor: real, rest: seq<WordBox>, tol: real): seq<seq<WordBox>>
    decreases |rest|
  {
    if rest == [] then [line]
    else if Abs(Cy(rest[0]) - anchor) <= tol then LinesFrom(line + [rest[0]], anchor, rest[1..], tol)
    else [line] + LinesFrom([rest[0]], Cy(rest[0]), rest[1..], tol)
  }

  /** The lines of `ws`: none for no words. */
  function Lines(ws: seq<WordBox>, tol: real): seq<seq<WordBox>>
  {
    if ws == [] then [] else LinesFrom([ws[0]], Cy(ws[0]), ws[1..], tol)
  }

  function Concat<T>(ls: seq<seq<T>>): seq<T>
  {
    if ls == [] then [] else ls[0] + Concat(ls[1..])
  }

  /** A non-empty line whose later words all lie within `tol` of its first word. */
  predicate Anchored(line: seq<WordBox>, tol: real)
  {
    line != [] && forall k :: 1 <= k < |line| ==> Abs(Cy(line[k]) - Cy(line[0])) <= tol
  }

  /** Consecutive lines' anchors are more than `tol` apart. */
  predicate Separated(ls: seq<seq<WordBox>>, tol: real)
    requires forall i :: 0 <= i < |ls| ==> ls[i] != []
  {
    forall i :: 0 <= i < |ls| - 1 ==> Abs(Cy(ls[i + 1][0]) - Cy(ls[i][0])) > tol
  }

  /** `ls` is what scanning `rest` from the open line `line` must give:
      at least one line and no more than one per word, the first extending
      `line`, every word once and in order, anchored and separated lines. */
  predicate ScanShape(line: seq<WordBox>, rest: seq<WordBox>, ls: seq<seq<WordBox>>, tol: real)
  {
    && 1 <= |ls| <= 1 + |rest|
    && |ls[0]| >= |line| && ls[0][..|line|] == line
    && Concat(ls) == line + rest
    && (forall i :: 0 <= i < |ls| ==> Anchored(ls[i], tol))
    && Separated(ls, tol)
  }

  /** A word that joins the open line. */
  lemma ScanShapeJoin(line: seq<WordBox>, w: WordBox, rest: seq<WordBox>, ls: seq<seq<WordBox>>, tol: real)
    requires line != [] && ScanShape(line + [w], rest, ls, tol)
    ensures ScanShape(line, [w] + rest, ls, tol)
  {
    assert ls[0][..|line|] == ls[0][..|line + [w]|][..|line|];
    assert line + ([w] + rest) == (line + [w]) + rest;
  }

  /** A word that opens the next line. */
  lemma ScanShapeOpen(line: seq<WordBox>, w: WordBox, rest: seq<WordBox>, tail: seq<seq<WordBox>>, tol: real)
    requires Anchored(line, tol) && Abs(Cy(w) - Cy(line[0])) > tol && ScanShape([w], rest, tail, tol)
    ensures ScanShape(line, [w] + rest, [line] + tail, tol)
  {
    var ls := [line] + tail;
    assert tail[0][..1] == [w];
    assert ls[1][0] == w;
    assert ls[1..] == tail;
    assert Concat(ls) == line + Concat(tail);
    forall i | 0 <= i < |ls|
      ensures Anchored(ls[i], tol)
    {
      if i > 0 {
        assert ls[i] == tail[i - 1];
      }
    }
    forall i | 0 <= i < |ls| - 1
      ensures Abs(Cy(ls[i + 1][0]) - Cy(ls[i][0])) > tol
    {
      if i > 0 {
        assert ls[i] == tail[i - 1] && ls[i + 1] == tail[i];
      }
    }
  }

  lemma {:induction false} LinesFromShape(line: seq<WordBox>, anchor: real, rest: seq<WordBox>, tol: real)
    requires Anchored(line, tol) && anchor == Cy(line[0])
    ensures ScanShape(line, rest, LinesFrom(line, anchor, rest, tol), tol)
    decreases |rest|
  {
    if rest == [] {
      assert LinesFrom(line, anchor, rest, tol) == [line];
      assert line[..|line|] == line;
    } else {
      var r := rest[0];
      assert rest == [r] + rest[1..];
      if Abs(Cy(r) - anchor) <= tol {
        var line' := line + [r];
        assert line'[0] == line[0];
        LinesFromShape(line', anchor, rest[1..], tol);
        ScanShapeJoin(line, r, rest[1..], LinesFrom(line', anchor, rest[1..], tol), tol);
      } else {
        LinesFromShape([r], Cy(r), rest[1..], tol);
        ScanShapeOpen(line, r, rest[1..], LinesFrom([r], Cy(r), rest[1..], tol), tol);
      }
    }
  }

  /** The grouping keeps every word exactly once and in order, makes no
      more lines than words, keeps each line within `tol` of its anchor and
      opens a line only for a word more than `tol` from the previous anchor. */
  lemma LinesShape(ws: seq<WordBox>, tol: real)
    ensures var ls := Lines(ws, tol);
      && |ls| <= |ws|
      && (ws == [] <==> ls == [])
      && Concat(ls) == ws
      && (forall i :: 0 <= i < |ls| ==> Anchored(ls[i], tol))
      && Separated(ls, tol)
  {
    if ws != [] {
      LinesFromShape([ws[0]], Cy(ws[0]), ws[1..], tol);
      assert [ws[0]] + ws[1..] == ws;
    }
  }

  /** One step of the scan: a word within `tol` of the anchor joins the open
      line; any other word closes it and opens the next line. */
  lemma LinesFromStep(line: seq<WordBox>, anchor: real, w: WordBox, rest: seq<WordBox>, tol: real)
    ensures Abs(Cy(w) - anchor) <= tol ==>
      LinesFrom(line, anchor, [w] + rest, tol) == LinesFrom(line + [w], anchor, rest, tol)
    ensures Abs(Cy(w) - anchor) > tol ==>
      LinesFrom(line, anchor, [w] + rest, tol) == [line] + LinesFrom([w], Cy(w), rest, tol)
  {
    assert ([w] + rest)[0] == w && ([w] + rest)[1..] == rest;
  }
}

=== FILE: pipeline.dfy ===
/** The document processor: every page image is cut into layout regions,
    each region is offered to the table extractor and then to the text
    extractor, and the pages are gathered into a document with a summary of
    counters. The engines' answers for a region are inputs of the model. */
module Pipeline {
  import opened Basics
  import opened Strings
  import opened Geometry
  import opened Results
  import opened Layout
  import TextExtractor
  import TableExtractor

  /** What the extractors meet on one layout region: the table detector's
      line-pixel counts, the structure engine's run, the two OCR engines'
      runs on the region, their runs on the table extractor's enhanced crop
      (seen by the table fallback's own text extractor), and whether a call
      into the table or text extractor raised before any engine answered
      (in its pre-processing). */
  datatype RegionInputs = RegionInputs(
    lines: TableExtractor.LineCounts,
    structure: EngineRun<seq<TableExtractor.StructureItem>>,
    paddle: EngineRun<seq<Option<WordBox>>>,
    easy: EngineRun<seq<WordBox>>,
    fallbackPaddle: EngineRun<seq<Option<WordBox>>>,
    fallbackEasy: EngineRun<seq<WordBox>>,
    tableRaises: bool,
    textRaises: bool)

  /** The confidence a table result must exceed to be kept. */
  const TableAcceptance: real := 0.5

  /** The table extractor claims the region. */
  predicate TableDetected(inp: RegionInputs)
  {
    TableExtractor.CanHandle(!inp.structure.Unavailable?, inp.lines)
  }

  function TableOutcome(inp: RegionInputs): Region
  {
    TableExtractor.TableResult(inp.structure, inp.fallbackPaddle, inp.fallbackEasy)
  }

  function TextOutcome(inp: RegionInputs): Region
  {
    TextExtractor.Extract(inp.paddle, inp.easy, TextExtractor.DefaultThreshold)
  }

  /** The table is kept: detected, extracted without raising, and confident enough. */
  predicate TableKept(inp: RegionInputs)
  {
    TableDetected(inp) && !inp.tableRaises && ConfidenceOf(TableOutcome(inp)) > TableAcceptance
  }

  /** What one layout region contributes to its page: the kept table, else
      the text result when its content is not blank, else nothing. */
  function RegionOutput(inp: RegionInputs): Option<Region>
  {
    if TableKept(inp) then Some(TableOutcome(inp))
    else if !inp.textRaises && !IsBlank(ContentOf(TextOutcome(inp))) then Some(TextOutcome(inp))
    else None
  }

  /** The present values among `f(x)` for the `x` of `xs`, in order. */
  function Gather<T, U>(xs: seq<T>, f: T -> Option<U>): seq<U>
  {
    if xs == [] then []
    else
      var out := f(xs[|xs| - 1]);
      Gather(xs[..|xs| - 1], f) + (if out.Some? then [out.value] else [])
  }

  /** What a layout region yields, given the engines' answers for each box. */
  function OutputFor(engines: Rect -> RegionInputs): LayoutRegion -> Option<Region>
  {
    (l: LayoutRegion) => RegionOutput(engines(l.box))
  }

  /** The regions of a page, in the order of its layout regions. */
  function PageRegions(layout: seq<LayoutRegion>, engines: Rect -> RegionInputs): seq<Region>
  {
    Gather(layout, OutputFor(engines))
  }

  function PageOf(img: Image, pageNumber: int, engines: Rect -> RegionInputs): PageResult
    requires WellFormed(img)
  {
    var rs := PageRegions(LayoutOf(img), engines);
    PageResult(pageNumber, rs, |rs|)
  }

  /** One layout region: the table gate first, then the text extractor. */
  method ProcessRegion(inp: RegionInputs) returns (out: Option<Region>)
    ensures out == RegionOutput(inp)
  {
    if TableExtractor.CanHandle(!inp.structure.Unavailable?, inp.lines) && !inp.tableRaises {
      var result := TableExtractor.ExtractTable(inp.structure, inp.fallbackPaddle, inp.fallbackEasy);
      if ConfidenceOf(result) > TableAcceptance {
        return Some(result);
      }
    }
    if !inp.textRaises {
      var result := TextExtractor.ExtractText(inp.paddle, inp.easy, TextExtractor.DefaultThreshold);
      if Strip(ContentOf(result)) != "" {
        return Some(result);
      }
    }
    return None;
  }

  /** One page: its layout, then every region through the table gate and the text extractor. */
  method ProcessPage(img: Image, pageNumber: int, engines: Rect -> RegionInputs) returns (page: PageResult)
    requires WellFormed(img)
    ensures page == PageOf(img, pageNumber, engines)
  {
    var regions := AnalyzeLayout(img);
    var processed := ProcessRegions(regions, engines);
    page := PageResult(pageNumber, processed, |processed|);
  }

  /** The region loop of a page: each layout region in turn, its output appended when there is one. */
  method ProcessRegions(regions: seq<LayoutRegion>, engines: Rect -> RegionInputs) returns (processed: seq<Region>)
    ensures processed == PageRegions(regions, engines)
  {
    processed := [];
    for i := 0 to |regions|
      invariant processed == Gather(regions[..i], OutputFor(engines))
    {
      assert regions[..i + 1][..i] == regions[..i];
      var out := ProcessRegion(engines(regions[i].box));
      assert out == OutputFor(engines)(regions[i]);
      if out.Some? {
        processed := processed + [out.value];
      }
    }
    assert regions[..|regions|] == regions;
  }

  // ---------------------------------------------------------------------
  // Region dispatch

  /** A region yields a table exactly when the table gate passes, and then
      the text extractor's result is not used; it yields text exactly when
      the gate fails, the text extractor did not raise and its content is
      not blank; a kept table has a confidence in (0.5, 1]. */
  lemma RegionOutputPolicy(inp: RegionInputs)
    ensures var out := RegionOutput(inp);
      && (out.Some? ==> Kind(out.value) == "table" || Kind(out.value) == "text")
      && (out.Some? && Kind(out.value) == "table" <==> TableKept(inp))
      && (TableKept(inp) ==> out == Some(TableOutcome(inp)) && TableAcceptance < ConfidenceOf(out.value) <= 1.0)
      && (out.Some? && Kind(out.value) == "text" <==>
            !TableKept(inp) && !inp.textRaises && !IsBlank(ContentOf(TextOutcome(inp))))
      && (out.Some? && Kind(out.value) == "text" ==> out.value == TextOutcome(inp))
      && (!TableDetected(inp) ==> out.None? || out.value == TextOutcome(inp))
  {
    TableExtractor.TableResultProperties(inp.structure, inp.fallbackPaddle, inp.fallbackEasy);
    TextExtractor.ExtractPolicy(inp.paddle, inp.easy, TextExtractor.DefaultThreshold);
  }

  /** Without its engine the table extractor never claims a region. */
  lemma NoStructureEngineMeansText(inp: RegionInputs)
    requires inp.structure.Unavailable?
    ensures RegionOutput(inp).Some? ==> RegionOutput(inp).value == TextOutcome(inp)
  {
    TableExtractor.CanHandleMonotone(false, inp.lines, inp.lines);
  }

  lemma {:induction false} GatherAppend<T, U>(a: seq<T>, b: seq<T>, f: T -> Option<U>)
    ensures Gather(a + b, f) == Gather(a, f) + Gather(b, f)
  {
    if b != [] {
      var b' := b[..|b| - 1];
      GatherAppend(a, b', f);
      assert (a + b)[..|a + b| - 1] == a + b';
      assert (a + b)[|a + b| - 1] == b[|b| - 1];
    } else {
      assert a + b == a;
    }
  }

  /** The page's regions are the concatenation of what each layout region yields. */
  lemma PageRegionsAppend(a: seq<LayoutRegion>, b: seq<LayoutRegion>, engines: Rect -> RegionInputs)
    ensures PageRegions(a + b, engines) == PageRegions(a, engines) + PageRegions(b, engines)
  {
    GatherAppend(a, b, OutputFor(engines));
  }

  /** Each layout region yields at most one page region, and every page
      region is a kept table or non-blank text. */
  lemma {:induction false} PageRegionsShape(layout: seq<LayoutRegion>, engines: Rect -> RegionInputs)
    ensures var rs := PageRegions(layout, engines);
      && |rs| <= |layout|
      && forall k :: 0 <= k < |rs| ==>
           || (Kind(rs[k]) == "table" && TableAcceptance < ConfidenceOf(rs[k]) <= 1.0)
           || (Kind(rs[k]) == "text" && !IsBlank(ContentOf(rs[k])))
  {
    if layout != [] {
      PageRegionsShape(layout[..|layout| - 1], engines);
      RegionOutputPolicy(engines(layout[|layout| - 1].box));
      assert OutputFor(engines)(layout[|layout| - 1]) == RegionOutput(engines(layout[|layout| - 1].box));
    }
  }

  /** A page records its number and as its region count the number of its
      regions, at most one per grid cell. */
  lemma PageOfShape(img: Image, pageNumber: int, engines: Rect -> RegionInputs)
    requires WellFormed(img)
    ensures var p := PageOf(img, pageNumber, engines);
      && p.pageNumber == pageNumber
      && p.regionCount == |p.regions| <= CellCount
  {
    LayoutShape(img);
    PageRegionsShape(LayoutOf(img), engines);
  }

  // ---------------------------------------------------------------------
  // The summary counters

  /** The counters a document starts with. */
  function InitialSummary(totalPages: int): map<string, int>
  {
    map["total_pages" := totalPages, "text_regions" := 0, "tables" := 0, "equations" := 0, "diagrams" := 0]
  }

  /** The counting loop as written: a counter is bumped when its key equals
      the region's type. */
  function TallyAsWritten(summary: map<string, int>, rs: seq<Region>): map<string, int>
  {
    if rs == [] then summary
    else
      var s := TallyAsWritten(summary, rs[..|rs| - 1]);
      var t := Kind(rs[|rs| - 1]);
      if t in s then s[t := s[t] + 1] else s
  }

  /** The counter a region type is meant to bump. */
  function SummaryKey(kind: string): Option<string>
  {
    if kind == "text" then Some("text_regions")
    else if kind == "table" then Some("tables")
    else if kind == "equation" then Some("equations")
    else if kind == "diagram" then Some("diagrams")
    else None
  }

  /** Counting one region: the counter its type maps to goes up by one. */
  function Bump(s: map<string, int>, r: Region): map<string, int>
  {
    var k := SummaryKey(Kind(r));
    if k.Some? && k.value in s then s[k.value := s[k.value] + 1] else s
  }

  /** The counting loop with each type mapped to its counter. */
  function Tally(summary: map<string, int>, rs: seq<Region>): map<string, int>
  {
    if rs == [] then summary else Bump(Tally(summary, rs[..|rs| - 1]), rs[|rs| - 1])
  }

  /** As written, regions of type `text` and `table` never match a counter
      key, so a document made of such regions keeps its initial counters. */
  lemma {:induction false} TallyAsWrittenIgnores(summary: map<string, int>, rs: seq<Region>)
    requires "text" !in summary && "table" !in summary
    requires forall k :: 0 <= k < |rs| ==> Kind(rs[k]) == "text" || Kind(rs[k]) == "table"
    ensures TallyAsWritten(summary, rs) == summary
  {
    if rs != [] {
      TallyAsWrittenIgnores(summary, rs[..|rs| - 1]);
    }
  }

  /** A single text region: the written loop leaves `text_regions` at 0
      while the page holds one text region. */
  lemma TextRegionUncounted()
    ensures var rs := [Text("x", 1.0, [], None, None, "PaddleOCR", None)];
      CountKind(rs, "text") == 1 && TallyAsWritten(InitialSummary(1), rs)["text_regions"] == 0
  {
    var rs := [Text("x", 1.0, [], None, None, "PaddleOCR", None)];
    assert rs[..0] == [];
    TallyAsWrittenIgnores(InitialSummary(1), rs);
  }

  /** The corrected counters: the page count and, for each kind, the number of regions of that kind. */
  lemma {:induction false} TallyCounts(totalPages: int, rs: seq<Region>)
    ensures var s := Tally(InitialSummary(totalPages), rs);
      && s.Keys == InitialSummary(totalPages).Keys
      && s["total_pages"] == totalPages
      && s["text_regions"] == CountKind(rs, "text")
      && s["tables"] == CountKind(rs, "table")
      && s["equations"] == CountKind(rs, "equation")
      && s["diagrams"] == CountKind(rs, "diagram")
  {
    if rs != [] {
      TallyCounts(totalPages, rs[..|rs| - 1]);
    }
  }

  lemma {:induction false} TallyAsWrittenAppend(summary: map<string, int>, rs: seq<Region>, more: seq<Region>)
    ensures TallyAsWritten(summary, rs + more) == TallyAsWritten(TallyAsWritten(summary, rs), more)
  {
    if more != [] {
      var m := more[..|more| - 1];
      TallyAsWrittenAppend(summary, rs, m);
      assert (rs + more)[..|rs + more| - 1] == rs + m;
      assert (rs + more)[|rs + more| - 1] == more[|more| - 1];
    } else {
      assert rs + more == rs;
    }
  }

  lemma {:induction false} TallyAppend(summary: map<string, int>, rs: seq<Region>, more: seq<Region>)
    ensures Tally(summary, rs + more) == Tally(Tally(summary, rs), more)
  {
    if more != [] {
      var m := more[..|more| - 1];
      TallyAppend(summary, rs, m);
      assert (rs + more)[..|rs + more| - 1] == rs + m;
      assert (rs + more)[|rs + more| - 1] == more[|more| - 1];
    } else {
      assert rs + more == rs;
    }
  }

  // ---------------------------------------------------------------------
  // The OCR path

  predicate AllWellFormed(images: seq<Image>)
  {
    forall i :: 0 <= i < |images| ==> WellFormed(images[i])
  }

  /** `f(0)`, ..., `f(n - 1)`. */
  function Built<T>(f: nat -> T, n: nat): seq<T>
  {
    if n == 0 then [] else Built(f, n - 1) + [f(n - 1)]
  }

  lemma {:induction false} BuiltAt<T>(f: nat -> T, n: nat, i: nat)
    requires i < n
    ensures |Built(f, n)| == n && Built(f, n)[i] == f(i)
  {
    BuiltLength(f, n - 1);
    if i < n - 1 {
      BuiltAt(f, n - 1, i);
    }
  }

  lemma {:induction false} BuiltLength<T>(f: nat -> T, n: nat)
    ensures |Built(f, n)| == n
  {
    if n > 0 {
      BuiltLength(f, n - 1);
    }
  }

  /** Page `i + 1`, built from image `i`, which sees the engines' answers
      `engines(i + 1)`. The empty page only makes the function total: under
      `AllWellFormed`, `PagesUpTo` never reaches it. */
  function PageFor(images: seq<Image>, engines: int -> Rect -> RegionInputs): nat -> PageResult
  {
    (i: nat) => if i < |images| && WellFormed(images[i]) then PageOf(images[i], i + 1, engines(i + 1))
         else PageResult(i + 1, [], 0)
  }

  /** The first `n` pages, numbered from 1. */
  function PagesUpTo(images: seq<Image>, n: nat, engines: int -> Rect -> RegionInputs): seq<PageResult>
    requires AllWellFormed(images) && n <= |images|
  {
    Built(PageFor(images, engines), n)
  }

  /** The document the OCR path builds from the page images, its counters
      tallied as the counting loop is written. */
  function OcrDocument(filePath: string, images: seq<Image>, engines: int -> Rect -> RegionInputs): DocumentResult
    requires AllWellFormed(images)
  {
    var pages := PagesUpTo(images, |images|, engines);
    DocumentResult(filePath, pages, TallyAsWritten(InitialSummary(|images|), AllRegions(pages)))
  }

  /** The same pages with each region counted under its kind's counter. */
  function IntendedOcrDocument(filePath: string, images: seq<Image>, engines: int -> Rect -> RegionInputs): DocumentResult
    requires AllWellFormed(images)
  {
    var pages := PagesUpTo(images, |images|, engines);
    DocumentResult(filePath, pages, Tally(InitialSummary(|images|), AllRegions(pages)))
  }

  /** Page by page, the page is processed, appended and its regions counted. */
  method ProcessPdfWithOcr(filePath: string, images: seq<Image>, engines: int -> Rect -> RegionInputs)
    returns (doc: DocumentResult)
    requires AllWellFormed(images)
    ensures doc == OcrDocument(filePath, images, engines)
  {
    var pages: seq<PageResult> := [];
    var summary := InitialSummary(|images|);
    for i := 0 to |images|
      invariant pages == PagesUpTo(images, i, engines)
      invariant summary == TallyAsWritten(InitialSummary(|images|), AllRegions(pages))
    {
      var page := ProcessImage(images, i, engines);
      TallyAsWrittenAppend(InitialSummary(|images|), AllRegions(pages), page.regions);
      summary := CountRegions(summary, page.regions);
      assert (pages + [page])[..|pages|] == pages;
      assert AllRegions(pages + [page]) == AllRegions(pages) + page.regions;
      pages := pages + [page];
    }
    doc := DocumentResult(filePath, pages, summary);
  }

  /** Image `i` processed as page `i + 1`. */
  method ProcessImage(images: seq<Image>, i: nat, engines: int -> Rect -> RegionInputs) returns (page: PageResult)
    requires AllWellFormed(images) && i < |images|
    ensures page == PageFor(images, engines)(i)
  {
    page := ProcessPage(images[i], i + 1, engines(i + 1));
  }

  /** The counters after counting `regions`, one region at a time, a
      counter going up when its key is the region's type. */
  method CountRegions(summary: map<string, int>, regions: seq<Region>) returns (counted: map<string, int>)
    ensures counted == TallyAsWritten(summary, regions)
  {
    counted := summary;
    for j := 0 to |regions|
      invariant counted == TallyAsWritten(summary, regions[..j])
    {
      assert regions[..j + 1][..j] == regions[..j];
      var rtype := Kind(regions[j]);
      if rtype in counted {
        counted := counted[rtype := counted[rtype] + 1];
      }
    }
    assert regions[..|regions|] == regions;
  }

  /** One page per image, in image order, page `i + 1` built from image `i`. */
  lemma PagesUpToShape(images: seq<Image>, n: nat, engines: int -> Rect -> RegionInputs)
    requires AllWellFormed(images) && n <= |images|
    ensures var pages := PagesUpTo(images, n, engines);
      && |pages| == n
      && forall i :: 0 <= i < n ==> pages[i] == PageOf(images[i], i + 1, engines(i + 1))
  {
    var f := PageFor(images, engines);
    BuiltLength(f, n);
    forall i | 0 <= i < n
      ensures Built(f, n)[i] == PageOf(images[i], i + 1, engines(i + 1))
    {
      BuiltAt(f, n, i);
    }
  }

  /** Every region is text or a table. */
  predicate TextOrTable(rs: seq<Region>)
  {
    forall k :: 0 <= k < |rs| ==> Kind(rs[k]) == "text" || Kind(rs[k]) == "table"
  }

  lemma {:induction false} AllRegionsTextOrTable(pages: seq<PageResult>)
    requires forall i :: 0 <= i < |pages| ==> TextOrTable(pages[i].regions)
    ensures TextOrTable(AllRegions(pages))
  {
    if pages != [] {
      AllRegionsTextOrTable(pages[..|pages| - 1]);
    }
  }

  lemma PageOfTextOrTable(img: Image, pageNumber: int, engines: Rect -> RegionInputs)
    requires WellFormed(img)
    ensures TextOrTable(PageOf(img, pageNumber, engines).regions)
  {
    PageRegionsShape(LayoutOf(img), engines);
  }

  /** The OCR path's pages: one per image, numbered from 1, each with its
      region count and holding only text and table regions. */
  lemma OcrPagesShape(images: seq<Image>, engines: int -> Rect -> RegionInputs)
    requires AllWellFormed(images)
    ensures var pages := PagesUpTo(images, |images|, engines);
      && |pages| == |images|
      && (forall i :: 0 <= i < |images| ==> pages[i].pageNumber == i + 1 && pages[i].regionCount == |pages[i].regions|)
      && (forall i :: 0 <= i < |images| ==> TextOrTable(pages[i].regions))
      && TextOrTable(AllRegions(pages))
  {
    var pages := PagesUpTo(images, |images|, engines);
    PagesUpToShape(images, |images|, engines);
    forall i | 0 <= i < |images|
      ensures pages[i].pageNumber == i + 1 && pages[i].regionCount == |pages[i].regions|
      ensures TextOrTable(pages[i].regions)
    {
      PageOfTextOrTable(images[i], i + 1, engines(i + 1));
    }
    AllRegionsTextOrTable(pages);
  }

  /** As written, the OCR path's document has as many pages as images,
      numbered from 1, each with its region count and holding only text and
      table regions, and its counters are the initial ones: `total_pages`
      is the image count and every other counter stays 0. */
  lemma OcrDocumentShape(filePath: string, images: seq<Image>, engines: int -> Rect -> RegionInputs)
    requires AllWellFormed(images)
    ensures var doc := OcrDocument(filePath, images, engines);
      && |doc.pages| == |images|
      && (forall i :: 0 <= i < |images| ==> doc.pages[i].pageNumber == i + 1 && doc.pages[i].regionCount == |doc.pages[i].regions|)
      && (forall i :: 0 <= i < |images| ==> TextOrTable(doc.pages[i].regions))
      && TextOrTable(AllRegions(doc.pages))
      && doc.summary == InitialSummary(|images|)
  {
    var pages := PagesUpTo(images, |images|, engines);
    OcrPagesShape(images, engines);
    TallyAsWrittenIgnores(InitialSummary(|images|), AllRegions(pages));
  }

  /** Corrected, the document has the same pages, `total_pages` is the image
      count, and the text and table counters count the text and table
      regions of all its pages. */
  lemma IntendedOcrDocumentCounts(filePath: string, images: seq<Image>, engines: int -> Rect -> RegionInputs)
    requires AllWellFormed(images)
    ensures var doc := IntendedOcrDocument(filePath, images, engines);
      && doc.pages == OcrDocument(filePath, images, engines).pages
      && doc.summary.Keys == InitialSummary(|images|).Keys
      && doc.summary["total_pages"] == |images|
      && doc.summary["text_regions"] == CountKind(AllRegions(doc.pages), "text")
      && doc.summary["tables"] == CountKind(AllRegions(doc.pages), "table")
      && doc.summary["equations"] == 0 && doc.summary["diagrams"] == 0
  {
    var doc := IntendedOcrDocument(filePath, images, engines);
    OcrPagesShape(images, engines);
    TallyCounts(|images|, AllRegions(doc.pages));
    TextOrTableCounts(AllRegions(doc.pages));
  }

  /** Text and table regions are neither equations nor diagrams. */
  lemma {:induction false} TextOrTableCounts(rs: seq<Region>)
    requires TextOrTable(rs)
    ensures CountKind(rs, "equation") == 0 && CountKind(rs, "diagram") == 0
  {
    if rs != [] {
      TextOrTableCounts(rs[..|rs| - 1]);
    }
  }

  // ---------------------------------------------------------------------
  // The document entry point

  /** The result of the fast path: the PDF's own text as one text region
      of one page. */
  function FastPathDocument(filePath: string, text: string): DocumentResult
  {
    var region := Text(text, 1.0, [], Some(|Words(text)|), Some(|Split(text, '\n')|), "PyMuPDF", None);
    DocumentResult(filePath, [PageResult(1, [region], 1)],
      map["total_pages" := 1, "text_regions" := 1, "tables" := 0, "equations" := 0, "diagrams" := 0])
  }

  /** The result when the OCR path raised with `message`. */
  function OcrErrorDocument(filePath: string, message: string): DocumentResult
  {
    var region := Text("OCR processing failed: " + message, 0.0, [], None, None, "Error", None);
    DocumentResult(filePath, [PageResult(1, [region], 1)],
      map["total_pages" := 1, "text_regions" := 1, "tables" := 0, "equations" := 0, "diagrams" := 0])
  }

  /** Processing a PDF: the text layers' text when there is any, else the
      OCR path, else (when that raised) the error document. */
  function ProcessPdf(filePath: string, directText: Option<string>, images: seq<Image>,
                      engines: int -> Rect -> RegionInputs, ocrFailure: Option<string>): DocumentResult
    requires AllWellFormed(images)
  {
    if directText.Some? && directText.value != "" then FastPathDocument(filePath, directText.value)
    else if ocrFailure.Some? then OcrErrorDocument(filePath, ocrFailure.value)
    else OcrDocument(filePath, images, engines)
  }

  /** The fast path's page has one text region at confidence 1.0 whose
      word count is the number of whitespace-separated words and whose line
      count is one more than the number of line breaks. */
  lemma FastPathShape(filePath: string, text: string)
    ensures var doc := FastPathDocument(filePath, text);
      var r := doc.pages[0].regions[0];
      && |doc.pages| == 1 && |doc.pages[0].regions| == 1 && doc.pages[0].regionCount == 1
      && r.Text? && r.content == text && r.confidence == 1.0
      && r.wordCount == Some(|Words(text)|)
      && r.lineCount == Some(Count(text, '\n') + 1)
      && (r.wordCount == Some(0) <==> IsBlank(text))
  {
    SplitCount(text, '\n');
    WordsEmptyIffBlank(text);
  }

  /** A single page holding one text region counts one page and one text region. */
  lemma OneTextPage(r: Region)
    requires Kind(r) == "text"
    ensures var pages := [PageResult(1, [r], 1)];
      Tally(InitialSummary(1), AllRegions(pages))
        == map["total_pages" := 1, "text_regions" := 1, "tables" := 0, "equations" := 0, "diagrams" := 0]
  {
    var pages := [PageResult(1, [r], 1)];
    assert pages[..0] == [];
    assert AllRegions(pages) == [r];
    assert [r][..0] == [];
  }

  /** The fast path and the error path report the corrected counts of their
      one page; the OCR path reports its initial counters, which are the
      counts of its pages only when it found no text or table region. */
  lemma ProcessPdfSummary(filePath: string, directText: Option<string>, images: seq<Image>,
                          engines: int -> Rect -> RegionInputs, ocrFailure: Option<string>)
    requires AllWellFormed(images)
    ensures var doc := ProcessPdf(filePath, directText, images, engines, ocrFailure);
      && ((directText.Some? && directText.value != "") || ocrFailure.Some? ==>
            doc.summary == Tally(InitialSummary(|doc.pages|), AllRegions(doc.pages)))
      && (!(directText.Some? && directText.value != "") && ocrFailure.None? ==>
            && doc.summary == InitialSummary(|images|)
            && (doc.summary == Tally(InitialSummary(|doc.pages|), AllRegions(doc.pages)) <==> AllRegions(doc.pages) == []))
  {
    if (directText.Some? && directText.value != "") || ocrFailure.Some? {
      var doc := ProcessPdf(filePath, directText, images, engines, ocrFailure);
      OneTextPage(doc.pages[0].regions[0]);
    } else {
      var doc := OcrDocument(filePath, images, engines);
      OcrDocumentShape(filePath, images, engines);
      InitialIsCountIff(|images|, AllRegions(doc.pages));
    }
  }

  /** For text and table regions, the initial counters are their counts
      exactly when there is no region. */
  lemma InitialIsCountIff(totalPages: int, rs: seq<Region>)
    requires TextOrTable(rs)
    ensures InitialSummary(totalPages) == Tally(InitialSummary(totalPages), rs) <==> rs == []
  {
    if rs != [] {
      TallyCounts(totalPages, rs);
      CountKindPositive(rs);
      assert InitialSummary(totalPages)["text_regions"] == 0 && InitialSummary(totalPages)["tables"] == 0;
    }
  }

  /** A non-empty list of text and table regions has a text or a table. */
  lemma {:induction false} CountKindPositive(rs: seq<Region>)
    requires rs != [] && TextOrTable(rs)
    ensures CountKind(rs, "text") > 0 || CountKind(rs, "table") > 0
  {
    if |rs| > 1 {
      CountKindPositive(rs[..|rs| - 1]);
    }
  }
}

=== FILE: results.dfy ===
/** The result records the pipeline produces and the formatter reads: a
    region (one per extracted area of a page), a page and a document. The
    source keeps them as dictionaries and reads them with `dict.get(key,
    default)`; the accessors below give those defaults for the regions that
    lack a key. */
module Results {
  import opened Basics
  import opened Geometry

  datatype Region =
      /** A text extraction: reconstructed text, mean word confidence, the
          kept words, optional counts, which engine produced it, and the
          failure tag when none did. */
    | Text(content: string, confidence: real, wordBoxes: seq<WordBox>,
           wordCount: Option<nat>, lineCount: Option<nat>, extractor: string, error: Option<string>)
      /** A recovered table: its row-major cells and computed confidence. */
    | Table(data: seq<seq<string>>, confidence: real, rows: nat, columns: nat, extractor: string)
      /** A table extraction that failed; its confidence is 0.0. */
    | TableFailure(reason: string)
    | Equation(latex: string, content: string, confidence: real)
    | Code(language: string, content: string, confidence: real)
    | Diagram(description: string, confidence: real)
      /** A region of any other type, carrying nothing but its type name. */
    | Other(kind: string)

  /** The region's `type` field. */
  function Kind(r: Region): string
  {
    match r
    case Text(_, _, _, _, _, _, _) => "text"
    case Table(_, _, _, _, _) => "table"
    case TableFailure(_) => "table"
    case Equation(_, _, _) => "equation"
    case Code(_, _, _) => "code"
    case Diagram(_, _) => "diagram"
    case Other(k) => k
  }

  /** `region.get('content', '')` */
  function ContentOf(r: Region): string
  {
    if r.Text? || r.Equation? || r.Code? then r.content else ""
  }

  /** `region.get('confidence', 0)` */
  function ConfidenceOf(r: Region): real
  {
    if r.Text? || r.Table? || r.Equation? || r.Code? || r.Diagram? then r.confidence else 0.0
  }

  /** `region.get('data', [])` */
  function DataOf(r: Region): seq<seq<string>>
  {
    if r.Table? then r.data else []
  }

  /** `region.get('rows', 0)` */
  function RowsOf(r: Region): nat
  {
    if r.Table? then r.rows else 0
  }

  /** `region.get('columns', 0)` */
  function ColumnsOf(r: Region): nat
  {
    if r.Table? then r.columns else 0
  }

  /** `region.get('word_boxes', [])` */
  function WordBoxesOf(r: Region): seq<WordBox>
  {
    if r.Text? then r.wordBoxes else []
  }

  /** `region.get('latex', '')` */
  function LatexOf(r: Region): string
  {
    if r.Equation? then r.latex else ""
  }

  /** `region.get('language', 'unknown')` */
  function LanguageOf(r: Region): string
  {
    if r.Code? then r.language else "unknown"
  }

  /** `region.get('description', '')` */
  function DescriptionOf(r: Region): string
  {
    if r.Diagram? then r.description else ""
  }

  datatype PageResult = PageResult(pageNumber: int, regions: seq<Region>, regionCount: int)

  /** A processed document; `summary` maps the counter names
      (`total_pages`, `text_regions`, `tables`, `equations`, `diagrams`) to
      their values. */
  datatype DocumentResult = DocumentResult(filePath: string, pages: seq<PageResult>, summary: map<string, int>)

  /** Every region of the document, page after page, each page's regions in order. */
  function AllRegions(pages: seq<PageResult>): seq<Region>
  {
    if pages == [] then [] else AllRegions(pages[..|pages| - 1]) + pages[|pages| - 1].regions
  }

  /** How many of `rs` have type `kind`. */
  function CountKind(rs: seq<Region>, kind: string): nat
  {
    if rs == [] then 0 else CountKind(rs[..|rs| - 1], kind) + (if Kind(rs[|rs| - 1]) == kind then 1 else 0)
  }
}

=== FILE: serialize.dfy ===
/** Converting a result tree to a JSON-ready value before it is written:
    dictionaries and lists are rebuilt recursively, strings, integers,
    floats, booleans and `None` are kept, and any other object becomes its
    string form. */
module Serialize {

  /** A Python value as the result tree holds it. A dictionary keeps its
      entries in insertion order. NumPy scalars that subclass `str`, `int`,
      `float` or `bool` (`np.float64`, `np.str_`) are the matching `Str`,
      `Int`, `Float` or `Bool` value; `Other` stands for any other object
      (a tuple, `np.float32`, `np.int64`, `np.bool_`) together with the text
      `str` gives for it. */
  datatype PyValue =
    | Dict(entries: seq<(PyValue, PyValue)>)
    | List(items: seq<PyValue>)
    | Str(s: string)
    | Int(i: int)
    | Float(f: real)
    | Bool(b: bool)
    | NoneValue
    | Other(text: string)

  /** Every value below the dictionaries and lists is a string, a number,
      a boolean or `None`; dictionary keys are not inspected. */
  predicate Serializable(v: PyValue)
  {
    match v
    case Dict(entries) => forall i :: 0 <= i < |entries| ==> Serializable(entries[i].1)
    case List(items) => forall i :: 0 <= i < |items| ==> Serializable(items[i])
    case Other(_) => false
    case _ => true
  }

  function MakeSerializable(v: PyValue): PyValue
  {
    match v
    case Dict(entries) =>
      Dict(seq(|entries|, i requires 0 <= i < |entries| => (entries[i].0, MakeSerializable(entries[i].1))))
    case List(items) =>
      List(seq(|items|, i requires 0 <= i < |items| => MakeSerializable(items[i])))
    case Other(text) => Str(text)
    case _ => v
  }

  /** The result is serializable, keeps the value's shape (a dictionary's
      keys in their order, a list's length) and leaves scalars unchanged. */
  lemma {:induction false} MakeSerializableShape(v: PyValue)
    ensures var r := MakeSerializable(v);
      && Serializable(r)
      && (v.Dict? ==> r.Dict? && |r.entries| == |v.entries|
                      && forall i :: 0 <= i < |v.entries| ==> r.entries[i].0 == v.entries[i].0)
      && (v.List? ==> r.List? && |r.items| == |v.items|)
      && (v.Other? ==> r == Str(v.text))
      && (!v.Dict? && !v.List? && !v.Other? ==> r == v)
  {
    match v
    case Dict(entries) =>
      forall i | 0 <= i < |entries|
        ensures Serializable(MakeSerializable(entries[i].1))
      {
        MakeSerializableShape(entries[i].1);
      }
    case List(items) =>
      forall i | 0 <= i < |items|
        ensures Serializable(MakeSerializable(items[i]))
      {
        MakeSerializableShape(items[i]);
      }
    case _ =>
  }

  /** A value is left unchanged exactly when it is already serializable. */
  lemma {:induction false} MakeSerializableFixes(v: PyValue)
    ensures MakeSerializable(v) == v <==> Serializable(v)
  {
    match v
    case Dict(entries) =>
      var r := MakeSerializable(v).entries;
      if Serializable(v) {
        forall i | 0 <= i < |entries|
          ensures r[i] == entries[i]
        {
          MakeSerializableFixes(entries[i].1);
        }
        assert r == entries;
      } else {
        var i :| 0 <= i < |entries| && !Serializable(entries[i].1);
        MakeSerializableFixes(entries[i].1);
        assert r[i] != entries[i];
      }
    case List(items) =>
      var r := MakeSerializable(v).items;
      if Serializable(v) {
        forall i | 0 <= i < |items|
          ensures r[i] == items[i]
        {
          MakeSerializableFixes(items[i]);
        }
        assert r == items;
      } else {
        var i :| 0 <= i < |items| && !Serializable(items[i]);
        MakeSerializableFixes(items[i]);
        assert r[i] != items[i];
      }
    case _ =>
  }

  /** Converting twice gives what converting once does. */
  lemma MakeSerializableIdempotent(v: PyValue)
    ensures MakeSerializable(MakeSerializable(v)) == MakeSerializable(v)
  {
    MakeSerializableShape(v);
    MakeSerializableFixes(MakeSerializable(v));
  }
}

=== FILE: sorting.dfy ===
/** Python's `sorted(xs, key=...)` and `xs.sort(key=...)`: a stable sort.
    A key order enters as `le(a, b)`, "a may come before b", which is
    `not key(b) < key(a)`; it is a total preorder for every key the pipeline
    sorts on. The sort is an insertion sort that puts each element after
    every earlier element it does not precede strictly, which is what makes it
    stable. */
module Sorting {

  /** Every two elements are comparable and the order chains. */
  ghost predicate TotalPreorder<T(!new)>(le: (T, T) -> bool)
  {
    && (forall a, b :: le(a, b) || le(b, a))
    && (forall a, b, c :: le(a, b) && le(b, c) ==> le(a, c))
  }

  predicate SortedBy<T>(s: seq<T>, le: (T, T) -> bool)
  {
    forall i, j :: 0 <= i < j < |s| ==> le(s[i], s[j])
  }

  /** Equal keys: neither precedes the other strictly. */
  predicate Tied<T>(a: T, b: T, le: (T, T) -> bool)
  {
    le(a, b) && le(b, a)
  }

  /** The elements of `s` tied with `y`, in their order in `s`. */
  function TiedWith<T>(s: seq<T>, y: T, le: (T, T) -> bool): seq<T>
  {
    if s == [] then []
    else (if Tied(s[0], y, le) then [s[0]] else []) + TiedWith(s[1..], y, le)
  }

  function Insert<T>(x: T, s: seq<T>, le: (T, T) -> bool): (r: seq<T>)
    ensures multiset(r) == multiset(s) + multiset{x}
    ensures |r| == |s| + 1
  {
    if s == [] then [x]
    else if le(s[0], x) then
      assert s == [s[0]] + s[1..];
      [s[0]] + Insert(x, s[1..], le)
    else [x] + s
  }

  function SortBy<T>(s: seq<T>, le: (T, T) -> bool): (r: seq<T>)
    ensures multiset(r) == multiset(s)
    ensures |r| == |s|
  {
    if s == [] then []
    else
      assert s == s[..|s| - 1] + [s[|s| - 1]];
      Insert(s[|s| - 1], SortBy(s[..|s| - 1], le), le)
  }

  lemma {:induction false} InsertSorted<T(!new)>(x: T, s: seq<T>, le: (T, T) -> bool)
    requires TotalPreorder(le) && SortedBy(s, le)
    ensures SortedBy(Insert(x, s, le), le)
  {
    if s != [] && le(s[0], x) {
      InsertSorted(x, s[1..], le);
      var r := Insert(x, s[1..], le);
      assert multiset(r) == multiset(s[1..]) + multiset{x};
      forall k | 0 <= k < |r|
        ensures le(s[0], r[k])
      {
        assert r[k] in multiset(r);
        if r[k] != x {
          assert r[k] in multiset(s[1..]);
          var m :| 0 <= m < |s[1..]| && s[1..][m] == r[k];
          assert s[m + 1] == r[k];
        }
      }
    }
  }

  /** The result of a sort is in key order. */
  lemma {:induction false} SortBySorted<T(!new)>(s: seq<T>, le: (T, T) -> bool)
    requires TotalPreorder(le)
    ensures SortedBy(SortBy(s, le), le)
  {
    if s != [] {
      SortBySorted(s[..|s| - 1], le);
      InsertSorted(s[|s| - 1], SortBy(s[..|s| - 1], le), le);
    }
  }

  lemma {:induction false} TiedWithAppend<T>(a: seq<T>, b: seq<T>, y: T, le: (T, T) -> bool)
    ensures TiedWith(a + b, y, le) == TiedWith(a, y, le) + TiedWith(b, y, le)
  {
    if a == [] {
      assert a + b == b;
    } else {
      TiedWithAppend(a[1..], b, y, le);
      var h := if Tied(a[0], y, le) then [a[0]] else [];
      assert (a + b)[0] == a[0];
      assert (a + b)[1..] == a[1..] + b;
      assert TiedWith(a + b, y, le) == h + (TiedWith(a[1..], y, le) + TiedWith(b, y, le));
      AppendAssociative(h, TiedWith(a[1..], y, le), TiedWith(b, y, le));
    }
  }

  lemma {:induction false} TiedWithNone<T>(s: seq<T>, y: T, le: (T, T) -> bool)
    requires forall k :: 0 <= k < |s| ==> !Tied(s[k], y, le)
    ensures TiedWith(s, y, le) == []
  {
    if s != [] {
      TiedWithNone(s[1..], y, le);
    }
  }

  lemma {:induction false} TiedWithInsert<T(!new)>(x: T, s: seq<T>, y: T, le: (T, T) -> bool)
    requires TotalPreorder(le) && SortedBy(s, le)
    ensures TiedWith(Insert(x, s, le), y, le)
         == TiedWith(s, y, le) + (if Tied(x, y, le) then [x] else [])
  {
    if s == [] {
    } else if le(s[0], x) {
      assert SortedBy(s[1..], le);
      TiedWithInsert(x, s[1..], y, le);
      TiedWithInsertAfter(x, s, y, le);
    } else {
      TiedWithInsertFront(x, s, y, le);
    }
  }

  lemma TiedWithInsertAfter<T>(x: T, s: seq<T>, y: T, le: (T, T) -> bool)
    requires s != [] && le(s[0], x)
    requires TiedWith(Insert(x, s[1..], le), y, le) == TiedWith(s[1..], y, le) + (if Tied(x, y, le) then [x] else [])
    ensures TiedWith(Insert(x, s, le), y, le)
         == TiedWith(s, y, le) + (if Tied(x, y, le) then [x] else [])
  {
    var r := Insert(x, s[1..], le);
    var head := if Tied(s[0], y, le) then [s[0]] else [];
    var e := if Tied(x, y, le) then [x] else [];
    var t := [s[0]] + r;
    assert Insert(x, s, le) == t;
    assert t[0] == s[0] && t[1..] == r;
    assert TiedWith(t, y, le) == head + TiedWith(r, y, le);
    assert TiedWith(s, y, le) == head + TiedWith(s[1..], y, le);
    AppendAssociative(head, TiedWith(s[1..], y, le), e);
  }

  lemma AppendAssociative<T>(a: seq<T>, b: seq<T>, c: seq<T>)
    ensures a + (b + c) == (a + b) + c
  {
  }

  lemma TiedWithInsertFront<T(!new)>(x: T, s: seq<T>, y: T, le: (T, T) -> bool)
    requires TotalPreorder(le) && SortedBy(s, le)
    requires s != [] && !le(s[0], x)
    ensures TiedWith(Insert(x, s, le), y, le)
         == TiedWith(s, y, le) + (if Tied(x, y, le) then [x] else [])
  {
    if Tied(x, y, le) {
      NoneTiedAfter(x, s, y, le);
    }
    TiedWithInsertFrontStep(x, s, y, le);
  }

  /** What `x` precedes strictly is not tied with anything `x` is tied with. */
  lemma NoneTiedAfter<T(!new)>(x: T, s: seq<T>, y: T, le: (T, T) -> bool)
    requires TotalPreorder(le) && SortedBy(s, le)
    requires s != [] && !le(s[0], x) && Tied(x, y, le)
    ensures forall k :: 0 <= k < |s| ==> !Tied(s[k], y, le)
  {
    forall k | 0 <= k < |s|
      ensures !Tied(s[k], y, le)
    {
      assert k > 0 ==> le(s[0], s[k]);
    }
  }

  lemma TiedWithInsertFrontStep<T>(x: T, s: seq<T>, y: T, le: (T, T) -> bool)
    requires s != [] && !le(s[0], x)
    requires Tied(x, y, le) ==> forall k :: 0 <= k < |s| ==> !Tied(s[k], y, le)
    ensures TiedWith(Insert(x, s, le), y, le)
         == TiedWith(s, y, le) + (if Tied(x, y, le) then [x] else [])
  {
    assert Insert(x, s, le) == [x] + s;
    TiedWithAppend([x], s, y, le);
    TiedWithSingle(x, y, le);
    if Tied(x, y, le) {
      TiedWithNone(s, y, le);
    }
  }

  /** Stability: elements with equal keys leave the sort in their input order. */
  lemma {:induction false} SortByStable<T(!new)>(s: seq<T>, y: T, le: (T, T) -> bool)
    requires TotalPreorder(le)
    ensures TiedWith(SortBy(s, le), y, le) == TiedWith(s, y, le)
  {
    if s != [] {
      var init, last := s[..|s| - 1], s[|s| - 1];
      SortByStable(init, y, le);
      SortBySorted(init, le);
      TiedWithInsert(last, SortBy(init, le), y, le);
      SortByStableStep(s, y, le);
    }
  }

  /** One insertion step of `SortByStable`, apart from the order's laws. */
  lemma SortByStableStep<T>(s: seq<T>, y: T, le: (T, T) -> bool)
    requires s != []
    requires TiedWith(SortBy(s[..|s| - 1], le), y, le) == TiedWith(s[..|s| - 1], y, le)
    requires TiedWith(Insert(s[|s| - 1], SortBy(s[..|s| - 1], le), le), y, le)
          == TiedWith(SortBy(s[..|s| - 1], le), y, le) + (if Tied(s[|s| - 1], y, le) then [s[|s| - 1]] else [])
    ensures TiedWith(SortBy(s, le), y, le) == TiedWith(s, y, le)
  {
    var init, last := s[..|s| - 1], s[|s| - 1];
    var e := if Tied(last, y, le) then [last] else [];
    assert SortBy(s, le) == Insert(last, SortBy(init, le), le);
    SplitLast(s);
    TiedWithAppend(init, [last], y, le);
    TiedWithSingle(last, y, le);
  }

  lemma SplitLast<T>(s: seq<T>)
    requires s != []
    ensures s == s[..|s| - 1] + [s[|s| - 1]]
  {
  }

  lemma TiedWithSingle<T>(x: T, y: T, le: (T, T) -> bool)
    ensures TiedWith([x], y, le) == if Tied(x, y, le) then [x] else []
  {
    assert [x][1..] == [];
  }
}

=== FILE: strings.dfy ===
/** The Python string operations the pipeline relies on: whitespace as
    `str.isspace` sees it, `strip()`, `sep.join(xs)`, `s.split(c)`,
    `s.split()`, and decimal rendering of integers. */
module Strings {

  /** Python's `str.isspace` for one character: the characters that `strip()`
      and the argument-less `split()` treat as whitespace. */
  predicate IsSpace(c: char)
  {
    || ('\t' <= c <= '\r') || ('\U{1C}' <= c <= ' ') || c == '\U{85}' || c == '\U{A0}'
    || c == '\U{1680}' || ('\U{2000}' <= c <= '\U{200A}') || c == '\U{2028}' || c == '\U{2029}'
    || c == '\U{202F}' || c == '\U{205F}' || c == '\U{3000}'
  }

  /** `s.strip() == ''`: the string holds whitespace only. */
  predicate IsBlank(s: string)
  {
    forall i :: 0 <= i < |s| ==> IsSpace(s[i])
  }

  /** A blank string stays blank without its first or its last character,
      and a string with a blank remainder is blank when the dropped
      character is whitespace. */
  lemma BlankUncons(s: string)
    requires s != []
    ensures IsBlank(s) <==> IsSpace(s[0]) && IsBlank(s[1..])
    ensures IsBlank(s) <==> IsSpace(s[|s| - 1]) && IsBlank(s[..|s| - 1])
  {
    assert forall k :: 1 <= k < |s| ==> s[k] == s[1..][k - 1];
    assert forall k :: 0 <= k < |s| - 1 ==> s[k] == s[..|s| - 1][k];
  }

  /** Python's `s.strip()`: whitespace dropped at both ends, so empty
      exactly for a blank string and otherwise starting and ending with
      non-whitespace. */
  function Strip(s: string): (r: string)
    ensures r == "" <==> IsBlank(s)
    ensures r != "" ==> !IsSpace(r[0]) && !IsSpace(r[|r| - 1])
    decreases |s|
  {
    if s == [] then s
    else if IsSpace(s[0]) then BlankUncons(s); Strip(s[1..])
    else if IsSpace(s[|s| - 1]) then BlankUncons(s); Strip(s[..|s| - 1])
    else s
  }

  /** How many characters `strip()` drops at the front. */
  function StripOffset(s: string): nat
    decreases |s|
  {
    if s == [] then 0
    else if IsSpace(s[0]) then 1 + StripOffset(s[1..])
    else if IsSpace(s[|s| - 1]) then StripOffset(s[..|s| - 1])
    else 0
  }

  /** `r` occurs in `s` at offset `i` with only whitespace before and after it. */
  predicate BlankAround(s: string, r: string, i: nat)
  {
    i + |r| <= |s| && r == s[i..i + |r|] && IsBlank(s[..i]) && IsBlank(s[i + |r|..])
  }

  /** Whitespace at the front of `s` extends the blank prefix. */
  lemma BlankAroundFront(s: string, r: string, i: nat)
    requires s != [] && IsSpace(s[0]) && BlankAround(s[1..], r, i)
    ensures BlankAround(s, r, i + 1)
  {
    var t := s[1..];
    assert s[i + 1..i + 1 + |r|] == t[i..i + |r|];
    assert s[i + 1 + |r|..] == t[i + |r|..];
    var pre := s[..i + 1];
    forall k | 0 <= k < |pre|
      ensures IsSpace(pre[k])
    {
      if k > 0 {
        assert pre[k] == t[..i][k - 1];
      }
    }
  }

  /** Whitespace at the back of `s` extends the blank suffix. */
  lemma BlankAroundBack(s: string, r: string, i: nat)
    requires s != [] && IsSpace(s[|s| - 1]) && BlankAround(s[..|s| - 1], r, i)
    ensures BlankAround(s, r, i)
  {
    var t := s[..|s| - 1];
    assert s[i..i + |r|] == t[i..i + |r|];
    assert s[..i] == t[..i];
    var post := s[i + |r|..];
    forall k | 0 <= k < |post|
      ensures IsSpace(post[k])
    {
      if k < |post| - 1 {
        assert post[k] == t[i + |r|..][k];
      }
    }
  }

  /** Stripping removes only whitespace, and only at the two ends. */
  lemma {:induction false} StripIsInfix(s: string)
    ensures BlankAround(s, Strip(s), StripOffset(s))
  {
    if s == [] {
    } else if IsSpace(s[0]) {
      StripIsInfix(s[1..]);
      BlankAroundFront(s, Strip(s[1..]), StripOffset(s[1..]));
    } else if IsSpace(s[|s| - 1]) {
      StripIsInfix(s[..|s| - 1]);
      BlankAroundBack(s, Strip(s[..|s| - 1]), StripOffset(s[..|s| - 1]));
    } else {
      assert s[..0] == [] && s[0..|s|] == s && s[|s|..] == [];
    }
  }

  /** Python's `sep.join(xs)`. */
  function Join(xs: seq<string>, sep: string): string
  {
    if |xs| == 0 then "" else if |xs| == 1 then xs[0] else xs[0] + sep + Join(xs[1..], sep)
  }

  /** Python's `s.split(c)` for a one-character separator: the fields
      between separators, empty ones included, so never an empty list. */
  function Split(s: string, c: char): (r: seq<string>)
    ensures |r| >= 1
  {
    if s == [] then [""]
    else
      var rest := Split(s[1..], c);
      if s[0] == c then [""] + rest else [[s[0]] + rest[0]] + rest[1..]
  }

  /** No field of a split holds the separator. */
  lemma {:induction false} SplitFieldsWithout(s: string, c: char)
    ensures forall k :: 0 <= k < |Split(s, c)| ==> c !in Split(s, c)[k]
  {
    if s != [] {
      SplitFieldsWithout(s[1..], c);
      var rest := Split(s[1..], c);
      if s[0] != c {
        assert c !in rest[0];
        assert c !in [s[0]] + rest[0];
      }
    }
  }

  /** The number of occurrences of `c` in `s`. */
  function Count(s: string, c: char): nat
  {
    if s == [] then 0 else (if s[0] == c then 1 else 0) + Count(s[1..], c)
  }

  /** Joining the fields of a split with the same separator gives the string back. */
  lemma {:induction false} JoinSplit(s: string, c: char)
    ensures Join(Split(s, c), [c]) == s
  {
    if s != [] {
      JoinSplit(s[1..], c);
      var rest := Split(s[1..], c);
      if s[0] != c && |rest| > 1 {
        assert Join(rest, [c]) == rest[0] + [c] + Join(rest[1..], [c]);
        assert [s[0]] + rest[0] + [c] + Join(rest[1..], [c]) == [s[0]] + Join(rest, [c]);
      }
      assert s == [s[0]] + s[1..];
    }
  }

  lemma {:induction false} SplitWithout(a: string, c: char)
    requires c !in a
    ensures Split(a, c) == [a]
  {
    if a != [] {
      SplitWithout(a[1..], c);
      assert a == [a[0]] + a[1..];
    }
  }

  lemma {:induction false} SplitAfterField(a: string, b: string, c: char)
    requires c !in a
    ensures Split(a + [c] + b, c) == [a] + Split(b, c)
  {
    if a == [] {
      assert [c] + b == a + [c] + b;
      assert ([c] + b)[1..] == b;
    } else {
      SplitAfterField(a[1..], b, c);
      assert (a + [c] + b)[1..] == a[1..] + [c] + b;
      assert a == [a[0]] + a[1..];
    }
  }

  /** Splitting a join recovers the parts, provided no part holds the separator. */
  lemma {:induction false} SplitJoin(xs: seq<string>, c: char)
    requires |xs| >= 1
    requires forall i :: 0 <= i < |xs| ==> c !in xs[i]
    ensures Split(Join(xs, [c]), c) == xs
  {
    if |xs| == 1 {
      SplitWithout(xs[0], c);
    } else {
      SplitJoin(xs[1..], c);
      SplitAfterField(xs[0], Join(xs[1..], [c]), c);
      assert xs == [xs[0]] + xs[1..];
    }
  }

  /** `len(s.split(c))` is one more than the number of separators. */
  lemma {:induction false} SplitCount(s: string, c: char)
    ensures |Split(s, c)| == Count(s, c) + 1
  {
    if s != [] {
      SplitCount(s[1..], c);
    }
  }

  /** Python's argument-less `s.split()`: the maximal runs of non-whitespace. */
  function Words(s: string): (r: seq<string>)
    ensures s != [] && !IsSpace(s[0]) ==> r != []
    ensures forall k :: 0 <= k < |r| ==> r[k] != [] && !IsSpace(r[k][0])
  {
    if s == [] then []
    else if IsSpace(s[0]) then Words(s[1..])
    else
      var rest := Words(s[1..]);
      if |s| > 1 && !IsSpace(s[1]) then [[s[0]] + rest[0]] + rest[1..] else [[s[0]]] + rest
  }

  /** `s.split()` is empty exactly when `s` is blank. */
  lemma {:induction false} WordsEmptyIffBlank(s: string)
    ensures Words(s) == [] <==> IsBlank(s)
  {
    if s != [] {
      WordsEmptyIffBlank(s[1..]);
      if IsSpace(s[0]) {
        assert forall i :: 1 <= i < |s| ==> s[i] == s[1..][i - 1];
      }
    }
  }

  /** The pieces between consecutive whitespace characters, empty pieces
      included: a split at every single whitespace character. */
  function Fields(s: string): (r: seq<string>)
    ensures |r| >= 1
    ensures r[0] == [] <==> s == [] || IsSpace(s[0])
    ensures forall k, i :: 0 <= k < |r| && 0 <= i < |r[k]| ==> !IsSpace(r[k][i])
  {
    if s == [] then [[]]
    else
      var f := Fields(s[1..]);
      if IsSpace(s[0]) then [[]] + f else [[s[0]] + f[0]] + f[1..]
  }

  /** The non-empty strings of `xs`, in order. */
  function NonEmptyOnly(xs: seq<string>): (r: seq<string>)
    ensures forall k :: 0 <= k < |r| ==> r[k] != [] && r[k] in xs
  {
    if xs == [] then []
    else if xs[0] == [] then NonEmptyOnly(xs[1..])
    else [xs[0]] + NonEmptyOnly(xs[1..])
  }

  /** `s.split()` keeps the non-empty pieces of a split at every whitespace
      character: its words are the maximal runs of non-whitespace, in order. */
  lemma {:induction false} WordsReference(s: string)
    ensures Words(s) == NonEmptyOnly(Fields(s))
  {
    if s != [] {
      WordsReference(s[1..]);
      var f := Fields(s[1..]);
      if IsSpace(s[0]) {
        assert NonEmptyOnly(Fields(s)) == NonEmptyOnly(f);
      } else {
        var g := Fields(s);
        assert g[1..] == f[1..];
        assert NonEmptyOnly(g) == [g[0]] + NonEmptyOnly(f[1..]);
        if |s| > 1 && !IsSpace(s[1]) {
          assert s[1..][0] == s[1];
          assert NonEmptyOnly(f) == [f[0]] + NonEmptyOnly(f[1..]);
        } else {
          assert f[0] == [];
          assert g[0] == [s[0]];
          assert NonEmptyOnly(f) == NonEmptyOnly(f[1..]);
        }
      }
    }
  }

  /** No word of `s.split()` holds a whitespace character. */
  lemma WordsNoSpace(s: string)
    ensures forall k, i :: 0 <= k < |Words(s)| && 0 <= i < |Words(s)[k]| ==> !IsSpace(Words(s)[k][i])
  {
    WordsReference(s);
  }

  /** `n` copies of the character `c`, as Python's `c * n`. */
  function Repeat(c: char, n: nat): (r: string)
    ensures |r| == n && forall i :: 0 <= i < n ==> r[i] == c
  {
    seq(n, _ => c)
  }

  function DigitChar(d: nat): char
    requires d < 10
  {
    ['0', '1', '2', '3', '4', '5', '6', '7', '8', '9'][d]
  }

  /** Python's `str(n)` for a natural number. */
  function NatToString(n: nat): (r: string)
    ensures r != []
    ensures forall i :: 0 <= i < |r| ==> '0' <= r[i] <= '9'
  {
    if n < 10 then [DigitChar(n)] else NatToString(n / 10) + [DigitChar(n % 10)]
  }

  /** Python's `str(i)` for an integer. */
  function IntToString(i: int): string
  {
    if i < 0 then "-" + NatToString(-i) else NatToString(i)
  }

  function DigitValue(c: char): nat
  {
    if '0' <= c <= '9' then (c as int - '0' as int) as nat else 0
  }

  /** Reading a string of decimal digits back, as Python's `int(s)`. */
  function ParseNat(s: string): nat
  {
    if s == [] then 0 else 10 * ParseNat(s[..|s| - 1]) + DigitValue(s[|s| - 1])
  }

  /** Rendering a count in decimal loses nothing: `int(str(n)) == n`. */
  lemma {:induction false} NatToStringRoundTrip(n: nat)
    ensures ParseNat(NatToString(n)) == n
  {
    var r := NatToString(n);
    if n >= 10 {
      NatToStringRoundTrip(n / 10);
      assert r[..|r| - 1] == NatToString(n / 10);
    }
  }
}

=== FILE: table_extractor.dfy ===
/** The table extractor: tables recovered by a layout-structure engine as
    HTML, parsed into rectangular rows of cells and scored; the best-scored
    table is returned, and when the engine finds none, a fallback groups
    the words of a text extraction into rows by position. The engines'
    outputs, and the tag tree the HTML parser builds, are inputs here. */
module TableExtractor {
  import opened Basics
  import opened Strings
  import opened Sorting
  import opened Geometry
  import opened LineGrouping
  import opened Results
  import TextExtractor

  /** Line pixels each direction must exceed for a region to look like a table. */
  const TableLineThreshold: int := 100

  /** Pixels of vertical distance within which a word joins a table row. */
  const RowTolerance: real := 30.0

  /** The confidence of a table recovered by the fallback. */
  const FallbackConfidence: real := 0.6

  /** A cell's `colspan` attribute: a number (1 when absent), or a value
      `int()` does not accept. */
  datatype Colspan = Span(n: int) | Malformed

  /** A `td` or `th` cell: its stripped text and its column span. */
  datatype HtmlCell = HtmlCell(text: string, colspan: Colspan)

  /** The parsed HTML: no `table` tag, or the table's `tr` rows in document order. */
  datatype HtmlTable = NoTable | TableRows(rows: seq<seq<HtmlCell>>)

  /** One item of the structure engine's output: its `type` and its HTML,
      `None` when the item carries no HTML or an empty string. */
  datatype StructureItem = StructureItem(kind: string, html: Option<HtmlTable>)

  /** The line pixels the morphological detection counted, or a failure of
      the detection. */
  datatype LineCounts = Detected(horizontal: int, vertical: int) | DetectionFailed

  // ---------------------------------------------------------------------
  // Detection

  /** The region looks like a table when the engine is available and both
      line counts exceed the threshold. */
  function CanHandle(engineAvailable: bool, counts: LineCounts): bool
  {
    engineAvailable && counts.Detected?
    && counts.horizontal > TableLineThreshold && counts.vertical > TableLineThreshold
  }

  /** Without the engine, or without both kinds of ruling lines, no region
      is taken as a table, and more line pixels never undo a detection. */
  lemma CanHandleMonotone(available: bool, counts: LineCounts, more: LineCounts)
    ensures !available ==> !CanHandle(available, counts)
    ensures counts.Detected? && (counts.horizontal <= TableLineThreshold || counts.vertical <= TableLineThreshold)
            ==> !CanHandle(available, counts)
    ensures CanHandle(available, counts) && more.Detected?
            && more.horizontal >= counts.horizontal && more.vertical >= counts.vertical
            ==> CanHandle(available, more)
  {
  }

  // ---------------------------------------------------------------------
  // HTML parsing

  /** Every cell of the row has a numeric column span. */
  predicate RowSpans(cells: seq<HtmlCell>)
  {
    forall j :: 0 <= j < |cells| ==> cells[j].colspan.Span?
  }

  /** Every cell's column span is a number. */
  predicate Spans(rows: seq<seq<HtmlCell>>)
  {
    forall i :: 0 <= i < |rows| ==> RowSpans(rows[i])
  }

  /** The columns a cell occupies: one, or its span when that is larger. */
  function Width(c: HtmlCell): nat
  {
    if c.colspan.Span? && c.colspan.n > 1 then c.colspan.n else 1
  }

  /** `n` empty cells. */
  function Blanks(n: nat): (r: seq<string>)
    ensures |r| == n && forall k :: 0 <= k < n ==> r[k] == ""
  {
    seq(n, _ => "")
  }

  /** A cell's text followed by one empty string per extra spanned column. */
  function ExpandCell(c: HtmlCell): (r: seq<string>)
    ensures |r| == Width(c) && r[0] == c.text
    ensures forall k :: 1 <= k < |r| ==> r[k] == ""
    ensures c.colspan.Span? && c.colspan.n >= 1 ==> |r| == c.colspan.n
    ensures !(c.colspan.Span? && c.colspan.n > 1) ==> r == [c.text]
  {
    [c.text] + Blanks(Width(c) - 1)
  }

  function ExpandRow(cells: seq<HtmlCell>): seq<string>
  {
    if cells == [] then [] else ExpandRow(cells[..|cells| - 1]) + ExpandCell(cells[|cells| - 1])
  }

  function SumWidths(cells: seq<HtmlCell>): nat
  {
    if cells == [] then 0 else SumWidths(cells[..|cells| - 1]) + Width(cells[|cells| - 1])
  }

  /** The expanded rows that are not empty, in document order. */
  function NonEmptyRows(rows: seq<seq<HtmlCell>>): seq<seq<string>>
  {
    if rows == [] then []
    else
      var row := ExpandRow(rows[|rows| - 1]);
      NonEmptyRows(rows[..|rows| - 1]) + (if row != [] then [row] else [])
  }

  /** The length of the longest row, 0 for none. */
  function MaxLen(rows: seq<seq<string>>): (m: nat)
    ensures forall i :: 0 <= i < |rows| ==> |rows[i]| <= m
    ensures rows != [] ==> exists i :: 0 <= i < |rows| && |rows[i]| == m
    ensures rows == [] ==> m == 0
  {
    if rows == [] then 0
    else
      var m := MaxLen(rows[..|rows| - 1]);
      var last := |rows[|rows| - 1]|;
      assert forall i :: 0 <= i < |rows| - 1 ==> rows[..|rows| - 1][i] == rows[i];
      if last > m then last else m
  }

  /** A row padded with empty strings to `m` columns. */
  function Pad(row: seq<string>, m: nat): seq<string>
  {
    if |row| >= m then row else row + Blanks(m - |row|)
  }

  /** The table's rows: none without a `table` tag or when a span is not a
      number; otherwise each non-empty row with its cells expanded by their
      spans, padded to the longest row's length. */
  function ParseTable(t: HtmlTable): seq<seq<string>>
  {
    if t.NoTable? || !Spans(t.rows) then []
    else
      var rs := NonEmptyRows(t.rows);
      var m := MaxLen(rs);
      seq(|rs|, i requires 0 <= i < |rs| => Pad(rs[i], m))
  }

  lemma {:induction false} ExpandRowShape(cells: seq<HtmlCell>)
    ensures |ExpandRow(cells)| == SumWidths(cells) >= |cells|
    ensures ExpandRow(cells) == [] <==> cells == []
  {
    if cells != [] {
      ExpandRowShape(cells[..|cells| - 1]);
    }
  }

  /** Each cell's text sits at the column where the spans of the cells
      before it end, followed by empty strings for its own extra span. */
  lemma {:induction false} ExpandRowPlacement(cells: seq<HtmlCell>, j: nat)
    requires j < |cells|
    ensures var at := SumWidths(cells[..j]);
      && at + Width(cells[j]) <= |ExpandRow(cells)|
      && ExpandRow(cells)[at] == cells[j].text
      && forall k :: at < k < at + Width(cells[j]) ==> ExpandRow(cells)[k] == ""
  {
    var init := cells[..|cells| - 1];
    ExpandRowShape(init);
    if j < |cells| - 1 {
      ExpandRowPlacement(init, j);
      assert init[..j] == cells[..j];
    } else {
      assert cells[..j] == init;
    }
  }

  /** Keeping the non-empty rows of two blocks of rows one after the other
      is keeping those of each block, in order. */
  lemma {:induction false} NonEmptyRowsAppend(a: seq<seq<HtmlCell>>, b: seq<seq<HtmlCell>>)
    ensures NonEmptyRows(a + b) == NonEmptyRows(a) + NonEmptyRows(b)
  {
    if b != [] {
      var b' := b[..|b| - 1];
      NonEmptyRowsAppend(a, b');
      assert (a + b)[..|a + b| - 1] == a + b';
      assert (a + b)[|a + b| - 1] == b[|b| - 1];
    } else {
      assert a + b == a;
    }
  }

  /** No kept row is empty, and there is no kept row exactly when no row
      has a cell. */
  lemma {:induction false} NonEmptyRowsShape(rows: seq<seq<HtmlCell>>)
    ensures |NonEmptyRows(rows)| <= |rows|
    ensures forall i :: 0 <= i < |NonEmptyRows(rows)| ==> NonEmptyRows(rows)[i] != []
    ensures NonEmptyRows(rows) == [] <==> forall i :: 0 <= i < |rows| ==> rows[i] == []
  {
    if rows != [] {
      var init := rows[..|rows| - 1];
      NonEmptyRowsShape(init);
      ExpandRowShape(rows[|rows| - 1]);
      assert forall i :: 0 <= i < |init| ==> init[i] == rows[i];
    }
  }

  /** Every kept row is the expansion of some row, and every row with a
      cell is kept. */
  lemma {:induction false} NonEmptyRowsOrigin(rows: seq<seq<HtmlCell>>)
    ensures forall i :: 0 <= i < |NonEmptyRows(rows)| ==>
              exists j :: 0 <= j < |rows| && NonEmptyRows(rows)[i] == ExpandRow(rows[j])
    ensures forall j :: 0 <= j < |rows| && rows[j] != [] ==> ExpandRow(rows[j]) in NonEmptyRows(rows)
  {
    if rows != [] {
      var init := rows[..|rows| - 1];
      NonEmptyRowsOrigin(init);
      ExpandRowShape(rows[|rows| - 1]);
      assert forall i :: 0 <= i < |init| ==> init[i] == rows[i];
      var last := ExpandRow(rows[|rows| - 1]);
      var kept := NonEmptyRows(rows);
      var keptInit := NonEmptyRows(init);
      assert kept == keptInit + (if last != [] then [last] else []);
      forall i | 0 <= i < |kept|
        ensures exists j :: 0 <= j < |rows| && kept[i] == ExpandRow(rows[j])
      {
        if i < |keptInit| {
          var j :| 0 <= j < |init| && keptInit[i] == ExpandRow(init[j]);
          assert kept[i] == ExpandRow(rows[j]);
        } else {
          assert kept[i] == last;
        }
      }
    } else {
      assert NonEmptyRows(rows) == [];
    }
  }

  /** The parsed table is rectangular: every row has the longest expanded
      row's length, which is at least one; row `i` begins with the `i`-th
      non-empty expanded row and continues with empty strings; there is no
      row exactly when there is no table tag, a span is not a number, or
      every row has no cell. */
  lemma ParseTableShape(t: HtmlTable)
    ensures var d := ParseTable(t);
      && (d == [] <==> t.NoTable? || !Spans(t.rows) || forall i :: 0 <= i < |t.rows| ==> t.rows[i] == [])
      && (t.TableRows? && Spans(t.rows) ==>
            var rs := NonEmptyRows(t.rows);
            && |d| == |rs|
            && forall i :: 0 <= i < |d| ==>
                 && |d[i]| == MaxLen(rs) >= 1
                 && d[i][..|rs[i]|] == rs[i]
                 && forall k :: |rs[i]| <= k < |d[i]| ==> d[i][k] == "")
  {
    if t.TableRows? && Spans(t.rows) {
      NonEmptyRowsShape(t.rows);
    }
  }

  /** A table without a `table` tag, or with a span that is not a number, parses to no rows. */
  lemma ParseTableErrors(rows: seq<seq<HtmlCell>>, i: nat, j: nat)
    requires i < |rows| && j < |rows[i]| && rows[i][j].colspan.Malformed?
    ensures ParseTable(TableRows(rows)) == [] && ParseTable(NoTable) == []
  {
  }

  /** One `tr` as the extractor reads it, cell by cell: `None` when a
      span is not a number, which aborts the whole parse. */
  method ParseRow(cells: seq<HtmlCell>) returns (row: Option<seq<string>>)
    ensures row == if RowSpans(cells) then Some(ExpandRow(cells)) else None
  {
    var expanded: seq<string> := [];
    for j := 0 to |cells|
      invariant RowSpans(cells[..j])
      invariant expanded == ExpandRow(cells[..j])
    {
      var cell := cells[j];
      if cell.colspan.Malformed? {
        return None;
      }
      assert cells[..j + 1][..j] == cells[..j];
      expanded := expanded + [cell.text];
      var k := 0;
      while k < cell.colspan.n - 1
        invariant 0 <= k && (k == 0 || k <= cell.colspan.n - 1)
        invariant expanded == ExpandRow(cells[..j]) + [cell.text] + Blanks(k)
      {
        expanded := expanded + [""];
        k := k + 1;
      }
      assert Blanks(k) == Blanks(Width(cell) - 1);
    }
    assert cells[..|cells|] == cells;
    return Some(expanded);
  }

  /** Every row padded in place to the longest row's length. */
  method NormalizeRows(parsed: seq<seq<string>>) returns (rows: seq<seq<string>>)
    requires parsed != []
    ensures rows == seq(|parsed|, i requires 0 <= i < |parsed| => Pad(parsed[i], MaxLen(parsed)))
  {
    rows := parsed;
    var maxCols := MaxLen(rows);
    for i := 0 to |rows|
      invariant |rows| == |parsed|
      invariant forall k :: 0 <= k < i ==> rows[k] == Pad(parsed[k], maxCols)
      invariant forall k :: i <= k < |rows| ==> rows[k] == parsed[k]
    {
      var row := rows[i];
      while |row| < maxCols
        invariant |row| <= maxCols
        invariant row == parsed[i] + Blanks(|row| - |parsed[i]|)
        decreases maxCols - |row|
      {
        row := row + [""];
      }
      rows := rows[i := row];
    }
  }

  /** The parse as the extractor performs it: row by row, then padding. */
  method ParseHtmlTable(t: HtmlTable) returns (rows: seq<seq<string>>)
    ensures rows == ParseTable(t)
  {
    if t.NoTable? {
      return [];
    }
    var trs := t.rows;
    rows := [];
    for i := 0 to |trs|
      invariant Spans(trs[..i])
      invariant rows == NonEmptyRows(trs[..i])
    {
      var row := ParseRow(trs[i]);
      if row.None? {
        return [];
      }
      assert trs[..i + 1][..i] == trs[..i];
      if row.value != [] {
        rows := rows + [row.value];
      }
    }
    assert trs[..|trs|] == trs;
    if rows != [] {
      rows := NormalizeRows(rows);
    }
  }

  // ---------------------------------------------------------------------
  // Confidence

  function SumLengths(d: seq<seq<string>>): nat
  {
    if d == [] then 0 else SumLengths(d[..|d| - 1]) + |d[|d| - 1]|
  }

  /** The mean row length. */
  function AvgCols(d: seq<seq<string>>): real
    requires d != []
  {
    (SumLengths(d) as real) / (|d| as real)
  }

  function SquaredDeviation(d: seq<seq<string>>, avg: real): real
  {
    if d == [] then 0.0
    else
      var dev := (|d[|d| - 1]| as real) - avg;
      SquaredDeviation(d[..|d| - 1], avg) + dev * dev
  }

  /** The population variance of the row lengths. */
  function Variance(d: seq<seq<string>>): real
    requires d != []
  {
    SquaredDeviation(d, AvgCols(d)) / (|d| as real)
  }

  function StructureScore(d: seq<seq<string>>): real
    requires d != []
  {
    MaxReal(0.0, 1.0 - Variance(d) / (AvgCols(d) + 1.0))
  }

  /** The cells of a row whose text is not blank. */
  function NonBlankInRow(row: seq<string>): (n: nat)
    ensures n <= |row|
  {
    if row == [] then 0
    else NonBlankInRow(row[..|row| - 1]) + (if !IsBlank(row[|row| - 1]) then 1 else 0)
  }

  /** The cells whose text is not blank. */
  function NonBlankCells(d: seq<seq<string>>): nat
  {
    if d == [] then 0 else NonBlankCells(d[..|d| - 1]) + NonBlankInRow(d[|d| - 1])
  }

  function ContentScore(d: seq<seq<string>>): real
  {
    if SumLengths(d) > 0 then (NonBlankCells(d) as real) / (SumLengths(d) as real) else 0.0
  }

  function SizeScore(d: seq<seq<string>>): real
    requires d != []
  {
    MinReal(1.0, (|d| as real) * AvgCols(d) / 20.0)
  }

  /** A table's confidence: 0.0 for no rows, otherwise the 0.4 / 0.4 / 0.2
      weighting of regularity, content density and size, capped at 1. */
  function TableConfidence(d: seq<seq<string>>): real
  {
    if d == [] then 0.0
    else MinReal(1.0, StructureScore(d) * 0.4 + ContentScore(d) * 0.4 + SizeScore(d) * 0.2)
  }

  lemma {:induction false} SquaredDeviationNonNegative(d: seq<seq<string>>, avg: real)
    ensures SquaredDeviation(d, avg) >= 0.0
  {
    if d != [] {
      SquaredDeviationNonNegative(d[..|d| - 1], avg);
    }
  }

  lemma {:induction false} NonBlankAtMostCells(d: seq<seq<string>>)
    ensures NonBlankCells(d) <= SumLengths(d)
  {
    if d != [] {
      NonBlankAtMostCells(d[..|d| - 1]);
    }
  }

  lemma RatioBounds(n: real, t: real)
    requires 0.0 <= n <= t && t > 0.0
    ensures 0.0 <= n / t <= 1.0
  {
  }

  lemma NonNegativeQuotient(v: real, a: real)
    requires v >= 0.0 && a >= 0.0
    ensures v / (a + 1.0) >= 0.0
  {
  }

  lemma NonNegativeProduct(x: real, y: real)
    requires x >= 0.0 && y >= 0.0
    ensures x * y >= 0.0
  {
  }

  lemma StructureScoreRange(d: seq<seq<string>>)
    requires d != []
    ensures 0.0 <= StructureScore(d) <= 1.0
  {
    SquaredDeviationNonNegative(d, AvgCols(d));
    assert Variance(d) >= 0.0;
    assert AvgCols(d) >= 0.0;
    NonNegativeQuotient(Variance(d), AvgCols(d));
  }

  lemma ContentScoreRange(d: seq<seq<string>>)
    ensures 0.0 <= ContentScore(d) <= 1.0
  {
    NonBlankAtMostCells(d);
    if SumLengths(d) > 0 {
      RatioBounds(NonBlankCells(d) as real, SumLengths(d) as real);
    }
  }

  lemma SizeScoreRange(d: seq<seq<string>>)
    requires d != []
    ensures 0.0 <= SizeScore(d) <= 1.0
  {
    assert AvgCols(d) >= 0.0;
    NonNegativeProduct(|d| as real, AvgCols(d));
  }

  /** A table's confidence lies between 0 and 1; no rows gives 0. */
  lemma TableConfidenceRange(d: seq<seq<string>>)
    ensures 0.0 <= TableConfidence(d) <= 1.0
    ensures d == [] ==> TableConfidence(d) == 0.0
  {
    if d != [] {
      StructureScoreRange(d);
      ContentScoreRange(d);
      SizeScoreRange(d);
    }
  }

  lemma {:induction false} RectangularSums(d: seq<seq<string>>, c: nat)
    requires forall i :: 0 <= i < |d| ==> |d[i]| == c
    ensures SumLengths(d) == |d| * c
    ensures SquaredDeviation(d, c as real) == 0.0
  {
    if d != [] {
      RectangularSums(d[..|d| - 1], c);
    }
  }

  lemma Cancel(n: real, c: real)
    requires n > 0.0
    ensures (n * c) / n == c
  {
  }

  lemma RectangularAverage(d: seq<seq<string>>, c: nat)
    requires d != [] && forall i :: 0 <= i < |d| ==> |d[i]| == c
    ensures AvgCols(d) == c as real && Variance(d) == 0.0
  {
    RectangularSums(d, c);
    assert (SumLengths(d) as real) == (|d| as real) * (c as real);
    Cancel(|d| as real, c as real);
  }

  /** Rows of equal length have no variance: a rectangular table scores 1
      for its structure. */
  lemma RectangularStructure(d: seq<seq<string>>, c: nat)
    requires d != [] && forall i :: 0 <= i < |d| ==> |d[i]| == c
    ensures StructureScore(d) == 1.0
  {
    RectangularAverage(d, c);
    assert Variance(d) / (AvgCols(d) + 1.0) == 0.0;
  }

  lemma ScaledAtLeastOne(x: real)
    requires x >= 20.0
    ensures x / 20.0 >= 1.0
  {
  }

  lemma ProductCast(a: nat, b: nat)
    ensures (a as real) * (b as real) == (a * b) as real
  {
  }

  lemma SelfRatio(t: real)
    requires t > 0.0
    ensures t / t == 1.0
  {
  }

  lemma FullContent(d: seq<seq<string>>)
    requires NonBlankCells(d) == SumLengths(d) > 0
    ensures ContentScore(d) == 1.0
  {
    SelfRatio(SumLengths(d) as real);
  }

  lemma FullSize(d: seq<seq<string>>, c: nat)
    requires d != [] && forall i :: 0 <= i < |d| ==> |d[i]| == c
    requires |d| * c >= 20
    ensures SizeScore(d) == 1.0
  {
    RectangularAverage(d, c);
    ProductCast(|d|, c);
    ScaledAtLeastOne((|d| * c) as real);
  }

  /** A rectangular table of `c` columns all of whose cells are filled and
      which has at least 20 cells has confidence 1. */
  lemma FullTableConfidence(d: seq<seq<string>>, c: nat)
    requires d != [] && forall i :: 0 <= i < |d| ==> |d[i]| == c
    requires NonBlankCells(d) == SumLengths(d) && |d| * c >= 20
    ensures TableConfidence(d) == 1.0
  {
    RectangularStructure(d, c);
    RectangularSums(d, c);
    FullContent(d);
    FullSize(d, c);
  }

  /** A parsed table always scores 1 for its structure. */
  lemma ParsedStructureScore(t: HtmlTable)
    requires ParseTable(t) != []
    ensures StructureScore(ParseTable(t)) == 1.0
  {
    ParseTableShape(t);
    var d := ParseTable(t);
    RectangularStructure(d, |d[0]|);
  }

  // ---------------------------------------------------------------------
  // Extraction

  /** The number of columns: the first row's length, 0 for no rows. */
  function Columns(d: seq<seq<string>>): nat
  {
    if d == [] then 0 else |d[0]|
  }

  /** The table recovered from one item of the structure engine's output:
      none when the item carries no HTML. */
  function TableOf(html: Option<HtmlTable>): Option<Region>
  {
    if html.None? then None
    else
      var d := ParseTable(html.value);
      Some(Table(d, TableConfidence(d), |d|, Columns(d), "PP-Structure"))
  }

  method ProcessTableRegion(item: StructureItem) returns (r: Option<Region>)
    ensures r == TableOf(item.html)
  {
    if item.html.None? {
      return None;
    }
    var data := ParseHtmlTable(item.html.value);
    var columns := if data != [] then |data[0]| else 0;
    r := Some(Table(data, TableConfidence(data), |data|, columns, "PP-Structure"));
  }

  /** The tables of the items whose type is `table`, in output order. */
  function Candidates(items: seq<StructureItem>): seq<Region>
  {
    if items == [] then []
    else
      var item := items[|items| - 1];
      var t := if item.kind == "table" then TableOf(item.html) else None;
      Candidates(items[..|items| - 1]) + (if t.Some? then [t.value] else [])
  }

  /** The first table of highest confidence, as Python's `max` returns it. */
  function BestIndex(ts: seq<Region>): (b: nat)
    requires ts != []
    ensures b < |ts|
    ensures forall k :: 0 <= k < |ts| ==> ConfidenceOf(ts[k]) <= ConfidenceOf(ts[b])
    ensures forall k :: 0 <= k < b ==> ConfidenceOf(ts[k]) < ConfidenceOf(ts[b])
  {
    if |ts| == 1 then 0
    else
      var b := BestIndex(ts[..|ts| - 1]);
      assert forall k :: 0 <= k < |ts| - 1 ==> ts[..|ts| - 1][k] == ts[k];
      if ConfidenceOf(ts[|ts| - 1]) > ConfidenceOf(ts[b]) then |ts| - 1 else b
  }

  /** The fallback: group the words of a text extraction (with the default
      threshold) into rows; a table needs at least two rows. */
  function FallbackResult(paddle: EngineRun<seq<Option<WordBox>>>, easy: EngineRun<seq<WordBox>>): Region
  {
    if !TextExtractor.Constructible(paddle, easy) then TableFailure(TextExtractor.NoEngine)
    else
      var ws := WordBoxesOf(TextExtractor.Extract(paddle, easy, TextExtractor.DefaultThreshold));
      if ws == [] then TableFailure("No text found for table extraction")
      else
        var d := TableRowsOf(ws);
        if |d| > 1 then Table(d, FallbackConfidence, |d|, |d[0]|, "Fallback")
        else TableFailure("Could not detect table structure")
  }

  /** The extraction: the engine's failure, the best of its tables, or the fallback. */
  function TableResult(engine: EngineRun<seq<StructureItem>>,
                       paddle: EngineRun<seq<Option<WordBox>>>, easy: EngineRun<seq<WordBox>>): Region
  {
    match engine
    case Unavailable => TableFailure("Table extraction engine not available")
    case Raised(message) => TableFailure(message)
    case Ran(items) =>
      var ts := Candidates(items);
      if ts != [] then ts[BestIndex(ts)] else FallbackResult(paddle, easy)
  }

  method ExtractTable(engine: EngineRun<seq<StructureItem>>,
                      paddle: EngineRun<seq<Option<WordBox>>>, easy: EngineRun<seq<WordBox>>)
    returns (r: Region)
    ensures r == TableResult(engine, paddle, easy)
  {
    if engine.Unavailable? {
      return TableFailure("Table extraction engine not available");
    }
    if engine.Raised? {
      return TableFailure(engine.message);
    }
    var results := engine.output;
    var tables: seq<Region> := [];
    for i := 0 to |results|
      invariant tables == Candidates(results[..i])
    {
      assert results[..i + 1][..i] == results[..i];
      var region := results[i];
      if region.kind == "table" {
        var tableData := ProcessTableRegion(region);
        if tableData.Some? {
          tables := tables + [tableData.value];
        }
      }
    }
    assert results[..|results|] == results;
    if tables != [] {
      r := tables[BestIndex(tables)];
    } else {
      r := FallbackTableExtraction(paddle, easy);
    }
  }

  method FallbackTableExtraction(paddle: EngineRun<seq<Option<WordBox>>>, easy: EngineRun<seq<WordBox>>)
    returns (r: Region)
    ensures r == FallbackResult(paddle, easy)
  {
    if !TextExtractor.Constructible(paddle, easy) {
      return TableFailure(TextExtractor.NoEngine);
    }
    var textResult := TextExtractor.ExtractText(paddle, easy, TextExtractor.DefaultThreshold);
    var wordBoxes := WordBoxesOf(textResult);
    if wordBoxes == [] {
      return TableFailure("No text found for table extraction");
    }
    var tableData := GroupWordsIntoTable(wordBoxes);
    if tableData != [] && |tableData| > 1 {
      return Table(tableData, FallbackConfidence, |tableData|, |tableData[0]|, "Fallback");
    }
    return TableFailure("Could not detect table structure");
  }

  /** With a text extractor, no words give the `No text found` failure,
      two or more grouped rows give the table of those rows, and fewer give
      the `Could not detect` failure. */
  lemma FallbackOutcomes(paddle: EngineRun<seq<Option<WordBox>>>, easy: EngineRun<seq<WordBox>>)
    requires TextExtractor.Constructible(paddle, easy)
    ensures var r := FallbackResult(paddle, easy);
      var ws := WordBoxesOf(TextExtractor.Extract(paddle, easy, TextExtractor.DefaultThreshold));
      var d := TableRowsOf(ws);
      && (ws == [] ==> r == TableFailure("No text found for table extraction"))
      && (ws != [] && |d| > 1 ==> r == Table(d, FallbackConfidence, |d|, |d[0]|, "Fallback"))
      && (ws != [] && |d| <= 1 ==> r == TableFailure("Could not detect table structure"))
  {
  }

  /** The fallback's table has at least two rows, the first row's length
      as its column count and the fixed fallback confidence; every other
      outcome is a failure. */
  lemma FallbackProperties(paddle: EngineRun<seq<Option<WordBox>>>, easy: EngineRun<seq<WordBox>>)
    ensures var r := FallbackResult(paddle, easy);
      && (r.Table? || r.TableFailure?)
      && (r.Table? ==> r.extractor == "Fallback" && r.confidence == FallbackConfidence
                       && r.rows == |r.data| >= 2 && r.columns == Columns(r.data))
      && (!TextExtractor.Constructible(paddle, easy) ==> r == TableFailure(TextExtractor.NoEngine))
  {
    if TextExtractor.Constructible(paddle, easy) {
      var ws := WordBoxesOf(TextExtractor.Extract(paddle, easy, TextExtractor.DefaultThreshold));
      if ws != [] {
        var d := TableRowsOf(ws);
        if |d| > 1 {
          assert FallbackResult(paddle, easy) == Table(d, FallbackConfidence, |d|, |d[0]|, "Fallback");
        }
      }
    }
  }

  /** Every table the extractor returns carries a confidence between 0 and
      1 and its row and column counts; a table from the structure engine is
      the first one of highest confidence among the items of type `table`,
      and the fallback runs only when there is none. */
  lemma TableResultProperties(engine: EngineRun<seq<StructureItem>>,
                              paddle: EngineRun<seq<Option<WordBox>>>, easy: EngineRun<seq<WordBox>>)
    ensures var r := TableResult(engine, paddle, easy);
      && Kind(r) == "table"
      && 0.0 <= ConfidenceOf(r) <= 1.0
      && (r.Table? ==> r.rows == |r.data| && r.columns == Columns(r.data))
      && (engine.Ran? && Candidates(engine.output) != [] ==>
            r in Candidates(engine.output)
            && forall t :: t in Candidates(engine.output) ==> ConfidenceOf(t) <= ConfidenceOf(r))
      && (engine.Ran? && Candidates(engine.output) == [] ==> r == FallbackResult(paddle, easy))
      && (engine.Unavailable? ==> r == TableFailure("Table extraction engine not available") && ConfidenceOf(r) == 0.0)
      && (engine.Raised? ==> r == TableFailure(engine.message) && ConfidenceOf(r) == 0.0)
  {
    var r := TableResult(engine, paddle, easy);
    if engine.Ran? {
      var ts := Candidates(engine.output);
      CandidatesAreTables(engine.output);
      if ts != [] {
        var b := BestIndex(ts);
        assert r == ts[b];
        assert r in ts;
      } else {
        FallbackProperties(paddle, easy);
      }
    }
  }

  lemma {:induction false} CandidatesAreTables(items: seq<StructureItem>)
    ensures forall t :: t in Candidates(items) ==>
      && t.Table? && t.extractor == "PP-Structure"
      && 0.0 <= t.confidence <= 1.0 && t.rows == |t.data| && t.columns == Columns(t.data)
  {
    if items != [] {
      CandidatesAreTables(items[..|items| - 1]);
      var item := items[|items| - 1];
      if item.kind == "table" && item.html.Some? {
        TableConfidenceRange(ParseTable(item.html.value));
      }
    }
  }

  // ---------------------------------------------------------------------
  // Grouping words into rows

  /** One row's cells: its words' texts from left to right. */
  function ProcessTableRow(row: seq<WordBox>): (r: seq<string>)
    ensures |r| == |row|
  {
    Texts(SortBy(row, ColumnLe))
  }

  function RowTexts(ls: seq<seq<WordBox>>): (r: seq<seq<string>>)
    ensures |r| == |ls| && forall i :: 0 <= i < |ls| ==> r[i] == ProcessTableRow(ls[i])
  {
    seq(|ls|, i requires 0 <= i < |ls| => ProcessTableRow(ls[i]))
  }

  /** The rows of words: sorted by centre-y, grouped with the anchored
      30-pixel tolerance. */
  function WordRows(ws: seq<WordBox>): seq<seq<WordBox>>
  {
    Lines(SortBy(ws, RowLe), RowTolerance)
  }

  function TableRowsOf(ws: seq<WordBox>): seq<seq<string>>
  {
    RowTexts(WordRows(ws))
  }

  method GroupWordsIntoTable(ws: seq<WordBox>) returns (rows: seq<seq<string>>)
    ensures rows == TableRowsOf(ws)
  {
    if ws == [] {
      return [];
    }
    rows := GroupSortedWords(SortBy(ws, RowLe));
  }

  /** The scan over words already sorted by centre-y. */
  method GroupSortedWords(sorted: seq<WordBox>) returns (rows: seq<seq<string>>)
    requires sorted != []
    ensures rows == RowTexts(Lines(sorted, RowTolerance))
  {
    ghost var all := RowTexts(Lines(sorted, RowTolerance));
    rows := [];
    var currentRow: seq<WordBox> := [];
    var currentY: Option<real> := None;
    for i := 0 to |sorted|
      invariant currentY.None? <==> i == 0
      invariant i == 0 ==> rows == []
      invariant i > 0 ==> currentRow != []
      invariant i > 0 ==> all == rows + RowTexts(LinesFrom(currentRow, currentY.value, sorted[i..], RowTolerance))
    {
      var word := sorted[i];
      var y := Cy(word);
      assert sorted[i..] == [word] + sorted[i + 1..];
      if currentY.None? {
        currentY := Some(y);
        currentRow := [word];
      } else if Abs(y - currentY.value) <= RowTolerance {
        JoinRowStep(currentRow, currentY.value, word, sorted[i + 1..]);
        currentRow := currentRow + [word];
      } else {
        CloseRowStep(currentRow, currentY.value, word, sorted[i + 1..]);
        var rowData := ProcessTableRow(currentRow);
        if rowData != [] {
          rows := rows + [rowData];
        }
        currentRow := [word];
        currentY := Some(y);
      }
    }
    assert sorted[|sorted|..] == [];
    RowTextsCons(currentRow, []);
    if currentRow != [] {
      var rowData := ProcessTableRow(currentRow);
      if rowData != [] {
        rows := rows + [rowData];
      }
    }
    assert rows == all;
  }

  /** A word within the tolerance joins the open row. */
  lemma JoinRowStep(row: seq<WordBox>, anchor: real, w: WordBox, rest: seq<WordBox>)
    requires Abs(Cy(w) - anchor) <= RowTolerance
    ensures RowTexts(LinesFrom(row, anchor, [w] + rest, RowTolerance))
         == RowTexts(LinesFrom(row + [w], anchor, rest, RowTolerance))
  {
    LinesFromStep(row, anchor, w, rest, RowTolerance);
  }

  /** A word beyond the tolerance closes the open row and opens the next. */
  lemma CloseRowStep(row: seq<WordBox>, anchor: real, w: WordBox, rest: seq<WordBox>)
    requires Abs(Cy(w) - anchor) > RowTolerance
    ensures RowTexts(LinesFrom(row, anchor, [w] + rest, RowTolerance))
         == [ProcessTableRow(row)] + RowTexts(LinesFrom([w], Cy(w), rest, RowTolerance))
  {
    LinesFromStep(row, anchor, w, rest, RowTolerance);
    RowTextsCons(row, LinesFrom([w], Cy(w), rest, RowTolerance));
  }

  lemma RowTextsCons(row: seq<WordBox>, rest: seq<seq<WordBox>>)
    ensures RowTexts([row] + rest) == [ProcessTableRow(row)] + RowTexts(rest)
  {
  }

  function CellCount(d: seq<seq<string>>): nat
  {
    if d == [] then 0 else |d[0]| + CellCount(d[1..])
  }

  lemma {:induction false} CellCountConcat(ls: seq<seq<WordBox>>)
    ensures CellCount(RowTexts(ls)) == |Concat(ls)|
  {
    if ls != [] {
      CellCountConcat(ls[1..]);
      assert RowTexts(ls)[1..] == RowTexts(ls[1..]);
    }
  }

  /** The fallback's rows hold every word once: as many cells as words;
      no row is empty; each row is one anchored group of the words sorted
      by centre-y, its cells sorted by centre-x. */
  lemma TableRowsShape(ws: seq<WordBox>)
    ensures var d := TableRowsOf(ws);
      var ls := WordRows(ws);
      && |d| <= |ws|
      && (d == [] <==> ws == [])
      && CellCount(d) == |ws|
      && Concat(ls) == SortBy(ws, RowLe)
      && forall i :: 0 <= i < |d| ==>
           && d[i] != []
           && d[i] == Texts(SortBy(ls[i], ColumnLe))
           && SortedBy(SortBy(ls[i], ColumnLe), ColumnLe)
           && multiset(SortBy(ls[i], ColumnLe)) == multiset(ls[i])
           && Anchored(ls[i], RowTolerance)
  {
    var ls := WordRows(ws);
    LinesShape(SortBy(ws, RowLe), RowTolerance);
    CellCountConcat(ls);
    ColumnOrderIsTotal();
    forall i | 0 <= i < |ls|
      ensures SortedBy(SortBy(ls[i], ColumnLe), ColumnLe)
    {
      SortBySorted(ls[i], ColumnLe);
    }
  }
}

=== FILE: text_extractor.dfy ===
/** The text extractor: a primary OCR engine (PaddleOCR) whose output is
    accepted only when its mean confidence reaches the threshold, a secondary
    engine (EasyOCR) accepted unconditionally, confidence filtering of the
    recognised words, and the reconstruction of reading order from the
    words' boxes. The engines' outputs are inputs here. */
module TextExtractor {
  import opened Basics
  import opened Strings
  import opened Sorting
  import opened Geometry
  import opened LineGrouping
  import opened Results

  /** The extractor's default `confidence_threshold`. */
  const DefaultThreshold: real := 0.8

  /** Pixels of vertical distance within which a word joins a text line. */
  const LineTolerance: real := 20.0

  /** What an engine-specific extraction returns before the extractor is
      named: content, mean confidence, kept words, and the word and line
      counts, absent when the engine returned nothing. */
  datatype EngineText = EngineText(content: string, confidence: real, wordBoxes: seq<WordBox>,
                                   wordCount: Option<nat>, lineCount: Option<nat>)

  /** The text extractor can handle any region. */
  function CanHandle(regionBox: Option<Rect>): (r: bool)
    ensures r
  {
    true
  }

  // ---------------------------------------------------------------------
  // Confidence filtering and averaging

  /** The words whose confidence reaches the threshold, in reported order. */
  function Confident(ws: seq<WordBox>, threshold: real): seq<WordBox>
  {
    if ws == [] then []
    else
      var last := ws[|ws| - 1];
      Confident(ws[..|ws| - 1], threshold) + (if last.confidence >= threshold then [last] else [])
  }

  /** The words of PaddleOCR's non-empty line entries. */
  function Present(page: seq<Option<WordBox>>): seq<WordBox>
  {
    if page == [] then []
    else
      var last := page[|page| - 1];
      Present(page[..|page| - 1]) + (if last.Some? then [last.value] else [])
  }

  function SumConfidence(ws: seq<WordBox>): real
  {
    if ws == [] then 0.0 else SumConfidence(ws[..|ws| - 1]) + ws[|ws| - 1].confidence
  }

  /** The mean confidence of the kept words, 0.0 when none is kept. */
  function Mean(ws: seq<WordBox>): real
  {
    if ws == [] then 0.0 else SumConfidence(ws) / (|ws| as real)
  }

  predicate ConfidencesAtMostOne(ws: seq<WordBox>)
  {
    forall k :: 0 <= k < |ws| ==> ws[k].confidence <= 1.0
  }

  /** Filtering keeps exactly the words that reach the threshold and no
      more words than were reported; `ConfidentAppend` states the order. */
  lemma {:induction false} ConfidentExactly(ws: seq<WordBox>, threshold: real)
    ensures var r := Confident(ws, threshold);
      && |r| <= |ws|
      && (forall k :: 0 <= k < |r| ==> r[k].confidence >= threshold && r[k] in ws)
      && (forall k :: 0 <= k < |ws| && ws[k].confidence >= threshold ==> ws[k] in r)
  {
    if ws != [] {
      ConfidentExactly(ws[..|ws| - 1], threshold);
      assert ws == ws[..|ws| - 1] + [ws[|ws| - 1]];
    }
  }

  /** Filtering keeps order: filtering two runs of words one after the
      other is filtering each, in order. */
  lemma {:induction false} ConfidentAppend(a: seq<WordBox>, b: seq<WordBox>, threshold: real)
    ensures Confident(a + b, threshold) == Confident(a, threshold) + Confident(b, threshold)
  {
    if b != [] {
      var b' := b[..|b| - 1];
      ConfidentAppend(a, b', threshold);
      assert (a + b)[..|a + b| - 1] == a + b';
      assert (a + b)[|a + b| - 1] == b[|b| - 1];
    } else {
      assert a + b == a;
    }
  }

  /** A single word is kept exactly when it reaches the threshold. */
  lemma ConfidentSingle(w: WordBox, threshold: real)
    ensures Confident([w], threshold) == (if w.confidence >= threshold then [w] else [])
  {
    assert [w][..0] == [];
  }

  /** Every confidence lies between `low` and 1. */
  predicate ConfidencesWithin(ws: seq<WordBox>, low: real)
  {
    forall k :: 0 <= k < |ws| ==> low <= ws[k].confidence <= 1.0
  }

  lemma {:induction false} SumBounds(ws: seq<WordBox>, low: real)
    requires ConfidencesWithin(ws, low)
    ensures (|ws| as real) * low <= SumConfidence(ws) <= |ws| as real
  {
    if ws != [] {
      assert ConfidencesWithin(ws[..|ws| - 1], low);
      SumBounds(ws[..|ws| - 1], low);
    }
  }

  lemma DivideBounds(sum: real, n: real, low: real)
    requires n > 0.0 && n * low <= sum <= n
    ensures low <= sum / n <= 1.0
  {
  }

  /** The mean of confidences that all lie between `low` and 1 lies there too. */
  lemma MeanBounds(ws: seq<WordBox>, low: real)
    requires ws != [] && ConfidencesWithin(ws, low)
    ensures low <= Mean(ws) <= 1.0
  {
    SumBounds(ws, low);
    DivideBounds(SumConfidence(ws), |ws| as real, low);
  }

  lemma {:induction false} ConfidentRange(ws: seq<WordBox>, threshold: real)
    requires ConfidencesAtMostOne(ws)
    ensures ConfidencesWithin(Confident(ws, threshold), threshold)
  {
    if ws != [] {
      var init, last := ws[..|ws| - 1], ws[|ws| - 1];
      assert ConfidencesAtMostOne(init);
      ConfidentRange(init, threshold);
      var r0 := Confident(init, threshold);
      var r := Confident(ws, threshold);
      assert r == r0 + (if last.confidence >= threshold then [last] else []);
      forall k | 0 <= k < |r|
        ensures threshold <= r[k].confidence <= 1.0
      {
        if k < |r0| {
          assert r[k] == r0[k];
        } else {
          assert r[k] == last;
        }
      }
    }
  }

  /** The reported confidence is 0.0 when nothing is kept and otherwise lies
      between the threshold and 1, given that the engine's confidences are
      at most 1. */
  lemma MeanOfConfident(ws: seq<WordBox>, threshold: real)
    requires ConfidencesAtMostOne(ws)
    ensures var kept := Confident(ws, threshold);
      && (kept == [] ==> Mean(kept) == 0.0)
      && (kept != [] ==> threshold <= Mean(kept) <= 1.0)
  {
    var kept := Confident(ws, threshold);
    if kept != [] {
      ConfidentRange(ws, threshold);
      MeanBounds(kept, threshold);
    }
  }

  // ---------------------------------------------------------------------
  // Reading order

  /** One line's words, joined with single spaces. */
  function LineStrings(ls: seq<seq<WordBox>>): (r: seq<string>)
    ensures |r| == |ls| && forall i :: 0 <= i < |ls| ==> r[i] == Join(Texts(ls[i]), " ")
  {
    seq(|ls|, i requires 0 <= i < |ls| => Join(Texts(ls[i]), " "))
  }

  /** The reading-order lines: the words sorted by `(centre-y, centre-x)`
      and grouped with the anchored 20-pixel tolerance. */
  function ReadingLines(ws: seq<WordBox>): seq<seq<WordBox>>
  {
    Lines(SortBy(ws, ReadingLe), LineTolerance)
  }

  /** The reconstructed text: lines joined by newlines. */
  function LayoutText(ws: seq<WordBox>): string
  {
    if ws == [] then "" else Join(LineStrings(ReadingLines(ws)), "\n")
  }

  lemma LineStringsCons(line: seq<WordBox>, rest: seq<seq<WordBox>>)
    ensures LineStrings([line] + rest) == [Join(Texts(line), " ")] + LineStrings(rest)
  {
  }

  method ReconstructTextLayout(ws: seq<WordBox>) returns (content: string)
    ensures content == LayoutText(ws)
  {
    if ws == [] {
      return "";
    }
    var lines := GroupLines(SortBy(ws, ReadingLe));
    content := Join(lines, "\n");
  }

  /** The scan over words already in reading order: one string per line. */
  method GroupLines(sorted: seq<WordBox>) returns (lines: seq<string>)
    requires sorted != []
    ensures lines == LineStrings(Lines(sorted, LineTolerance))
  {
    ghost var all := LineStrings(Lines(sorted, LineTolerance));
    lines := [];
    var currentLine: seq<string> := [];
    var currentY: Option<real> := None;
    ghost var open: seq<WordBox> := [];
    for i := 0 to |sorted|
      invariant currentY.None? <==> i == 0
      invariant i == 0 ==> lines == []
      invariant i > 0 ==> open != [] && currentLine == Texts(open)
      invariant i > 0 ==> all == lines + LineStrings(LinesFrom(open, currentY.value, sorted[i..], LineTolerance))
    {
      var box := sorted[i];
      var y := Cy(box);
      assert sorted[i..] == [box] + sorted[i + 1..];
      if currentY.None? {
        currentY := Some(y);
        currentLine := [box.text];
        open := [box];
      } else if Abs(y - currentY.value) <= LineTolerance {
        LinesFromStep(open, currentY.value, box, sorted[i + 1..], LineTolerance);
        currentLine := currentLine + [box.text];
        open := open + [box];
      } else {
        LinesFromStep(open, currentY.value, box, sorted[i + 1..], LineTolerance);
        LineStringsCons(open, LinesFrom([box], y, sorted[i + 1..], LineTolerance));
        lines := lines + [Join(currentLine, " ")];
        currentLine := [box.text];
        currentY := Some(y);
        open := [box];
      }
    }
    assert sorted[|sorted|..] == [];
    assert LineStrings([open]) == [Join(currentLine, " ")];
    if currentLine != [] {
      lines := lines + [Join(currentLine, " ")];
    }
  }

  lemma {:induction false} JoinAvoids(xs: seq<string>, sep: string, c: char)
    requires c !in sep && forall k :: 0 <= k < |xs| ==> c !in xs[k]
    ensures c !in Join(xs, sep)
  {
    if |xs| > 1 {
      JoinAvoids(xs[1..], sep, c);
    }
  }

  /** No word's text holds a space or a newline. */
  predicate NoSeparators(ws: seq<WordBox>)
  {
    forall k :: 0 <= k < |ws| ==> ' ' !in ws[k].text && '\n' !in ws[k].text
  }

  lemma {:induction false} ConcatNoSeparators(ls: seq<seq<WordBox>>)
    requires NoSeparators(Concat(ls))
    ensures forall i :: 0 <= i < |ls| ==> NoSeparators(ls[i])
  {
    if ls != [] {
      assert forall k :: 0 <= k < |ls[0]| ==> ls[0][k] == Concat(ls)[k];
      assert forall k :: 0 <= k < |Concat(ls[1..])| ==> Concat(ls[1..])[k] == Concat(ls)[|ls[0]| + k];
      ConcatNoSeparators(ls[1..]);
      assert forall i :: 1 <= i < |ls| ==> ls[i] == ls[1..][i - 1];
    }
  }

  lemma SortNoSeparators(ws: seq<WordBox>)
    requires NoSeparators(ws)
    ensures NoSeparators(SortBy(ws, ReadingLe))
  {
    var sorted := SortBy(ws, ReadingLe);
    forall k | 0 <= k < |sorted|
      ensures ' ' !in sorted[k].text && '\n' !in sorted[k].text
    {
      assert sorted[k] in multiset(ws);
      var j :| 0 <= j < |ws| && ws[j] == sorted[k];
    }
  }

  /** One line's string splits back, at spaces, into its words, and holds no newline. */
  lemma LineStringRoundTrip(line: seq<WordBox>)
    requires line != [] && NoSeparators(line)
    ensures Split(Join(Texts(line), " "), ' ') == Texts(line)
    ensures '\n' !in Join(Texts(line), " ")
  {
    SplitJoin(Texts(line), ' ');
    JoinAvoids(Texts(line), " ", '\n');
  }

  /** Reading order round trip: when no word holds a space or a newline,
      splitting the reconstructed text at newlines gives one field per line,
      and splitting each field at spaces gives that line's words. */
  lemma ReadingOrderRoundTrip(ws: seq<WordBox>)
    requires ws != [] && NoSeparators(ws)
    ensures var ls := ReadingLines(ws);
      && |Split(LayoutText(ws), '\n')| == |ls|
      && (forall i :: 0 <= i < |ls| ==> Split(Split(LayoutText(ws), '\n')[i], ' ') == Texts(ls[i]))
  {
    var sorted := SortBy(ws, ReadingLe);
    var ls := ReadingLines(ws);
    LinesShape(sorted, LineTolerance);
    SortNoSeparators(ws);
    ConcatNoSeparators(ls);
    forall i | 0 <= i < |ls|
      ensures Split(Join(Texts(ls[i]), " "), ' ') == Texts(ls[i])
      ensures '\n' !in Join(Texts(ls[i]), " ")
    {
      LineStringRoundTrip(ls[i]);
    }
    SplitJoin(LineStrings(ls), '\n');
  }

  /** The lines, read in turn, are every kept word exactly once, sorted by
      `(centre-y, centre-x)`. */
  lemma ReadingLinesOrder(ws: seq<WordBox>)
    ensures var ls := ReadingLines(ws);
      && Concat(ls) == SortBy(ws, ReadingLe)
      && SortedBy(Concat(ls), ReadingLe)
      && multiset(Concat(ls)) == multiset(ws)
  {
    LinesShape(SortBy(ws, ReadingLe), LineTolerance);
    ReadingOrderIsTotal();
    SortBySorted(ws, ReadingLe);
  }

  // ---------------------------------------------------------------------
  // Line count estimate

  /** Python's order on floats, for sorting the centre-ys. */
  predicate RealLe(a: real, b: real)
  {
    a <= b
  }

  function Ys(ws: seq<WordBox>): (r: seq<real>)
    ensures |r| == |ws| && forall k :: 0 <= k < |ws| ==> r[k] == Cy(ws[k])
  {
    seq(|ws|, k requires 0 <= k < |ws| => Cy(ws[k]))
  }

  /** How many consecutive values of `ys` are more than the tolerance apart. */
  function Gaps(ys: seq<real>): nat
  {
    if |ys| < 2 then 0
    else Gaps(ys[..|ys| - 1]) + (if ys[|ys| - 1] - ys[|ys| - 2] > LineTolerance then 1 else 0)
  }

  /** The estimated line count: one more than the gaps between sorted centre-ys. */
  function LineEstimate(ws: seq<WordBox>): nat
  {
    if ws == [] then 0 else 1 + Gaps(SortBy(Ys(ws), RealLe))
  }

  lemma {:induction false} GapsBound(ys: seq<real>)
    ensures |ys| >= 1 ==> Gaps(ys) <= |ys| - 1
  {
    if |ys| >= 2 {
      GapsBound(ys[..|ys| - 1]);
    }
  }

  /** No words, no lines; otherwise between one line and one line per word. */
  lemma LineEstimateBounds(ws: seq<WordBox>)
    ensures LineEstimate(ws) == 0 <==> ws == []
    ensures ws != [] ==> 1 <= LineEstimate(ws) <= |ws|
  {
    GapsBound(SortBy(Ys(ws), RealLe));
  }

  method EstimateLineCount(ws: seq<WordBox>) returns (lineCount: nat)
    ensures lineCount == LineEstimate(ws)
  {
    if ws == [] {
      return 0;
    }
    var ys := SortBy(Ys(ws), RealLe);
    lineCount := 1;
    for i := 1 to |ys|
      invariant lineCount == 1 + Gaps(ys[..i])
    {
      assert ys[..i + 1][..i] == ys[..i];
      if ys[i] - ys[i - 1] > LineTolerance {
        lineCount := lineCount + 1;
      }
    }
    assert ys[..|ys|] == ys;
  }

  // ---------------------------------------------------------------------
  // The two engines

  /** PaddleOCR's extraction. `page` is the engine's list of lines for the
      image, `None` for an empty entry; an empty list stands for no result. */
  function PaddleText(page: seq<Option<WordBox>>, threshold: real): EngineText
  {
    if page == [] then EngineText("", 0.0, [], None, None)
    else
      var kept := Confident(Present(page), threshold);
      EngineText(LayoutText(kept), Mean(kept), kept, Some(|kept|), Some(|page|))
  }

  /** EasyOCR's extraction over its list of recognised words. */
  function EasyText(ws: seq<WordBox>, threshold: real): EngineText
  {
    if ws == [] then EngineText("", 0.0, [], None, None)
    else
      var kept := Confident(ws, threshold);
      EngineText(LayoutText(kept), Mean(kept), kept, Some(|kept|), Some(LineEstimate(kept)))
  }

  /** Keeping one more word adds its text and its confidence. */
  lemma KeepStep(ws: seq<WordBox>, w: WordBox)
    ensures Texts(ws + [w]) == Texts(ws) + [w.text]
    ensures SumConfidence(ws + [w]) == SumConfidence(ws) + w.confidence
  {
    assert (ws + [w])[..|ws|] == ws;
  }

  method ExtractWithPaddle(page: seq<Option<WordBox>>, threshold: real) returns (e: EngineText)
    ensures e == PaddleText(page, threshold)
  {
    if page == [] {
      return EngineText("", 0.0, [], None, None);
    }
    var textBlocks: seq<string> := [];
    var wordBoxes: seq<WordBox> := [];
    var totalConfidence := 0.0;
    for i := 0 to |page|
      invariant wordBoxes == Confident(Present(page[..i]), threshold)
      invariant textBlocks == Texts(wordBoxes)
      invariant totalConfidence == SumConfidence(wordBoxes)
    {
      assert page[..i + 1][..i] == page[..i];
      var line := page[i];
      if line.Some? {
        var w := line.value;
        ghost var before := Present(page[..i]);
        assert Present(page[..i + 1]) == before + [w];
        ConfidentAppend(before, [w], threshold);
        ConfidentSingle(w, threshold);
        if w.confidence >= threshold {
          KeepStep(wordBoxes, w);
          textBlocks := textBlocks + [w.text];
          wordBoxes := wordBoxes + [w];
          totalConfidence := totalConfidence + w.confidence;
        }
      } else {
        assert Present(page[..i + 1]) == Present(page[..i]);
      }
    }
    assert page[..|page|] == page;
    var avg := if wordBoxes != [] then totalConfidence / (|wordBoxes| as real) else 0.0;
    var content := ReconstructTextLayout(wordBoxes);
    e := EngineText(content, avg, wordBoxes, Some(|textBlocks|), Some(|page|));
  }

  method ExtractWithEasy(ws: seq<WordBox>, threshold: real) returns (e: EngineText)
    ensures e == EasyText(ws, threshold)
  {
    if ws == [] {
      return EngineText("", 0.0, [], None, None);
    }
    var textBlocks: seq<string> := [];
    var wordBoxes: seq<WordBox> := [];
    var totalConfidence := 0.0;
    for i := 0 to |ws|
      invariant wordBoxes == Confident(ws[..i], threshold)
      invariant textBlocks == Texts(wordBoxes)
      invariant totalConfidence == SumConfidence(wordBoxes)
    {
      assert ws[..i + 1][..i] == ws[..i];
      var w := ws[i];
      if w.confidence >= threshold {
        textBlocks := textBlocks + [w.text];
        wordBoxes := wordBoxes + [w];
        totalConfidence := totalConfidence + w.confidence;
      }
    }
    assert ws[..|ws|] == ws;
    var avg := if wordBoxes != [] then totalConfidence / (|wordBoxes| as real) else 0.0;
    var content := ReconstructTextLayout(wordBoxes);
    var lineCount := EstimateLineCount(wordBoxes);
    e := EngineText(content, avg, wordBoxes, Some(|textBlocks|), Some(lineCount));
  }

  // ---------------------------------------------------------------------
  // The fallback policy

  function Named(e: EngineText, extractor: string): Region
  {
    Text(e.content, e.confidence, e.wordBoxes, e.wordCount, e.lineCount, extractor, None)
  }

  /** The result when no engine produced anything. */
  const AllFailed: Region := Text("", 0.0, [], None, None, "none", Some("All OCR methods failed"))

  /** PaddleOCR's result is accepted when it ran and its confidence reaches
      the threshold; otherwise EasyOCR's result is taken whatever its
      confidence; when neither ran, the failure result. */
  function Extract(paddle: EngineRun<seq<Option<WordBox>>>, easy: EngineRun<seq<WordBox>>,
                   threshold: real): Region
  {
    if paddle.Ran? && PaddleText(paddle.output, threshold).confidence >= threshold then
      Named(PaddleText(paddle.output, threshold), "PaddleOCR")
    else if easy.Ran? then
      Named(EasyText(easy.output, threshold), "EasyOCR")
    else
      AllFailed
  }

  /** The extraction as the extractor performs it, engine by engine. */
  method ExtractText(paddle: EngineRun<seq<Option<WordBox>>>, easy: EngineRun<seq<WordBox>>,
                     threshold: real) returns (r: Region)
    ensures r == Extract(paddle, easy, threshold)
  {
    if paddle.Ran? {
      var result := ExtractWithPaddle(paddle.output, threshold);
      if result.confidence >= threshold {
        return Named(result, "PaddleOCR");
      }
    }
    if easy.Ran? {
      var result := ExtractWithEasy(easy.output, threshold);
      return Named(result, "EasyOCR");
    }
    return AllFailed;
  }

  /** Constructing the extractor fails when neither engine can be initialised. */
  predicate Constructible(paddle: EngineRun<seq<Option<WordBox>>>, easy: EngineRun<seq<WordBox>>)
  {
    !(paddle.Unavailable? && easy.Unavailable?)
  }

  /** The message of the construction failure. */
  const NoEngine: string := "Neither PaddleOCR nor EasyOCR could be initialized"

  /** The primary engine is chosen exactly when it ran and reached the
      threshold; the secondary exactly when the primary was not chosen and
      the secondary ran, with no threshold of its own; otherwise the result
      is empty, with confidence 0.0, no words and an error tag. */
  lemma ExtractPolicy(paddle: EngineRun<seq<Option<WordBox>>>, easy: EngineRun<seq<WordBox>>,
                      threshold: real)
    ensures var r := Extract(paddle, easy, threshold);
      var paddleAccepted := paddle.Ran? && PaddleText(paddle.output, threshold).confidence >= threshold;
      && r.Text?
      && (r.extractor == "PaddleOCR" <==> paddleAccepted)
      && (r.extractor == "PaddleOCR" ==> r.confidence >= threshold)
      && (r.extractor == "EasyOCR" <==> !paddleAccepted && easy.Ran?)
      && (r.extractor == "none" <==> !paddleAccepted && !easy.Ran?)
      && (r.extractor == "none" ==> r.content == "" && r.confidence == 0.0 && r.wordBoxes == [] && r.error.Some?)
  {
  }

  /** Every word kept in a text result reached the threshold and was
      reported by the engine whose result was chosen. */
  lemma ExtractKeepsConfidentWords(paddle: EngineRun<seq<Option<WordBox>>>, easy: EngineRun<seq<WordBox>>,
                                   threshold: real)
    ensures var r := Extract(paddle, easy, threshold);
      forall w :: w in r.wordBoxes ==>
        && w.confidence >= threshold
        && (r.extractor == "PaddleOCR" ==> Some(w) in paddle.output)
        && (r.extractor == "EasyOCR" ==> w in easy.output)
  {
    var r := Extract(paddle, easy, threshold);
    if r.extractor == "PaddleOCR" {
      var ws := Present(paddle.output);
      ConfidentExactly(ws, threshold);
      PresentFrom(paddle.output);
    } else if r.extractor == "EasyOCR" {
      ConfidentExactly(easy.output, threshold);
    }
  }

  lemma {:induction false} PresentFrom(page: seq<Option<WordBox>>)
    ensures forall w :: w in Present(page) ==> Some(w) in page
  {
    if page != [] {
      PresentFrom(page[..|page| - 1]);
      assert forall x :: x in page[..|page| - 1] ==> x in page;
    }
  }

  predicate EngineConfidencesValid(paddle: EngineRun<seq<Option<WordBox>>>, easy: EngineRun<seq<WordBox>>)
  {
    && (paddle.Ran? ==> ConfidencesAtMostOne(Present(paddle.output)))
    && (easy.Ran? ==> ConfidencesAtMostOne(easy.output))
  }

  /** With engine confidences at most 1, the text result's confidence is
      0.0 or lies between the threshold and 1. */
  lemma ExtractConfidenceRange(paddle: EngineRun<seq<Option<WordBox>>>, easy: EngineRun<seq<WordBox>>,
                               threshold: real)
    requires EngineConfidencesValid(paddle, easy)
    ensures var c := Extract(paddle, easy, threshold).confidence;
      c == 0.0 || threshold <= c <= 1.0
  {
    if paddle.Ran? && paddle.output != [] {
      MeanOfConfident(Present(paddle.output), threshold);
    }
    if easy.Ran? && easy.output != [] {
      MeanOfConfident(easy.output, threshold);
    }
  }

  /** The extractor's own confidence: 0.0 for a result without word boxes,
      otherwise its reported confidence. */
  function CalculateConfidence(r: Region): real
  {
    if WordBoxesOf(r) == [] then 0.0 else ConfidenceOf(r)
  }

  /** On the extractor's own results the two confidences agree: a result
      with no kept words already reports 0.0. */
  lemma CalculateConfidenceAgrees(paddle: EngineRun<seq<Option<WordBox>>>, easy: EngineRun<seq<WordBox>>,
                                  threshold: real)
    ensures var r := Extract(paddle, easy, threshold);
      CalculateConfidence(r) == r.confidence
      && (r.wordBoxes == [] ==> r.confidence == 0.0)
  {
  }
}

=== FILE: text_formatter.dfy ===
/** Rendering a processed document as text: a readable report that groups
    each page's regions by kind, and a retrieval-oriented form that lists
    regions in reading order and describes tables in sentences. Confidences
    are rendered by `showConf`, which stands for two-decimal formatting. */
module TextFormatter {
  import opened Basics
  import opened Strings
  import opened Results
  import Sorting

  const SectionRuleWidth: nat := 50
  const PageRuleWidth: nat := 30
  const HeaderRuleWidth: nat := 40

  /** The line between the report's sections: 50 `=` between newlines. */
  const SectionSeparator: string := "\n" + Repeat('=', SectionRuleWidth) + "\n"

  /** The line after each page: 30 `-` between newlines. */
  const PageSeparator: string := "\n" + Repeat('-', PageRuleWidth) + "\n"

  // ---------------------------------------------------------------------
  // The document's name

  /** The index of the last `c` in `s`, or -1. */
  function LastIndex(s: string, c: char): (i: int)
    ensures -1 <= i < |s|
    ensures i >= 0 ==> s[i] == c
    ensures forall k :: i < k < |s| ==> s[k] != c
  {
    if s == [] then -1
    else if s[|s| - 1] == c then |s| - 1
    else LastIndex(s[..|s| - 1], c)
  }

  /** The path's final component: the last `/`-separated part that is
      neither empty nor `.`. */
  function Name(path: string): string
  {
    LastComponent(Split(path, '/'))
  }

  function LastComponent(parts: seq<string>): string
  {
    if parts == [] then ""
    else if parts[|parts| - 1] != "" && parts[|parts| - 1] != "." then parts[|parts| - 1]
    else LastComponent(parts[..|parts| - 1])
  }

  /** The stem of a file name: without its last suffix, where a suffix is a
      `.` that is neither the first nor the last character and what follows it. */
  function StemOfName(name: string): string
  {
    var i := LastIndex(name, '.');
    if 0 < i < |name| - 1 then name[..i] else name
  }

  function Stem(path: string): string
  {
    StemOfName(Name(path))
  }

  /** A stem is a prefix of the name; a name `base.ext` whose extension is
      non-empty and holds no `.` loses exactly `.ext`, a name without such
      a suffix is kept whole. */
  lemma StemOfNameSpec(name: string, base: string, ext: string)
    ensures StemOfName(name) <= name
    ensures name == base + "." + ext && base != "" && ext != "" && '.' !in ext ==> StemOfName(name) == base
    ensures '.' !in name ==> StemOfName(name) == name
  {
    if name == base + "." + ext && base != "" && ext != "" && '.' !in ext {
      var i := LastIndex(name, '.');
      assert name[|base|] == '.';
      assert forall k :: |base| < k < |name| ==> name[k] == ext[k - |base| - 1];
      assert i == |base|;
      assert name[..i] == base;
    }
  }

  /** The component picked is empty (there is none) or one of the parts,
      and then neither empty nor `.`. */
  lemma {:induction false} LastComponentFrom(parts: seq<string>)
    ensures LastComponent(parts) == "" || (LastComponent(parts) in parts && LastComponent(parts) != ".")
  {
    if parts != [] && !(parts[|parts| - 1] != "" && parts[|parts| - 1] != ".") {
      LastComponentFrom(parts[..|parts| - 1]);
    }
  }

  /** The name has no `/` in it and is not `.`; a path with no `/` is its
      own name unless it is `.`. */
  lemma NameShape(path: string)
    ensures '/' !in Name(path) && Name(path) != "."
    ensures '/' !in path && path != "." ==> Name(path) == path
  {
    LastComponentFrom(Split(path, '/'));
    SplitFieldsWithout(path, '/');
    if '/' !in path {
      SplitWithout(path, '/');
    }
  }

  // ---------------------------------------------------------------------
  // Tables

  /** The report lines of table row `idx`: the header row with its rule, or a numbered data row. */
  function RowLine(row: seq<string>, idx: nat): seq<string>
  {
    if idx == 0 then ["Headers: " + Join(row, " | "), Repeat('-', HeaderRuleWidth)]
    else ["Row " + NatToString(idx) + ": " + Join(row, " | ")]
  }

  function RowLines(d: seq<seq<string>>): seq<string>
  {
    NumberedLines(d, RowLine)
  }

  /** The lines `f` gives each element together with its position, concatenated in order. */
  function NumberedLines<T>(xs: seq<T>, f: (T, nat) -> seq<string>): seq<string>
  {
    if xs == [] then [] else NumberedLines(xs[..|xs| - 1], f) + f(xs[|xs| - 1], |xs| - 1)
  }

  function TableLines(r: Region, num: nat, showConf: real -> string): seq<string>
  {
    ["Table " + NatToString(num) + ":"] + RowLines(DataOf(r))
    + ["(Confidence: " + showConf(ConfidenceOf(r)) + ", Rows: " + NatToString(RowsOf(r))
       + ", Columns: " + NatToString(ColumnsOf(r)) + ")"]
  }

  /** A table's report text; empty when it has no data. */
  function TableText(r: Region, num: nat, showConf: real -> string): string
  {
    if DataOf(r) == [] then "" else Join(TableLines(r, num, showConf), "\n")
  }

  method FormatTable(r: Region, num: nat, showConf: real -> string) returns (text: string)
    ensures text == TableText(r, num, showConf)
  {
    var lines := ["Table " + NatToString(num) + ":"];
    var tableData := DataOf(r);
    if tableData == [] {
      return "";
    }
    ghost var head := lines;
    for rowIdx := 0 to |tableData|
      invariant lines == head + RowLines(tableData[..rowIdx])
    {
      assert tableData[..rowIdx + 1][..rowIdx] == tableData[..rowIdx];
      var row := tableData[rowIdx];
      if rowIdx == 0 {
        lines := lines + ["Headers: " + Join(row, " | ")];
        lines := lines + [Repeat('-', HeaderRuleWidth)];
      } else {
        lines := lines + ["Row " + NatToString(rowIdx) + ": " + Join(row, " | ")];
      }
    }
    assert tableData[..|tableData|] == tableData;
    lines := lines + ["(Confidence: " + showConf(ConfidenceOf(r)) + ", Rows: " + NatToString(RowsOf(r))
                      + ", Columns: " + NatToString(ColumnsOf(r)) + ")"];
    text := Join(lines, "\n");
  }

  /** Row 0 becomes the header line followed by a rule of 40 dashes, and
      row `i >= 1` the line `Row i: ` with its cells joined by ` | `. */
  lemma {:induction false} RowLinesShape(d: seq<seq<string>>)
    requires d != []
    ensures var ls := RowLines(d);
      && |ls| == |d| + 1
      && ls[0] == "Headers: " + Join(d[0], " | ")
      && ls[1] == Repeat('-', HeaderRuleWidth)
      && forall i :: 1 <= i < |d| ==> ls[i + 1] == "Row " + NatToString(i) + ": " + Join(d[i], " | ")
  {
    forall row, i: nat
      ensures |RowLine(row, i)| == if i == 0 then 2 else 1
    {
    }
    NumberedLinesIndexed(d, RowLine);
    var ls := RowLines(d);
    assert ls[..2] == RowLine(d[0], 0);
    assert ls[0] == ls[..2][0] && ls[1] == ls[..2][1];
    forall i | 1 <= i < |d|
      ensures ls[i + 1] == "Row " + NatToString(i) + ": " + Join(d[i], " | ")
    {
      var j := i + 1;
      assert [ls[j]] == RowLine(d[j - 1], j - 1);
    }
  }

  /** When element 0 contributes two lines and every later element one,
      element 0 fills the first two lines and element `j - 1` line `j`. */
  lemma {:induction false} NumberedLinesIndexed<T>(xs: seq<T>, f: (T, nat) -> seq<string>)
    requires xs != []
    requires forall x, i :: |f(x, i)| == if i == 0 then 2 else 1
    ensures var ls := NumberedLines(xs, f);
      && |ls| == |xs| + 1
      && ls[..2] == f(xs[0], 0)
      && forall j :: 2 <= j < |ls| ==> [ls[j]] == f(xs[j - 1], j - 1)
  {
    var n := |xs| - 1;
    var xs' := xs[..n];
    if n == 0 {
      assert xs' == [];
    } else {
      NumberedLinesIndexed(xs', f);
      var prev := NumberedLines(xs', f);
      var last := f(xs[n], n);
      var ls := NumberedLines(xs, f);
      assert ls == prev + last;
      assert xs'[0] == xs[0];
      assert ls[..2] == prev[..2];
      forall j | 2 <= j < |ls|
        ensures [ls[j]] == f(xs[j - 1], j - 1)
      {
        if j < |prev| {
          assert xs'[j - 1] == xs[j - 1];
          assert ls[j] == prev[j];
        } else {
          assert ls[j] == last[0];
        }
      }
    }
  }

  // ---------------------------------------------------------------------
  // Equations, code and diagrams

  function EquationLines(r: Region, num: nat, showConf: real -> string): seq<string>
  {
    var latex := LatexOf(r);
    var content := ContentOf(r);
    ["Equation " + NatToString(num) + ":"]
    + (if latex != "" then ["LaTeX: " + latex] else [])
    + (if content != "" && content != latex then ["Text: " + content] else [])
    + ["(Confidence: " + showConf(ConfidenceOf(r)) + ")"]
  }

  function EquationText(r: Region, num: nat, showConf: real -> string): string
  {
    Join(EquationLines(r, num, showConf), "\n")
  }

  /** The equation's text line appears exactly when its content is
      non-empty and differs from its LaTeX, and its LaTeX line exactly when
      it has LaTeX. */
  lemma EquationLinesSpec(r: Region, num: nat, showConf: real -> string)
    ensures var ls := EquationLines(r, num, showConf);
      && (("Text: " + ContentOf(r)) in ls <==> ContentOf(r) != "" && ContentOf(r) != LatexOf(r))
      && (("LaTeX: " + LatexOf(r)) in ls <==> LatexOf(r) != "")
  {
    var latex, content := LatexOf(r), ContentOf(r);
    var head := ["Equation " + NatToString(num) + ":"];
    var l := "LaTeX: " + latex;
    var t := "Text: " + content;
    var b := if latex != "" then [l] else [];
    var c := if content != "" && content != latex then [t] else [];
    var tail := ["(Confidence: " + showConf(ConfidenceOf(r)) + ")"];
    var ls := EquationLines(r, num, showConf);
    assert ls == head + b + c + tail;
    assert head[0][0] == 'E' && tail[0][0] == '(' && l[0] == 'L' && t[0] == 'T';
    assert t !in head && t !in tail && l !in head && l !in tail && t != l;
  }

  /** Every line of `ls` indented by four spaces. */
  function Indented(ls: seq<string>): (r: seq<string>)
    ensures |r| == |ls| && forall i :: 0 <= i < |ls| ==> r[i] == "    " + ls[i]
  {
    seq(|ls|, i requires 0 <= i < |ls| => "    " + ls[i])
  }

  function CodeLines(r: Region, num: nat, showConf: real -> string): seq<string>
  {
    var content := ContentOf(r);
    ["Code Block " + NatToString(num) + ":", "Language: " + LanguageOf(r)]
    + (if content != "" then ["Code:"] + Indented(Split(content, '\n')) else [])
    + ["(Confidence: " + showConf(ConfidenceOf(r)) + ")"]
  }

  function CodeText(r: Region, num: nat, showConf: real -> string): string
  {
    Join(CodeLines(r, num, showConf), "\n")
  }

  method FormatCode(r: Region, num: nat, showConf: real -> string) returns (text: string)
    ensures text == CodeText(r, num, showConf)
  {
    var lines := ["Code Block " + NatToString(num) + ":"];
    lines := lines + ["Language: " + LanguageOf(r)];
    var content := ContentOf(r);
    if content != "" {
      lines := lines + ["Code:"];
      var codeLines := Split(content, '\n');
      ghost var head := lines;
      for i := 0 to |codeLines|
        invariant lines == head + Indented(codeLines[..i])
      {
        assert Indented(codeLines[..i + 1]) == Indented(codeLines[..i]) + ["    " + codeLines[i]];
        lines := lines + ["    " + codeLines[i]];
      }
      assert codeLines[..|codeLines|] == codeLines;
    }
    lines := lines + ["(Confidence: " + showConf(ConfidenceOf(r)) + ")"];
    assert lines == CodeLines(r, num, showConf);
    text := Join(lines, "\n");
  }

  /** Removing the four-space indent from the code lines and joining them
      with newlines gives the region's content back. */
  lemma CodeIndentRoundTrip(content: string)
    ensures var ls := Indented(Split(content, '\n'));
      && (forall i :: 0 <= i < |ls| ==> ls[i][..4] == "    ")
      && Join(seq(|ls|, i requires 0 <= i < |ls| => ls[i][4..]), "\n") == content
  {
    var parts := Split(content, '\n');
    var ls := Indented(parts);
    assert seq(|ls|, i requires 0 <= i < |ls| => ls[i][4..]) == parts;
    JoinSplit(content, '\n');
  }

  function DiagramLines(r: Region, num: nat, showConf: real -> string): seq<string>
  {
    var description := DescriptionOf(r);
    ["Diagram/Chart " + NatToString(num) + ":"]
    + (if description != "" then ["Description: " + description] else [])
    + ["(Confidence: " + showConf(ConfidenceOf(r)) + ")"]
  }

  function DiagramText(r: Region, num: nat, showConf: real -> string): string
  {
    Join(DiagramLines(r, num, showConf), "\n")
  }

  /** A diagram's text: its numbered heading, its description line exactly
      when it has a description, and its confidence line last. */
  lemma DiagramLinesShape(r: Region, num: nat, showConf: real -> string)
    ensures var ls := DiagramLines(r, num, showConf);
      && ls[0] == "Diagram/Chart " + NatToString(num) + ":"
      && ls[|ls| - 1] == "(Confidence: " + showConf(ConfidenceOf(r)) + ")"
      && (|ls| == 3 <==> DescriptionOf(r) != "")
      && (|ls| == 3 ==> ls[1] == "Description: " + DescriptionOf(r))
      && |ls| >= 2
  {
  }

  // ---------------------------------------------------------------------
  // Pages

  /** The regions of type `kind`, in page order. */
  function OfKind(rs: seq<Region>, kind: string): seq<Region>
  {
    if rs == [] then []
    else OfKind(rs[..|rs| - 1], kind) + (if Kind(rs[|rs| - 1]) == kind then [rs[|rs| - 1]] else [])
  }

  /** The entry region number `num` of a kind contributes: text regions
      their stripped content, the others their formatted block. */
  function Entry(r: Region, kind: string, num: nat, showConf: real -> string): string
  {
    if kind == "text" then Strip(ContentOf(r))
    else if kind == "table" then TableText(r, num, showConf)
    else if kind == "equation" then EquationText(r, num, showConf)
    else if kind == "code" then CodeText(r, num, showConf)
    else DiagramText(r, num, showConf)
  }

  /** A non-empty entry followed by an empty line; nothing for an empty one. */
  function Item(e: string): seq<string>
  {
    if e != "" then [e, ""] else []
  }

  /** The non-empty entries of `rs`, numbered from 1, each followed by an empty line. */
  function Entries(rs: seq<Region>, kind: string, showConf: real -> string): seq<string>
  {
    if rs == [] then [] else Entries(rs[..|rs| - 1], kind, showConf) + Item(Entry(rs[|rs| - 1], kind, |rs|, showConf))
  }

  /** The heading of a kind's section; text has none. */
  function Heading(kind: string): seq<string>
  {
    if kind == "table" then ["TABLES:"]
    else if kind == "equation" then ["MATHEMATICAL EQUATIONS:"]
    else if kind == "code" then ["CODE BLOCKS:"]
    else if kind == "diagram" then ["DIAGRAMS AND CHARTS:"]
    else []
  }

  /** The section of one kind: nothing when the page has no region of that kind. */
  function Section(rs: seq<Region>, kind: string, showConf: real -> string): seq<string>
  {
    var ks := OfKind(rs, kind);
    if ks == [] then [] else Heading(kind) + Entries(ks, kind, showConf)
  }

  function PageLines(p: PageResult, showConf: real -> string): seq<string>
  {
    var rs := p.regions;
    ["PAGE " + IntToString(p.pageNumber), ""]
    + Section(rs, "text", showConf) + Section(rs, "table", showConf) + Section(rs, "equation", showConf)
    + Section(rs, "code", showConf) + Section(rs, "diagram", showConf)
  }

  function PageText(p: PageResult, showConf: real -> string): string
  {
    Join(PageLines(p, showConf), "\n")
  }

  /** One region's entry, formatted as its kind requires. */
  method FormatEntry(r: Region, kind: string, num: nat, showConf: real -> string) returns (e: string)
    ensures e == Entry(r, kind, num, showConf)
  {
    if kind == "text" {
      e := Strip(ContentOf(r));
    } else if kind == "table" {
      e := FormatTable(r, num, showConf);
    } else if kind == "equation" {
      e := EquationText(r, num, showConf);
    } else if kind == "code" {
      e := FormatCode(r, num, showConf);
    } else {
      e := DiagramText(r, num, showConf);
    }
  }

  /** The numbered non-empty entries of `ks`, each followed by an empty line. */
  method FormatEntries(ks: seq<Region>, kind: string, showConf: real -> string) returns (lines: seq<string>)
    ensures lines == Entries(ks, kind, showConf)
  {
    lines := [];
    for i := 0 to |ks|
      invariant lines == Entries(ks[..i], kind, showConf)
    {
      assert ks[..i + 1][..i] == ks[..i];
      assert ks[..i + 1][i] == ks[i];
      var e := FormatEntry(ks[i], kind, i + 1, showConf);
      if e != "" {
        lines := lines + [e];
        lines := lines + [""];
      }
      assert lines == Entries(ks[..i], kind, showConf) + Item(e);
    }
    assert ks[..|ks|] == ks;
  }

  /** A kind's section: its heading and its numbered non-empty entries. */
  method FormatSection(rs: seq<Region>, kind: string, showConf: real -> string) returns (lines: seq<string>)
    ensures lines == Section(rs, kind, showConf)
  {
    var ofKind := OfKind(rs, kind);
    lines := [];
    if ofKind != [] {
      lines := Heading(kind);
      var entries := FormatEntries(ofKind, kind, showConf);
      lines := lines + entries;
    }
  }

  method FormatPage(p: PageResult, showConf: real -> string) returns (text: string)
    ensures text == PageText(p, showConf)
  {
    var lines := ["PAGE " + IntToString(p.pageNumber), ""];
    var regions := p.regions;
    var textSection := FormatSection(regions, "text", showConf);
    var tableSection := FormatSection(regions, "table", showConf);
    var equationSection := FormatSection(regions, "equation", showConf);
    var codeSection := FormatSection(regions, "code", showConf);
    var diagramSection := FormatSection(regions, "diagram", showConf);
    lines := lines + textSection + tableSection + equationSection + codeSection + diagramSection;
    text := Join(lines, "\n");
  }

  /** The regions of a kind are exactly the page's regions of that kind, in
      page order, as many as there are. */
  lemma {:induction false} OfKindSpec(rs: seq<Region>, kind: string)
    ensures var ks := OfKind(rs, kind);
      && |ks| == CountKind(rs, kind)
      && (forall k :: 0 <= k < |ks| ==> Kind(ks[k]) == kind && ks[k] in rs)
      && (forall i :: 0 <= i < |rs| && Kind(rs[i]) == kind ==> rs[i] in ks)
  {
    if rs != [] {
      var rs' := rs[..|rs| - 1];
      var last := rs[|rs| - 1];
      OfKindSpec(rs', kind);
      var ks' := OfKind(rs', kind);
      var e := if Kind(last) == kind then [last] else [];
      var ks := OfKind(rs, kind);
      assert ks == ks' + e;
      forall k | 0 <= k < |ks|
        ensures Kind(ks[k]) == kind && ks[k] in rs
      {
        if k < |ks'| {
          assert ks[k] == ks'[k];
          assert ks'[k] in rs';
        } else {
          assert ks[k] == last;
        }
      }
      forall i | 0 <= i < |rs| && Kind(rs[i]) == kind
        ensures rs[i] in ks
      {
        if i < |rs'| {
          assert rs[i] == rs'[i];
          assert rs'[i] in ks';
        } else {
          assert ks[|ks| - 1] == last;
        }
      }
    }
  }

  /** The kinds with a section heading. */
  predicate Headed(kind: string)
  {
    kind == "table" || kind == "equation" || kind == "code" || kind == "diagram"
  }

  /** A headed kind's section exists, and starts with its heading, exactly
      when the page has a region of that kind, even when every entry is empty. */
  lemma SectionPresence(rs: seq<Region>, kind: string, showConf: real -> string)
    requires Headed(kind)
    ensures var s := Section(rs, kind, showConf);
      && (s != [] <==> CountKind(rs, kind) > 0)
      && (s != [] ==> s[0] == Heading(kind)[0])
  {
    OfKindSpec(rs, kind);
    assert |Heading(kind)| == 1;
  }

  /** Every non-empty entry appears in its section, numbered by its
      1-based position among the regions of its kind. */
  lemma {:induction false} EntriesNumbered(ks: seq<Region>, kind: string, showConf: real -> string, i: nat)
    requires i < |ks| && Entry(ks[i], kind, i + 1, showConf) != ""
    ensures Entry(ks[i], kind, i + 1, showConf) in Entries(ks, kind, showConf)
  {
    var ks' := ks[..|ks| - 1];
    if i < |ks| - 1 {
      assert ks'[i] == ks[i];
      EntriesNumbered(ks', kind, showConf, i);
    }
  }

  /** A text entry is never blank: blank text regions are skipped. */
  lemma {:induction false} TextEntriesNotBlank(ks: seq<Region>, showConf: real -> string)
    ensures forall x :: x in Entries(ks, "text", showConf) ==> x == "" || !IsBlank(x)
  {
    if ks != [] {
      TextEntriesNotBlank(ks[..|ks| - 1], showConf);
    }
  }

  /** A kind the report formats. */
  predicate Formatted(kind: string)
  {
    kind == "text" || Headed(kind)
  }

  lemma OfKindSnoc(rs: seq<Region>, r: Region, kind: string)
    ensures OfKind(rs + [r], kind) == OfKind(rs, kind) + (if Kind(r) == kind then [r] else [])
  {
    assert (rs + [r])[..|rs|] == rs;
  }

  /** A region of another kind does not change a kind's section. */
  lemma SectionSnocOther(rs: seq<Region>, r: Region, kind: string, showConf: real -> string)
    requires Kind(r) != kind
    ensures Section(rs + [r], kind, showConf) == Section(rs, kind, showConf)
  {
    OfKindSnoc(rs, r, kind);
    assert OfKind(rs + [r], kind) == OfKind(rs, kind);
  }

  /** A region of any other type leaves the page's text unchanged. */
  lemma OtherKindsIgnored(p: PageResult, r: Region, showConf: real -> string)
    requires !Formatted(Kind(r))
    ensures PageLines(PageResult(p.pageNumber, p.regions + [r], p.regionCount), showConf) == PageLines(p, showConf)
  {
    SectionSnocOther(p.regions, r, "text", showConf);
    SectionSnocOther(p.regions, r, "table", showConf);
    SectionSnocOther(p.regions, r, "equation", showConf);
    SectionSnocOther(p.regions, r, "code", showConf);
    SectionSnocOther(p.regions, r, "diagram", showConf);
  }

  /** A section depends only on the regions of its kind. */
  lemma SameSection(rs: seq<Region>, qs: seq<Region>, kind: string, showConf: real -> string)
    requires OfKind(rs, kind) == OfKind(qs, kind)
    ensures Section(rs, kind, showConf) == Section(qs, kind, showConf)
  {
  }

  /** A page's text depends only on its regions of each kind, not on how
      the kinds are interleaved. */
  lemma PageByKind(p: PageResult, q: PageResult, showConf: real -> string)
    requires p.pageNumber == q.pageNumber
    requires OfKind(p.regions, "text") == OfKind(q.regions, "text")
    requires OfKind(p.regions, "table") == OfKind(q.regions, "table")
    requires OfKind(p.regions, "equation") == OfKind(q.regions, "equation")
    requires OfKind(p.regions, "code") == OfKind(q.regions, "code")
    requires OfKind(p.regions, "diagram") == OfKind(q.regions, "diagram")
    ensures PageText(p, showConf) == PageText(q, showConf)
  {
    SameSection(p.regions, q.regions, "text", showConf);
    SameSection(p.regions, q.regions, "table", showConf);
    SameSection(p.regions, q.regions, "equation", showConf);
    SameSection(p.regions, q.regions, "code", showConf);
    SameSection(p.regions, q.regions, "diagram", showConf);
    assert PageLines(p, showConf) == PageLines(q, showConf);
  }

  /** `sep.join(xs)` starts with `xs[0]`. */
  lemma JoinStarts(xs: seq<string>, sep: string)
    requires xs != []
    ensures xs[0] <= Join(xs, sep)
  {
  }

  /** A page's text starts with `PAGE n`, so it is never blank. */
  lemma PageTextNotBlank(p: PageResult, showConf: real -> string)
    ensures var t := PageText(p, showConf);
      ("PAGE " + IntToString(p.pageNumber)) <= t && !IsBlank(t)
  {
    var ls := PageLines(p, showConf);
    JoinStarts(ls, "\n");
    var t := PageText(p, showConf);
    assert t[0] == 'P';
  }

  /** `f` applied to each of `xs`. */
  function Map<T, U>(xs: seq<T>, f: T -> U): seq<U>
  {
    if xs == [] then [] else Map(xs[..|xs| - 1], f) + [f(xs[|xs| - 1])]
  }

  lemma {:induction false} MapIndex<T, U>(xs: seq<T>, f: T -> U)
    ensures |Map(xs, f)| == |xs| && forall i :: 0 <= i < |xs| ==> Map(xs, f)[i] == f(xs[i])
  {
    if xs != [] {
      MapIndex(xs[..|xs| - 1], f);
    }
  }

  /** The lines each of `xs` contributes, concatenated in order. */
  function Flatten<T>(xs: seq<T>, f: T -> seq<string>): seq<string>
  {
    if xs == [] then [] else Flatten(xs[..|xs| - 1], f) + f(xs[|xs| - 1])
  }

  lemma FlattenSnoc<T>(xs: seq<T>, x: T, f: T -> seq<string>)
    ensures Flatten(xs + [x], f) == Flatten(xs, f) + f(x)
  {
    assert (xs + [x])[..|xs|] == xs;
  }

  lemma {:induction false} FlattenAppend<T>(a: seq<T>, b: seq<T>, f: T -> seq<string>)
    ensures Flatten(a + b, f) == Flatten(a, f) + Flatten(b, f)
  {
    if b == [] {
      assert a + b == a;
    } else {
      var b' := b[..|b| - 1];
      FlattenAppend(a, b', f);
      assert (a + b)[..|a + b| - 1] == a + b';
      assert (a + b)[|a + b| - 1] == b[|b| - 1];
    }
  }

  // ---------------------------------------------------------------------
  // The readable report

  function Get(summary: map<string, int>, key: string): int
  {
    if key in summary then summary[key] else 0
  }

  function HeaderLines(d: DocumentResult): seq<string>
  {
    ["DOCUMENT: " + Stem(d.filePath), SectionSeparator,
     "DOCUMENT SUMMARY:",
     "Total Pages: " + IntToString(Get(d.summary, "total_pages")),
     "Text Regions: " + IntToString(Get(d.summary, "text_regions")),
     "Tables: " + IntToString(Get(d.summary, "tables")),
     "Equations: " + IntToString(Get(d.summary, "equations")),
     "Diagrams: " + IntToString(Get(d.summary, "diagrams")),
     SectionSeparator]
  }

  /** A page's text followed by the page separator; nothing for a blank page. */
  function PageBlock(t: string): seq<string>
  {
    if !IsBlank(t) then [t, PageSeparator] else []
  }

  /** The text of every page, in order. */
  function PageTexts(pages: seq<PageResult>, showConf: real -> string): seq<string>
  {
    Map(pages, p => PageText(p, showConf))
  }

  function ResultsText(d: DocumentResult, showConf: real -> string): string
  {
    Join(HeaderLines(d) + Flatten(PageTexts(d.pages, showConf), PageBlock), "\n")
  }

  /** A page's text and the separator, unless the text is blank. */
  method EmitPage(pageText: string) returns (block: seq<string>)
    ensures block == PageBlock(pageText)
  {
    block := [];
    if Strip(pageText) != "" {
      block := block + [pageText];
      block := block + [PageSeparator];
    }
  }

  /** The pages' part of the report, page by page. */
  method FormatPages(pages: seq<PageResult>, showConf: real -> string) returns (lines: seq<string>)
    ensures lines == Flatten(PageTexts(pages, showConf), PageBlock)
  {
    lines := [];
    for i := 0 to |pages|
      invariant lines == Flatten(PageTexts(pages[..i], showConf), PageBlock)
    {
      ghost var texts := PageTexts(pages[..i], showConf);
      assert pages[..i + 1][..i] == pages[..i];
      var pageText := FormatPage(pages[i], showConf);
      assert PageTexts(pages[..i + 1], showConf) == texts + [pageText];
      FlattenSnoc(texts, pageText, PageBlock);
      var block := EmitPage(pageText);
      lines := lines + block;
    }
    assert pages[..|pages|] == pages;
  }

  method FormatResults(d: DocumentResult, showConf: real -> string) returns (text: string)
    ensures text == ResultsText(d, showConf)
  {
    var outputLines := HeaderLines(d);
    var pageLines := FormatPages(d.pages, showConf);
    outputLines := outputLines + pageLines;
    text := Join(outputLines, "\n");
  }

  /** Non-blank texts give their text and a separator each, in order. */
  lemma {:induction false} BlocksOfNonBlank(texts: seq<string>)
    requires forall k :: 0 <= k < |texts| ==> !IsBlank(texts[k])
    ensures var bs := Flatten(texts, PageBlock);
      && |bs| == 2 * |texts|
      && forall k :: 0 <= k < |texts| ==> bs[2 * k] == texts[k] && bs[2 * k + 1] == PageSeparator
  {
    if texts != [] {
      var texts' := texts[..|texts| - 1];
      BlocksOfNonBlank(texts');
    }
  }

  /** Every page is emitted: page `i`'s text and a separator are lines
      `2i` and `2i + 1` of the pages' part of the report. */
  lemma EveryPageEmitted(pages: seq<PageResult>, showConf: real -> string)
    ensures var bs := Flatten(PageTexts(pages, showConf), PageBlock);
      && |bs| == 2 * |pages|
      && forall i :: 0 <= i < |pages| ==> bs[2 * i] == PageText(pages[i], showConf) && bs[2 * i + 1] == PageSeparator
  {
    var texts := PageTexts(pages, showConf);
    MapIndex(pages, p => PageText(p, showConf));
    forall k | 0 <= k < |texts|
      ensures !IsBlank(texts[k])
    {
      PageTextNotBlank(pages[k], showConf);
    }
    BlocksOfNonBlank(texts);
  }

  // ---------------------------------------------------------------------
  // Tables in sentences

  /** `header: cell` for every cell that has a header and is not blank. */
  function Pairs(headers: seq<string>, row: seq<string>): seq<string>
  {
    if row == [] then []
    else
      var j := |row| - 1;
      Pairs(headers, row[..j]) + (if j < |headers| && !IsBlank(row[j]) then [headers[j] + ": " + row[j]] else [])
  }

  /** The lines describing the data rows, numbered from 1; a row with no pair has no line. */
  function SampleLines(headers: seq<string>, rows: seq<seq<string>>): seq<string>
  {
    if rows == [] then []
    else
      var ps := Pairs(headers, rows[|rows| - 1]);
      SampleLines(headers, rows[..|rows| - 1])
      + (if ps != [] then ["Row " + NatToString(|rows|) + " - " + Join(ps, ", ")] else [])
  }

  function NaturalLines(d: seq<seq<string>>): seq<string>
  {
    if |d| <= 1 then []
    else
      var headers := d[0];
      var dataRows := d[1..];
      ["Table with columns: " + Join(headers, ", ")]
      + SampleLines(headers, dataRows[..MinInt(3, |dataRows|)])
      + (if |dataRows| > 3 then ["... and " + NatToString(|dataRows| - 3) + " more rows"] else [])
  }

  function NaturalLanguage(d: seq<seq<string>>): string
  {
    Join(NaturalLines(d), "\n")
  }

  method DescribeRow(headers: seq<string>, row: seq<string>) returns (rowDesc: seq<string>)
    ensures rowDesc == Pairs(headers, row)
  {
    rowDesc := [];
    for j := 0 to |row|
      invariant rowDesc == Pairs(headers, row[..j])
    {
      assert row[..j + 1][..j] == row[..j];
      var cell := row[j];
      if j < |headers| && Strip(cell) != "" {
        rowDesc := rowDesc + [headers[j] + ": " + cell];
      }
    }
    assert row[..|row|] == row;
  }

  /** The row lines of the sampled data rows. */
  method DescribeSample(headers: seq<string>, sample: seq<seq<string>>) returns (lines: seq<string>)
    ensures lines == SampleLines(headers, sample)
  {
    lines := [];
    for i := 0 to |sample|
      invariant lines == SampleLines(headers, sample[..i])
    {
      assert sample[..i + 1][..i] == sample[..i];
      assert sample[..i + 1][i] == sample[i];
      var rowDesc := DescribeRow(headers, sample[i]);
      if rowDesc != [] {
        lines := lines + ["Row " + NatToString(i + 1) + " - " + Join(rowDesc, ", ")];
      }
    }
    assert sample[..|sample|] == sample;
  }

  method TableToNaturalLanguage(r: Region) returns (text: string)
    ensures text == NaturalLanguage(DataOf(r))
  {
    var tableData := DataOf(r);
    if tableData == [] {
      return "";
    }
    var lines: seq<string> := [];
    if |tableData| > 1 {
      var headers := tableData[0];
      var dataRows := tableData[1..];
      lines := lines + ["Table with columns: " + Join(headers, ", ")];
      var described := DescribeSample(headers, dataRows[..MinInt(3, |dataRows|)]);
      lines := lines + described;
      if |dataRows| > 3 {
        lines := lines + ["... and " + NatToString(|dataRows| - 3) + " more rows"];
      }
    }
    assert lines == NaturalLines(tableData);
    text := Join(lines, "\n");
  }

  /** A cell is described exactly when it has a header and is not blank. */
  lemma {:induction false} PairsSpec(headers: seq<string>, row: seq<string>)
    ensures var ps := Pairs(headers, row);
      && |ps| <= |row|
      && (ps == [] <==> forall j :: 0 <= j < |row| && j < |headers| ==> IsBlank(row[j]))
  {
    if row != [] {
      var j := |row| - 1;
      var row' := row[..j];
      PairsSpec(headers, row');
      var ps' := Pairs(headers, row');
      assert Pairs(headers, row) == ps' + (if j < |headers| && !IsBlank(row[j]) then [headers[j] + ": " + row[j]] else []);
      if Pairs(headers, row) == [] {
        forall k | 0 <= k < |row| && k < |headers|
          ensures IsBlank(row[k])
        {
          if k < j {
            assert row'[k] == row[k];
          }
        }
      } else if ps' != [] {
        var k :| 0 <= k < |row'| && k < |headers| && !IsBlank(row'[k]);
        assert row[k] == row'[k];
      }
    }
  }

  lemma {:induction false} SampleLinesShape(headers: seq<string>, rows: seq<seq<string>>)
    ensures var ls := SampleLines(headers, rows);
      && |ls| <= |rows|
      && forall k :: 0 <= k < |ls| ==> |ls[k]| >= 4 && ls[k][..4] == "Row "
  {
    if rows != [] {
      SampleLinesShape(headers, rows[..|rows| - 1]);
    }
  }

  /** No description for fewer than two rows; otherwise a header line, at
      most three row lines, and the closing `... and k more rows` line
      exactly when there are more than three data rows. */
  lemma NaturalLinesShape(d: seq<seq<string>>)
    ensures var ls := NaturalLines(d);
      && (|d| <= 1 <==> ls == [])
      && (|d| > 1 ==>
            && 1 <= |ls| <= 5
            && ls[0] == "Table with columns: " + Join(d[0], ", ")
            && (|d| > 4 <==> |d| >= 4 && ls[|ls| - 1] == "... and " + NatToString(|d| - 4) + " more rows"))
  {
    if |d| > 1 {
      var dataRows := d[1..];
      var sample := SampleLines(d[0], dataRows[..MinInt(3, |dataRows|)]);
      SampleLinesShape(d[0], dataRows[..MinInt(3, |dataRows|)]);
      var ls := NaturalLines(d);
      if |dataRows| <= 3 {
        assert ls == ["Table with columns: " + Join(d[0], ", ")] + sample;
        var last := ls[|ls| - 1];
        assert last[0] == 'T' || last[0] == 'R';
        if |d| == 4 {
          assert ("... and " + NatToString(0) + " more rows")[0] == '.';
        }
      }
    }
  }

  // ---------------------------------------------------------------------
  // The retrieval form

  /** What one region contributes: non-blank stripped text, a table in
      sentences, an equation's LaTeX, a code snippet or a diagram's
      description, each followed by an empty line; nothing for an empty one
      or an unknown type. */
  function RagEntry(r: Region): seq<string>
  {
    var kind := Kind(r);
    if kind == "text" then
      var content := Strip(ContentOf(r));
      if content != "" then [content, ""] else []
    else if kind == "table" then
      var t := NaturalLanguage(DataOf(r));
      if t != "" then [t, ""] else []
    else if kind == "equation" then
      if LatexOf(r) != "" then ["Mathematical equation: " + LatexOf(r), ""] else []
    else if kind == "code" then
      if ContentOf(r) != "" then ["Code snippet in " + LanguageOf(r) + ":", ContentOf(r), ""] else []
    else if kind == "diagram" then
      if DescriptionOf(r) != "" then ["Diagram or chart: " + DescriptionOf(r), ""] else []
    else []
  }

  /** The retrieval text: the document line, then every region of every page in order. */
  function RagText(d: DocumentResult): string
  {
    Join(["Document: " + Stem(d.filePath), ""] + Flatten(AllRegions(d.pages), RagEntry), "\n")
  }

  method RagBlock(r: Region) returns (lines: seq<string>)
    ensures lines == RagEntry(r)
  {
    var regionType := Kind(r);
    lines := [];
    if regionType == "text" {
      var content := Strip(ContentOf(r));
      if content != "" {
        lines := [content, ""];
      }
    } else if regionType == "table" {
      var tableText := TableToNaturalLanguage(r);
      if tableText != "" {
        lines := [tableText, ""];
      }
    } else if regionType == "equation" {
      if LatexOf(r) != "" {
        lines := ["Mathematical equation: " + LatexOf(r), ""];
      }
    } else if regionType == "code" {
      if ContentOf(r) != "" {
        lines := ["Code snippet in " + LanguageOf(r) + ":", ContentOf(r), ""];
      }
    } else if regionType == "diagram" {
      if DescriptionOf(r) != "" {
        lines := ["Diagram or chart: " + DescriptionOf(r), ""];
      }
    }
  }

  /** One page's regions, in order of appearance. */
  method RagPage(regions: seq<Region>) returns (lines: seq<string>)
    ensures lines == Flatten(regions, RagEntry)
  {
    lines := [];
    for j := 0 to |regions|
      invariant lines == Flatten(regions[..j], RagEntry)
    {
      assert regions[..j + 1][..j] == regions[..j];
      assert regions[..j + 1][j] == regions[j];
      var block := RagBlock(regions[j]);
      lines := lines + block;
    }
    assert regions[..|regions|] == regions;
  }

  /** Page by page, region by region, in order of appearance. */
  method FormatForRag(d: DocumentResult) returns (text: string)
    ensures text == RagText(d)
  {
    var outputLines := ["Document: " + Stem(d.filePath), ""];
    ghost var head := outputLines;
    var pages := d.pages;
    for i := 0 to |pages|
      invariant outputLines == head + Flatten(AllRegions(pages[..i]), RagEntry)
    {
      assert pages[..i + 1][..i] == pages[..i];
      ghost var before := AllRegions(pages[..i]);
      ghost var done := Flatten(before, RagEntry);
      assert AllRegions(pages[..i + 1]) == before + pages[i].regions;
      var block := RagPage(pages[i].regions);
      FlattenAppend(before, pages[i].regions, RagEntry);
      assert Flatten(AllRegions(pages[..i + 1]), RagEntry) == done + block;
      Sorting.AppendAssociative(head, done, block);
      outputLines := outputLines + block;
    }
    assert pages[..|pages|] == pages;
    text := Join(outputLines, "\n");
  }

  /** A region's contribution is empty or ends with an empty line; an
      unknown type contributes nothing, and text contributes exactly when
      its content is not blank. */
  lemma RagEntryShape(r: Region)
    ensures var e := RagEntry(r);
      && (e == [] || e[|e| - 1] == "")
      && (!Formatted(Kind(r)) ==> e == [])
      && (Kind(r) == "text" ==> (e != [] <==> !IsBlank(ContentOf(r))))
      && (Kind(r) == "table" ==> (e != [] <==> |DataOf(r)| > 1))
  {
    if Kind(r) == "table" {
      NaturalLinesShape(DataOf(r));
      var ls := NaturalLines(DataOf(r));
      if ls != [] {
        JoinStarts(ls, "\n");
      }
    }
  }
}
